=== FILE: README.md ===
# Kohana-Yuki, modelled in Dafny

Kohana-Yuki is a Discord chat bot with a persona. It answers messages through a Gemini language
model, remembers recent conversation per user or per context, can draw or describe images, and
keeps per-server settings in MongoDB: the persona, feature switches and a channel allow-list.
The repository holds three generations of the same bot, and this project models the core of each:

- `bot.js`: one class with server settings (defaults overlaid by the stored document), user data
  with a 50-entry memory, feature toggles, allow-list edits and the message gate (module `Bot`).
- `lib/` with `handlers/` and `models/`: the MongoDB helpers of `lib/database.js` (`LegacyDb`),
  the component and form router of `lib/interactions.js` (`LegacyInteractions`), the message
  handler and image confirmations of `lib/ai.js` (`LegacyAi`), the Mongoose models of
  `models/Guild.js` and `models/User.js` (`Models`) and the message handler of
  `handlers/messageHandler.js` (`MessageHandler`).
- `src/`: the Mongoose schemas (`Schemas`) and store (`MongoStore`), the Gemini wrapper
  (`Gemini`), the `/settings` command (`SettingsCommand`) and the message intake of
  `src/index.js` (`Intake`).

The utilities are modelled too: `truncateText` (`Helpers`), the per-user image rate limit and
prompt enhancement (`ImageGenerator`) and the cached reply classifier (`ReplyFilter`).
Shared modules give the JavaScript operations the code relies on: `Wrappers` (`Option`),
`Text` (`trim`, case mapping, `includes`, `split`, `join`, `parseInt`, `String(n)`), `Lists`
(`Array.from(new Set(..))`, `filter` against a list, `slice(-n)`) and `Docs` (schemaless
documents as maps, `$set` with upsert, JavaScript truthiness).

Every operation is a pure function from a store and an input to a new store and an outcome.
Outcomes name what the bot tells the user rather than the wording of embeds and replies.
Everything the code gets from outside is a parameter:

- the clock (`Date.now()`);
- random draws;
- the language model's answers, with `None` for a call that throws;
- the image API's result;
- Discord's channel and permission lookups;
- for the `src/` store, whether the database is reachable (`up`).

A thrown exception is an outcome (`Crashed`) wherever the code lets one escape.

Text is a Dafny `string`, one element per Unicode character. Where the code measures or cuts a
string by its `length`, as `substring` and Mongoose's `maxlength` do, the model counts UTF-16
code units (`Text.Utf16Length`), two for each character above U+FFFF. `truncateText` works on
the code units themselves (`Helpers.JsString`).

## Model

| member | source | states |
|---|---|---|
| Helpers.Prefix | utils/helpers.js:49 | `substring(0, end)` clamps a negative end to 0 and an end past the text to its length, so the result is always a prefix of the text, of `end` UTF-16 code units when that is in range |
| Helpers.TruncateCases | utils/helpers.js:47-50 | text no longer than the limit comes back unchanged; longer text becomes its first `maxLength - 3` UTF-16 code units followed by `...` |
| Helpers.TruncateBounded | utils/helpers.js:47-50 | from a limit of 3 up, the result never exceeds the limit in UTF-16 code units, and text that does not fit is cut to exactly the limit |
| Helpers.TruncateCountsCodeUnits | utils/helpers.js:47-50 | the limit counts UTF-16 code units: three emoji outside the Basic Multilingual Plane are six units, so at a limit of 5 they become the first emoji and `...` |
| Helpers.TruncateBmp | utils/helpers.js:47-50 | for text of Basic Multilingual Plane characters the units are the characters, so text of at most the limit characters comes back unchanged |
| Helpers.TruncateBelowThree | utils/helpers.js:47-50 | below a limit of 3, text that does not fit becomes exactly `...`, which is longer than the limit |
| Helpers.TruncateShape | utils/helpers.js:47-50 | for any limit, the result is the text itself or a prefix of it followed by `...` |
| Helpers.TruncateIdempotent | utils/helpers.js:47-50 | truncating twice at the same limit of at least 3 gives the same result as truncating once |
| Models.GuildValidIff | models/Guild.js:3-58 | a guild passes validation exactly when both ids are present, the name is at most 10 UTF-16 code units, the gender is one of the three enum values and the two free-text fields are at most 1000 code units |
| Models.NewGuildDefaults | models/Guild.js:9-55 | a guild created from its two ids takes the schema defaults (`Kohana`, 15, `female`, mood `cheerful, friendly`, both features off, no channels, no role), and those defaults pass validation |
| Models.GuildIdsRequired | models/Guild.js:4-8 | a guild without a `guildId` or without a `uniqueId` is refused, whatever its other fields hold |
| Models.UserValidIff | models/User.js:3-36 | a user passes validation exactly when `userId` and `username` are present and the custom instructions are at most 1000 UTF-16 code units |
| Models.UserLimitCountsCodeUnits | models/User.js:18-22 | 600 emoji outside the Basic Multilingual Plane are 1200 code units, so the custom instructions fail the 1000 limit though they are 600 characters |
| Models.NewUserDefaults | models/User.js:3-36 | a new user passes validation exactly when both ids are non-empty; it starts with no mood, no instructions, no preferred name, an empty log and `lastInteraction` set to the creation time |
| Schemas.DefaultNameExceedsMaximum | src/database/schemas.js:9 | the default name `Kohana Yuki` has 11 UTF-16 code units, one over the `maxlength` of 10, so a document holding every default fails validation; shortening only the name makes it pass exactly when the required `_id` is not empty |
| Schemas.SettingsDefaultValues | src/database/schemas.js:8-17 | a new settings document belongs to a guild (not a DM), has the age as the string `15`, both features off and an empty allow-list |
| Schemas.GenderUpdateValid | src/database/schemas.js:7-11 | on a valid document, whose required `_id` is a non-empty string, writing a gender is accepted exactly for `male`, `female` and `transgender` |
| Schemas.InstructionsUpdateValid | src/database/schemas.js:7-14 | on a valid document, whose required `_id` is a non-empty string, writing either instruction text is accepted exactly when it has at most 1000 UTF-16 code units |
| Docs.KeyOf | lib/interactions.js:37-40 | a field name written at run time resolves to the key whose stored name is that same string |
| Docs.KeyOfOther | lib/interactions.js:37-40 | a field name written at run time falls through to an unknown field exactly when it is not one of the documents' own field names |
| Docs.KeyOfKeyName | lib/interactions.js:37-40 | names and keys correspond one to one: reading back a key's stored name gives the same key, for every key except an unknown-field key spelling a known field's name |
| Docs.UpsertWritesOnlyUpdates | lib/database.js:22-28 | an `updateOne` with `$set` and `upsert` writes exactly the supplied fields of the matching document and keeps its other fields and every other document; when no document matches, it creates one from the filter field and the updates |
| LegacyDb.NewServerDefaults | lib/database.js:1-19 | the first read of a server in an empty collection yields its id together with the defaults: name `Kohana Yuki`, age 16, both features off, no allowed channels |
| LegacyDb.DefaultSettingsHold | lib/database.js:1-11 | the default settings carry the documented name, age, feature flags and empty allow-list, and no `guildId` field that could mask the server's id |
| LegacyDb.GetServerSettingsReturnsStored | lib/database.js:13-20 | a settings read returns the document it leaves stored; it adds only this server's id and leaves every other server and every user unchanged |
| LegacyDb.GetServerSettingsInsertsDefaults | lib/database.js:15-18 | for a missing server, the inserted document holds exactly the server's id and the default fields, with the default values |
| LegacyDb.GetServerSettingsIdempotent | lib/database.js:13-20 | a second settings read changes nothing further and returns the same document |
| LegacyDb.UpdateServerSettingsWritesOnlyUpdates | lib/database.js:22-28 | a settings update writes the supplied fields of one server, keeps its other fields, creates the document with its id when it is missing, and changes no other server and no user |
| LegacyDb.ResetThenReadSeesDefaults | lib/interactions.js:22-23 | after the defaults are written over a server's settings, the next read sees every default value |
| LegacyDb.GetUserDataNormalises | lib/database.js:30-48 | a user read stores a fresh default user only when none exists, and returns a copy whose history and timestamp are truthy; the copy agrees with the stored document on every other field |
| LegacyDb.UpdateUserDataWritesOnlyUpdates | lib/database.js:50-56 | a user update writes the supplied fields of one user, keeps that user's other fields, and changes no other user and no server |
| LegacyDb.StoredHistoryIsPrior | lib/database.js:41-43 | a stored history that is a list is exactly what the next read of the user hands over |
| LegacyDb.AddMessageToMemory | lib/database.js:58-78 | an append succeeds exactly when the history read is a list of turns, any other history raising the type error; the stored history is then the last 50 turns of the old history plus the new turn, and `lastMessageTime` is the current time |
| LegacyDb.Kept | lib/database.js:70-72 | cutting the history after a push with `slice(-50)` once it exceeds 50 turns keeps exactly its last 50 turns |
| LegacyDb.AddMessageBounded | lib/database.js:67-72 | after an append the history holds between 1 and 50 turns, ends with the new turn, is a suffix of the old history plus the turn, and is all of it when that fits |
| LegacyDb.AddMessageWrites | lib/database.js:74-77 | an append is a user read followed by a write of exactly two fields, the history and `lastMessageTime` |
| LegacyDb.ReadThenWriteFrame | lib/database.js:30-56 | reading a user and then writing some of its fields changes no server, no other user and no other field of that user |
| LegacyDb.AddMessageFrame | lib/database.js:58-78 | an append changes no server, no other user, and no field of this user except the history and `lastMessageTime` |
| LegacyDb.AddMessageKeepsWindow | lib/database.js:67-72 | when the stored history is the last 50 turns of a conversation log, after an append it is the last 50 turns of that log plus the new turn |
| LegacyDb.LastUserIndex | lib/database.js:84-85 | the search finds the most recent turn with role `user`, or reports that there is none |
| LegacyDb.EditLastUser | lib/database.js:84-91 | an edit replaces the first text of the most recent user turn and marks it edited at `now`, keeping every other turn; it fails only when that turn has no text part, and leaves the history alone when there is no user turn |
| LegacyDb.UpdateMessageInMemory | lib/database.js:80-96 | on a history read as a list of turns, an edit succeeds exactly when the edit of its last user turn succeeds, and the stored history is then that edit's result; any other history is written back as read |
| LegacyDb.UpdateMessageFrame | lib/database.js:93-95 | an edit changes no server, no other user, and no field of this user except the history |
| LegacyDb.AddMessageKeepsParts | lib/database.js:60-65 | when every stored turn carries a text part, every turn still does after an append |
| LegacyDb.UpdateMessageKeepsParts | lib/database.js:84-91 | when every stored turn carries a text part, an edit always succeeds and keeps that true |
| LegacyInteractions.ParseCustomId | lib/interactions.js:8 | splitting a custom id on `_` gives a main id and arguments with no `_` in them, which joined with `_` give back the id |
| LegacyInteractions.ParsePlainId | lib/interactions.js:8 | an id without `_` is its own main id, with no arguments |
| LegacyInteractions.ParseToggleId | lib/interactions.js:116 | a button id `toggle_<feature>` parses as main id `toggle` with the feature as its only argument |
| LegacyInteractions.ToggleFlipsOneKey | lib/interactions.js:38-40 | a toggle stores the negation of the key's truthiness and leaves every other key and every other server as the read left them |
| LegacyInteractions.ToggleTwice | lib/interactions.js:38-40 | toggling the same key twice restores its truthiness |
| LegacyInteractions.ToggleButtonTargetsNamedKey | lib/interactions.js:34-42 | a `toggle_<feature>` button flips the settings key named by `<feature>`; `toggle_imageGeneration` flips the image-generation flag |
| LegacyInteractions.ChannelsAfterWrite | lib/interactions.js:48 | after an allow-list is written for a server, the next read returns it |
| LegacyInteractions.AddChannelsUnion | lib/interactions.js:45-48 | adding channels stores a duplicate-free list holding exactly the spread of the stored value and the selected ids; when the stored value is missing, null, a boolean, a number or a plain object, spreading throws and only the read's effect remains |
| LegacyInteractions.AddChannelsSpreadsString | lib/interactions.js:47 | a string stored as the allow-list is spread into its characters, so the stored list holds exactly its single characters and the selected ids |
| LegacyInteractions.AddChannelsKeepsOrder | lib/interactions.js:47 | on a duplicate-free allow-list, adding keeps the old ids first and in order, followed by the new ones |
| LegacyInteractions.RemoveChannelsFilters | lib/interactions.js:50-53 | removing channels stores the old list without the selected ids, in the old order; a list of turns or entries is written back whole; a value that is not an array, a string included, throws and leaves only the read's effect |
| LegacyInteractions.RemoveUndoesAdd | lib/interactions.js:45-53 | removing ids that an add just introduced restores the earlier duplicate-free allow-list |
| LegacyInteractions.HandleInteraction | lib/interactions.js:4-5 | anything that is not a message component leaves the store unchanged |
| LegacyInteractions.SelectMenuChoices | lib/interactions.js:10-33 | the reset choice writes the defaults over the server's settings, the clear choice empties the user's instructions, and a select event with no value changes nothing |
| LegacyInteractions.HandleInteractionFixed | lib/interactions.js:4-5 | the corrected guard behaves as the original on message components and still ignores other interactions |
| LegacyInteractions.PersonaModalDispatch | lib/interactions.js:56-71 | with the corrected guard, a persona submission reaches the modal branch |
| LegacyInteractions.PersonaModalValidatesAge | lib/interactions.js:58-69 | with the corrected guard, an age that does not parse leaves the store unchanged; otherwise the five persona fields are written, the age as a number |
| LegacyInteractions.InstructionsModalStores | lib/interactions.js:72-74 | with the corrected guard, submitted instructions are stored for that user |
| LegacyInteractions.PersonaModalUnreachable | lib/interactions.js:5 | as written, a complete persona submission with a valid age leaves the store untouched, where the corrected guard stores it |
| LegacyAi.RestOfLine | lib/ai.js:17 | `.+` consumes the longest prefix without a line terminator, and stops only at one |
| LegacyAi.MatchKeyword | lib/ai.js:17 | a match means the content starts with the keyword in any letter case, then one whitespace character, then a non-empty rest of the line, which is the captured group |
| LegacyAi.DrawRequestPrompt | lib/ai.js:17-19 | `draw <prompt>` on one line, with the keyword in any letter case, asks for the trimmed prompt |
| LegacyAi.OutsideAllowListIgnored | lib/ai.js:11-13 | a guild message the allow-list shuts out is ignored: no user record, no request and no reply; a list shuts out a channel it lacks, a string one it does not contain, and a number, boolean or plain object nothing |
| LegacyAi.ImageRequestTakesPrecedence | lib/ai.js:17-20 | with image generation on, a matching message becomes a pending request and goes no further: no turn is recorded and no reply is generated |
| LegacyAi.FailedAnswerApologises | lib/ai.js:26-66 | past the gate and the image trigger, a triggered message whose model call fails gets the apology, and its user turn is still recorded as the last turn of the history |
| LegacyAi.ReplyRecordsBothTurns | lib/ai.js:22-29 | past the gate and the image trigger, the bot replies exactly when it is mentioned, replied to, named or in a DM; it then records the user turn and the model turn before replying |
| LegacyAi.TwoTurnsRecorded | lib/ai.js:27 | recording a user turn and then a model turn leaves the two, in that order, at the end of the history |
| LegacyAi.ExpireRequests | lib/ai.js:83 | exactly the requests younger than five minutes survive, unchanged |
| LegacyAi.Resolve | lib/ai.js:89-121 | an unknown or expired request is reported as expired; `no` discards it and anything else draws it; a handled request is always removed |
| LegacyAi.RequestKeyHasNoUnderscore | lib/ai.js:70 | a request key contains no `_` when the author id has none, as for Discord's numeric ids |
| LegacyAi.ButtonIdFields | lib/ai.js:74-75 | a confirmation button id splits into exactly three fields: the prefix, the action and the request key |
| LegacyAi.EveryConfirmationExpires | lib/ai.js:88 | as written, every confirmation button reports an expired request, because the field read as the request id does not exist |
| LegacyAi.ConfirmationLifeCycle | lib/ai.js:69-121 | reading the fields where the ids put them, a request answered within five minutes is resolved and removed (`no` declines it, `yes` draws its prompt), and after five minutes it has expired |
| Bot.InitialIdentity | bot.js:43-54 | a new bot is named `Kohana Yuki`, is aged 16, and keeps its empty last-reply map inside the default settings rather than on the instance |
| Bot.InitialFeatures | bot.js:50-52 | a new bot has image generation and web search on and an empty allow-list |
| Bot.EnsureServerSetupKeepsReads | bot.js:154-163 | the set-up stores a document holding the id and every default for a guild without one, leaves a stored guild, every other guild and the users alone, changes no read but the id, and is idempotent |
| Bot.ServerSettingsOverlay | bot.js:196-199 | a settings read holds every default key and every stored key, and a stored value wins over the default for the same key |
| Bot.UpdateThenReadServer | bot.js:201-208 | after an update, a read of that server sees the supplied values, and every other server reads as before |
| Bot.UpdateKeepsOtherKeys | bot.js:201-208 | an update leaves every field it does not supply, other than the id, reading as before |
| Bot.UpdateThenReadUser | bot.js:210-222 | after a user update, a read sees the supplied values and the user's other stored fields, and a new user document carries its id |
| Docs.AllowGateKinds | bot.js:672 | the allow-list test throws exactly on a missing or null value, agrees with list membership on a list of ids, and never shuts out on a number, boolean or plain object |
| Docs.CharsSpec | lib/interactions.js:47 | a string spread into an array gives one one-character string per character, and exactly those |
| Docs.SpreadKinds | lib/interactions.js:47 | spreading throws exactly on a missing, null, boolean, number or plain-object value; a list of ids spreads into its ids and a string into its characters |
| Docs.FilterOutKinds | lib/interactions.js:52 | `filter` throws exactly on a value that is not an array, a string included; a list of ids keeps exactly its unselected ids; a list of turns or entries comes back whole |
| Docs.AllowGateString | bot.js:672 | a non-empty string allow-list shuts a channel out exactly when the string does not contain its id, as `includes` on a string does |
| Bot.AddUserMemory | bot.js:224-234 | an append fails exactly when the stored memory is truthy but not a list of entries; otherwise the stored memory becomes the last 50 entries of the old memory plus the new entry |
| Bot.AddUserMemoryWindow | bot.js:226-232 | after an append the memory holds between 1 and 50 entries and ends with the new one; older entries leave only from the front; no server and no other user changes |
| Bot.ToggleFeatureFlipsOne | bot.js:572-575 | a toggle stores the negation of the flag as read through the defaults, and every other field of the server and every other server reads as before |
| Bot.ToggleFeatureTwice | bot.js:572-575 | toggling a boolean flag twice restores the value it read as before |
| Bot.AddChannelAppends | bot.js:533-540 | on an allow-list that reads as a list of ids, the add answers that the channel is already allowed when it is in the list, and otherwise writes the list with the channel appended |
| Bot.AddChannelKeepsNoDup | bot.js:522-541 | an unknown or non-text channel changes nothing; a text channel is appended exactly when it is absent, so a duplicate-free allow-list stays duplicate-free; the defaults change exactly when the list pushed onto is the defaults' own |
| Bot.AddChannelSharedDefaults | bot.js:196-199 | for a guild with no stored allow-list, the push lands on the defaults' own array, so every other guild without a stored list reads the new list from then on, while a guild with its own list reads it as before |
| Bot.AddChannelOtherValues | bot.js:533-540 | a falsy allow-list starts a new list holding the channel; a string answers "already allowed" when it contains the id and otherwise throws at `push`; a number, boolean or object throws at `includes`; nothing is written when it throws |
| Bot.RemoveChannelKeepsOthers | bot.js:652-657 | removing the id at a position of a duplicate-free allow-list keeps every other id, in order |
| Bot.RemoveChannelOtherValues | bot.js:652-656 | removal throws exactly when the allow-list is not an array, a string included; a list of turns or entries is written back whole; the defaults never change |
| Bot.RecentTurns | bot.js:774-781 | the assembled chat history has one turn per entry of the last ten memory entries, followed by the new message as a `user` turn |
| Bot.RecentTurnsRoles | bot.js:775-778 | each of the last ten entries appears in order with its `(username): text` label, as a `user` turn exactly when the author wrote it and as a `model` turn otherwise |
| Bot.GreetingCrashes | bot.js:688 | as written, a greeting that passes the allow-list is recorded in memory and then the handler throws, because the last-reply map it reads does not exist on the instance |
| Bot.ReplyFollowedByApology | bot.js:679-884 | as written, when the user's memory read before the message was stored is a list, every answer the model gives is sent and then followed by the apology, because recording the reply time throws inside the reply's `try`; otherwise `slice` throws first and only the apology is sent |
| Bot.HiIsGreeting | bot.js:684 | content starting with `Hi`, in any letter case, counts as a greeting |
| Bot.GateBeforeMemory | bot.js:670-686 | both handler versions drop a guild message the allow-list shuts out before any write, and record every admitted message in memory before the reply decision |
| Bot.FixedReplyDecision | bot.js:679-884 | with the last-reply map kept, the bot stays silent exactly when it is not addressed, not greeted outside the five-minute window and not in a DM; otherwise, when the memory read before the message was stored is a list, it sends the answer once, stores it and records the reply time, and when it is not, it sends only the apology and records neither |
| Bot.GreetingRateLimited | bot.js:688-880 | with the map kept, a greeting answered now, from a user whose memory could be read, is not answered again within five minutes, against the store the first answer left, unless the bot is otherwise addressed; a greeting that fails on an unreadable memory records no reply time |
| Bot.SecondGreetingSilent | bot.js:688-694 | a greeting in a guild from a user last answered less than five minutes ago, not otherwise addressing the bot, is met with silence |
| Bot.MemorylessUserApologises | bot.js:679-884 | in both versions, an addressed message from a user whose stored memory is missing or not a list gets only the apology: the message is stored, the model's answer is not, and the fixed version records no reply time |
| Bot.MissingMemoryUnreadable | bot.js:210-212 | a stored user document without a memory field, such as one an instructions update created, cannot have its memory sliced |
| Bot.NewUserMemoryReadable | bot.js:210-212 | a user never stored reads with an empty list as memory, which can be sliced |
| Bot.NumberAllowListAdmits | bot.js:671-674 | a number stored as a guild's allow-list neither throws nor shuts the message out |
| Gemini.TextParts | src/ai/gemini.js:26 | a stored entry's parts become text parts one for one, keeping each text |
| Gemini.HistoryTurnsAppend | src/ai/gemini.js:24-28 | converting a concatenated history converts each part, so the kept turns keep their relative order |
| Gemini.HistoryTurnsCount | src/ai/gemini.js:24-28 | the conversion yields one turn per `user` or `bot` entry and none for any other role, so a history of valid entries loses nothing |
| Gemini.HistoryTurnsOfValid | src/ai/gemini.js:25-26 | a history of valid entries converts entry by entry, `user` staying `user` and `bot` becoming `model` |
| Gemini.DropsOtherRoles | src/ai/gemini.js:25 | an entry in any role other than `user` or `bot` contributes nothing, wherever it stands |
| Gemini.BuildContents | src/ai/gemini.js:17-50 | the request holds the system prompt as a user turn, the fixed acknowledgement as a model turn, the converted history, then the user's prompt, which carries a second part exactly when a non-empty image is given |
| Gemini.GenerateTextOutcomes | src/ai/gemini.js:69-81 | the reply is the first part's text when the body has a first candidate with a part, the shape apology for any other body, and the error apology when the call throws |
| Gemini.YesAnywhereDecidesYes | src/ai/gemini.js:129-134 | an answer containing `yes` in any letter case, with any surroundings, makes the bot reply |
| Gemini.EyesDecidesYes | src/ai/gemini.js:131 | the substring test also accepts an answer that merely contains the letters, such as `eyes` |
| Gemini.NoDecidesNo | src/ai/gemini.js:129-131 | a plain `NO` makes the bot stay silent |
| Gemini.GenerateImageDataUrl | src/ai/gemini.js:99-109 | a data URL is returned exactly when the first prediction carries non-empty bytes, and it is the PNG base64 prefix followed by those bytes |
| ImageGenerator.Recent | utils/imageGenerator.js:107 | the window filter keeps exactly the timestamps less than a minute old, and never grows the list |
| ImageGenerator.RecentCounts | utils/imageGenerator.js:107 | the filtered list has one element per position whose timestamp lies inside the window |
| ImageGenerator.CheckRateLimitCounts | utils/imageGenerator.js:103-114 | a user may go on exactly when fewer than ten of their stored timestamps lie within the last minute; a user without an entry always may |
| ImageGenerator.CheckRateLimitPrunes | utils/imageGenerator.js:105-107 | the check adds no user and changes no other entry, but prunes the asking user's stored window and keeps its creation time |
| ImageGenerator.RateLimitedBeforeCall | utils/imageGenerator.js:12-15 | over the limit the request is refused before the endpoint is called, so the endpoint's answer changes nothing |
| ImageGenerator.FailedCallRecordsNothing | utils/imageGenerator.js:17-26 | a failed call records nothing: no user is added and no user gains a timestamp |
| ImageGenerator.SuccessRecordsRequest | utils/imageGenerator.js:17-22 | a successful call returns the image for the enhanced prompt and records its completion time, unless the cleanup that follows forgets the user, which it never does with fewer than 1000 users tracked |
| ImageGenerator.UpdateRecordsNow | utils/imageGenerator.js:116-126 | an update records `now` for the user unless the cleanup forgets them, which it cannot with fewer than 1000 users tracked |
| ImageGenerator.UpdateRateLimitWindow | utils/imageGenerator.js:116-126 | after an update the user's window holds `now` and exactly the earlier timestamps still inside it; every other user keeps their entry; the entry's creation time is never refreshed |
| ImageGenerator.CleanupDropsStale | utils/imageGenerator.js:128-137 | with at most 1000 users the cleanup keeps everything; above that, it drops exactly the entries created over five minutes ago; kept entries are unchanged |
| ImageGenerator.CleanupForgetsActiveUser | utils/imageGenerator.js:118-133 | because the creation time is never refreshed, the cleanup forgets a user whose entry is over five minutes old however recently they asked, and their next check passes |
| ImageGenerator.EnhancePromptShape | utils/imageGenerator.js:75-101 | the enhanced prompt is the styled prompt, then `, highly detailed` exactly when the styled prompt lacks `detailed`, then the safety clause; the anime-art clause never appears because an anime style already names it |
| ImageGenerator.EnhancePromptDefaults | utils/imageGenerator.js:78-82 | without options, or with empty ones, the prompt gets the anime style, high quality and vibrant colours |
| ImageGenerator.EnhancePromptEnds | utils/imageGenerator.js:75-101 | the enhanced prompt starts with the trimmed prompt and ends with the safety clause |
| Intake.PersonalityOverlay | src/index.js:146 | the personality holds every default field and every stored field, and a stored value wins over the default for the same field |
| Intake.DefaultPersonalityValues | src/index.js:146 | without stored settings the bot is `Kohana Yuki`, aged `15`, with image generation off |
| Intake.InstructionsFallback | src/index.js:178-181 | custom instructions that are only whitespace give way to the stored default instructions; any other text is used as it is |
| Intake.ImagePromptRemovesFirstPhrase | src/index.js:216-218 | without the image flag there is no image prompt; a prompt is the lower-cased content with the first occurrence of `generate image of` removed, trimmed and non-empty |
| Intake.TextRequestImage | src/index.js:189-203 | the text request carries the image exactly when the attachment's type starts with `image/` and its download produced bytes |
| Intake.BotMessagesIgnored | src/index.js:119-121 | a message whose author is a bot, the bot's own replies included, is ignored and nothing is stored |
| Intake.GateKinds | src/index.js:136-142 | the gate never throws: a missing document or a falsy value admits every channel, a list of ids admits the channels in it, a non-empty string the channels whose id it contains, and a number, boolean or object every channel |
| Intake.OutsideAllowListIgnored | src/index.js:136-142 | a guild message the allow-list shuts out is ignored and nothing is stored |
| Intake.SaveTurnsAppends | src/index.js:229-230 | saving appends the user's turn, then the bot's turn when given, to the history of the message's own context, and to no other history |
| Intake.SavedTurns | src/index.js:205-267 | the user's turn alone is saved when the classifier says no; the user's turn and then the bot's are saved after a text or image reply; nothing is saved when the generated reply is empty, the message is ignored or the handler throws |
| Intake.TextAnswerReplies | src/index.js:235-257 | on the text path a body without a first part is answered with the shape apology, or the error apology when the call throws, and both turns are saved; a first part with non-empty text is sent and saved; an empty text sends and saves nothing |
| Intake.ReplyNeedsYes | src/index.js:206-240 | a reply is sent only when the classifier says yes or fails, and an image request never reaches the text reply |
| MongoStore.PutSettingsValid | src/database/mongo.js:54-58 | writing a settings document keeps the insertion order a duplicate-free list of exactly the stored ids |
| MongoStore.UpdateBotPersonalityWrites | src/database/mongo.js:40-64 | for data without `_id` or `defaultInstructions`, an update stores and returns the document with every supplied field and the DM flag set and every other field kept; a new document gets its id and the fixed instructions |
| MongoStore.PersonalityUpdateConflicts | src/database/mongo.js:45-58 | data that carries `defaultInstructions` conflicts with the set-on-insert clause, so the update as written stores nothing and returns `null`; the corrected update stores the supplied instructions |
| MongoStore.UpdateBotPersonalityFixedWrites | src/database/mongo.js:40-64 | the corrected update stores and returns the document with every supplied field, `defaultInstructions` included, and the DM flag |
| MongoStore.FixedAgreesWithoutConflict | src/database/mongo.js:45-58 | the corrected update and the update as written agree on every call whose data does not carry `defaultInstructions` |
| MongoStore.UpdateAllowedChannelsReplaces | src/database/mongo.js:98-110 | after the update, the stored allow-list is exactly the given one; no other field, document or history changes, and the returned document is the stored one |
| MongoStore.FirstInstructions | src/database/mongo.js:72 | the scan finds nothing exactly when no document in insertion order has the `defaultInstructions` field |
| MongoStore.FirstInstructionsIsEarliest | src/database/mongo.js:72-74 | a value found is the `defaultInstructions` of the earliest document, in insertion order, that has the field |
| MongoStore.DefaultInstructionsFallback | src/database/mongo.js:67-83 | when no stored document has the field, or the read throws, the answer is the fixed instructions text |
| MongoStore.GetChatHistoryLast | src/database/mongo.js:113-125 | a history read returns the last `limit` entries, or all of them when there are fewer; a limit of 0 returns the whole history, and a failed read returns nothing |
| MongoStore.SaveAppendsOne | src/database/mongo.js:128-138 | a save appends exactly one entry to the one matching history; nothing is trimmed and no other history or setting changes |
| MongoStore.SaveKeepsEntriesValid | src/database/schemas.js:25-28 | saving a turn whose role is `user` or `bot` and whose text is non-empty keeps every stored entry valid |
| MongoStore.SaveSkipsValidation | src/database/mongo.js:128-138 | the push is not validated: saving an empty text stores an entry the schema would reject |
| MongoStore.ReadAfterSave | src/database/mongo.js:113-138 | a read with the default limit after a save ends with the saved entry |
| MongoStore.ClearAllDataRemoves | src/database/mongo.js:141-151 | a successful clear leaves no history for the context and DM flag and keeps every other history; it removes the settings exactly when their DM flag matches and keeps the insertion order consistent; a failed clear changes nothing and reports false |
| MessageHandler.TrimmedNonEmptyClean | handlers/messageHandler.js:60 | when no field holds a comma, every kept field is non-empty, trimmed and comma-free |
| MessageHandler.TrimmedNonEmptyKeeps | handlers/messageHandler.js:60 | every field with something besides whitespace is kept, trimmed |
| MessageHandler.TrimmedNonEmptyFrom | handlers/messageHandler.js:60 | everything kept is the trimmed form of some field |
| MessageHandler.SegmentsWellFormed | handlers/messageHandler.js:60 | every segment of a message is non-empty, trimmed and comma-free, and is a trimmed comma-separated field; every field with something besides whitespace appears, trimmed |
| MessageHandler.NoCommaOneSegment | handlers/messageHandler.js:60 | a message without commas is one segment, itself trimmed, unless it is blank, in which case there is none |
| MessageHandler.FirstResponding | handlers/messageHandler.js:62-109 | the search finds the first segment, from a given position on, whose verdict is to respond, or reports that none responds |
| MessageHandler.FindResponding | handlers/messageHandler.js:62-109 | the loop with its `break` examines the segments in order and stops at the first that responds, none before it responding; without one it reports none |
| MessageHandler.AppendHistoryBounded | handlers/messageHandler.js:90-98 | from a log of at most 50 entries, an append gives at most 50 entries ending with the new one, a suffix of everything appended; a log of 50 is cut to 30; the 30 newest entries are never lost |
| MessageHandler.ContextDefaults | handlers/messageHandler.js:113-120 | without guild settings the prompt introduces a 15-year-old female Kohana who is cheerful and friendly, has no guild sections, and ends with the current message |
| MessageHandler.ContextGuildSections | handlers/messageHandler.js:123-129 | the personality-override and behaviour sections appear exactly when the guild's text for them is non-empty, and then with that text |
| MessageHandler.ContextUserSections | handlers/messageHandler.js:131-137 | the user-instructions and address-as sections appear exactly when the user's text for them is non-empty, and then with that text |
| MessageHandler.ContextHistory | handlers/messageHandler.js:139-145 | the prompt quotes the newest five log entries, oldest first, and nothing else as history; the heading appears exactly when the log is non-empty |
| MessageHandler.HistoryPiecesQuote | handlers/messageHandler.js:139-145 | the history block quotes the newest five entries in order, under a heading present exactly when there are any |
| MessageHandler.ContextEnds | handlers/messageHandler.js:147 | the prompt ends with the current message and the instruction to answer as the bot |
| MessageHandler.GateIgnores | handlers/messageHandler.js:7-21 | a message is ignored exactly when a bot sent it or its guild has no settings or an allow-list that excludes the channel; then nothing is written |
| MessageHandler.DirectMessageImage | handlers/messageHandler.js:37-55 | in a direct message the bot is named Kohana and image generation is on, so a matching request always gets either the image reply or the image apology |
| MessageHandler.ImageNeedsFlag | handlers/messageHandler.js:38-43 | a guild with image generation off never serves an image request |
| MessageHandler.AnswerWrites | handlers/messageHandler.js:62-110 | once the user record exists, only a successful reply writes, and it writes only that user's log and last-interaction time |
| MessageHandler.AnswerFirstSegment | handlers/messageHandler.js:62-109 | a reply or an apology answers the first segment that responds, none before it responding, and a reply is generated from the prompt for that segment |
| MessageHandler.ReplyIsFirstResponding | handlers/messageHandler.js:57-110 | the handler replies at most once: a reply or an apology answers the first responding segment, generated from that segment's prompt and the log before it; silence means no segment responded |
| MessageHandler.HistoryOnlyOnReply | handlers/messageHandler.js:90-101 | the log changes only on a successful reply, and then by exactly one appended entry; every other user and every guild stay as they were |
| MessageHandler.HistoryStaysBounded | handlers/messageHandler.js:96-98 | handling a message keeps every user's log within 50 entries |
| ReplyFilter.KeyIgnoresCaseAndSpace | utils/replyFiter.js:103-110 | messages that differ only in letter case or surrounding whitespace share a cache key; an empty context fills in not mentioned, not a reply and the name `Kohana` |
| ReplyFilter.AnalyzeImpliesSubstring | utils/replyFiter.js:39-42 | every answer the exact `YES` test accepts, the substring test of the `src/` classifier accepts too |
| ReplyFilter.SubstringAcceptsMore | utils/replyFiter.js:39-42 | the converse fails: `YES!` is refused by the exact test and accepted by the substring test |
| ReplyFilter.FallbackShortMessages | utils/replyFiter.js:76-101 | without a mention or reply, a normalised message shorter than three UTF-16 code units and without `?` is never answered, so the greetings `hi` and `yo` never reach the greeting rule |
| ReplyFilter.FallbackTwoEmoji | utils/replyFiter.js:87-101 | the length rule counts code units: two emoji outside the Basic Multilingual Plane pass it and are answered on the general odds, above 0.7 |
| ReplyFilter.NoLongerWordContained | utils/replyFiter.js:95-96 | a message contains none of a list of words that are all longer than it |
| ReplyFilter.LowerWordNormal | utils/replyFiter.js:77 | a word of lower-case letters is its own normal form |
| ReplyFilter.CleanupRemovesStale | utils/replyFiter.js:112-121 | up to 1000 entries the cleanup changes nothing; above that it removes exactly the entries older than five minutes; kept entries are unchanged |
| ReplyFilter.FreshEntryAnswers | utils/replyFiter.js:12-16 | an entry younger than five minutes answers without consulting the classifier, and the cache is unchanged |
| ReplyFilter.MissConsultsClassifier | utils/replyFiter.js:17-33 | without a fresh entry, a classifier answer decides and is cached with the current time, replacing any stale entry; a thrown call decides by the fallback and leaves no entry for the key; no other entry is added or changed |
| ReplyFilter.BatchOrder | utils/replyFiter.js:123-139 | the batch results name the messages in order, every decision before the last is a no, and the batch stops before the last message only after a yes |
| ReplyFilter.ProcessMultipleMessages | utils/replyFiter.js:123-139 | the loop produces exactly the batch's results and final cache, deciding each message with the cache the previous decision left |
| ReplyFilter.RunBatch | utils/replyFiter.js:126-136 | the loop over the messages, with its `break`, computes the batch for any way of deciding one message |
| SettingsCommand.TextChannelIds | src/commands/settings.js:204-209 | the menu values are exactly the ids of the guild's text channels |
| SettingsCommand.NonAdminChangesNothing | src/commands/settings.js:36-41 | a non-administrator in a guild never changes the store, and is told they need administrator rights exactly for the settings command, button presses, form submissions and menu selections |
| SettingsCommand.ChannelButtonsNeedGuild | src/commands/settings.js:199-203 | in a direct message both channel buttons answer that channel settings are for servers only and change nothing |
| SettingsCommand.MenuBounded | src/commands/settings.js:219-221 | a channel menu offers the first values in order, between 1 and 25 of them, allows as many picks as it offers, and offers all values when there are at most 25 |
| SettingsCommand.SetChannelsMenuOffersTextChannels | src/commands/settings.js:199-228 | the add menu changes nothing, reports a guild without text channels, offers exactly the text channels when there are at most 25, and never offers anything but a text channel |
| SettingsCommand.AddChannelsUnion | src/commands/settings.js:389-397 | the stored list is the old list in order followed by the newly selected channels, each once; it holds exactly the old and the selected channels and has no duplicate |
| SettingsCommand.RemoveChannelsFilters | src/commands/settings.js:405-413 | the stored list is the old list without the selected channels, in order: a channel stays exactly when it was allowed and not selected |
| SettingsCommand.ChannelEditSteps | src/commands/settings.js:389-413 | on a stored list of ids, adding writes the old list merged with the selection and removing writes the old list less the selection, both reported as updated |
| SettingsCommand.ChannelEditsOtherValues | src/commands/settings.js:389-413 | adding to a string stores its characters and the selection, and removing from it throws; a number, boolean or object makes both edits throw; a list of turns or entries makes both report failure and write nothing, because the schema's cast of its objects to strings fails |
| SettingsCommand.AddThenRemoveRestores | src/commands/settings.js:389-413 | adding a selection of channels not yet allowed and then removing the same selection restores the allow-list exactly |
| SettingsCommand.InvalidGenderRefused | src/commands/settings.js:322-332 | a gender outside male, female and transgender after lower-casing is refused and nothing is written |
| SettingsCommand.PersonalityFormNeverSaved | src/commands/settings.js:319-364 | as written, an administrator's personality form with a valid gender is never saved and the user is told the update failed |
| SettingsCommand.PersonalityDataFields | src/commands/settings.js:320-334 | the update carries name, age, mood and both instructions as typed and the gender lower-cased, and neither the id nor the DM flag |
| SettingsCommand.PersonalityFormSavedWhenCorrected | src/commands/settings.js:334-338 | with the update conflict removed, a valid form is stored: every field it carries and the DM flag |
| SettingsCommand.ToggleFormShowsFlags | src/commands/settings.js:170-197 | the toggle form shows each current flag as yes or no and changes nothing |
| SettingsCommand.ToggleSubmitStores | src/commands/settings.js:366-377 | each flag is stored as whether its answer reads `yes` in any letter case |
| SettingsCommand.ToggleFormRoundTrip | src/commands/settings.js:183-190 | submitting the toggle form as it was shown stores each flag with the truth value it had |
| SettingsCommand.YesNoAnswer | src/commands/settings.js:367-371 | the `yes` the form shows reads back as on and its `no` as off |
| SettingsCommand.ConfirmClearResets | src/commands/settings.js:287-305 | confirming the reset leaves one fresh document holding the defaults and the DM flag, and no chat history of the context |
| Lists.DedupSpec | lib/interactions.js:47 | `Array.from(new Set(xs))` has no repeated element and holds exactly the elements of `xs` |
| Lists.UnionKeepsOldFirst | src/commands/settings.js:395 | deduplicating a duplicate-free list followed by new items keeps the old list first and in order, then each new item once |
| Lists.WithoutSpec | src/commands/settings.js:411 | the filter keeps exactly the elements not in the removed list |
| Lists.RemoveAfterUnion | src/commands/settings.js:395-411 | when none of the selected items was in the list, removing the selection after adding it gives back the list |
| Text.TrimIsBothEnds | src/index.js:179 | `trim` is `trimStart` followed by `trimEnd` |
| Text.TrimEmptyIffAllSpace | src/index.js:179 | a string trims to the empty string exactly when every character is whitespace |
| Text.TrimIdempotent | handlers/messageHandler.js:60 | trimming twice is trimming once |
| Text.SplitJoin | handlers/messageHandler.js:60 | joining the fields of `split(c)` with `c` gives back the string |
| Text.SplitFieldsFree | lib/interactions.js:8 | no field of `split(c)` contains `c` |
| Text.ParseIntOfIntToString | lib/interactions.js:60 | `parseInt` reads back every integer of magnitude at most 2^53 from its decimal rendering |

## Left out

- Discord I/O is not modelled: embeds, modal layouts, select-menu labels, `followUp` and `deferUpdate`, and reply wording. Outcomes name the reply instead.
- The Express keep-alive server (`bot.js:66-115`) is not modelled.
- Command registration (`src/commands/settings.js:13-28`) and the `init` and `setupEvents` wiring of `bot.js` are not modelled. They are event plumbing.
- Role creation and renaming are not modelled: `bot.js:165-194`, `src/index.js:148-171`, `src/commands/settings.js:295-303` and `340-361`. They touch Discord roles and only read the store. The guild set-up that runs before `createBotRole` (`bot.js:154-163`) does write the store and is modelled by `Bot.EnsureServerSetup`.
- The settings panels and forms of `bot.js:236-521` and `546-651`, other than the channel-add form, are not modelled. They display settings or write fields through `updateServerSettings` and `updateUserData`, which are modelled. The same holds for the modal builders of `lib/interactions.js:81-160`.
- `connectDB` and the 16-digit id (`src/database/mongo.js:9-26`) are not modelled. Neither are `generateMessageId` (`lib/database.js:98-100`) and `createDirectoryStructure`, `generateUniqueId` and `getRandomGif` (`utils/helpers.js:5-45`). They are connection set-up, filesystem access or random draws.
- The GIF attached to replies is not modelled: `src/index.js:244-254` and `handlers/messageHandler.js:82-87`. It is a network fetch that does not affect the store.
- The `setTimeout` typing delays are not modelled.
- Calls to Gemini are oracle answers: the text, the image, the classifier verdict and the search query. Generation config, safety settings and prompt wording are not modelled, including `buildAnalysisPrompt` (`utils/replyFiter.js:45-74`).
- Parsing of the image API's response is not modelled: `callGeminiImageAPI` (`utils/imageGenerator.js:29-73`) is an oracle returning an image or an error.
- `createImageEmbed`, `parseImageCommand` and `getImageGenerationHelp` (`utils/imageGenerator.js:139-218`) are not modelled. They are presentation only.
- Image understanding and image drawing in `bot.js` are not modelled: `handleImageUnderstanding`, `handleImageGeneration` and the `isImageGenerationRequest` classifier (`bot.js:716-765` and `888-937`). The handler records which of the two a message is routed to. The classifier is an oracle.
- The web search step of `bot.js` `generateReply` (`bot.js:820-860`) is not modelled. The reply text is an oracle answer.
- The image-request regular expression of `handlers/messageHandler.js:40` is an oracle flag.
- The regular expression of `lib/ai.js:17` is modelled as a whitespace-separated keyword match. Punctuation directly after a keyword is therefore not modelled.
- MongoDB atomicity and concurrent updates are not modelled. Each operation is one step.
- `clearAllData` failing between its two deletes (`src/database/mongo.js:141-151`) is not modelled. The reset either completes or reports failure with the store unchanged.
- The schemas' `timestamps` option and Mongoose's automatic `createdAt` and `updatedAt` are not modelled.
- Case mapping covers ASCII letters only, and `trim` uses the ECMAScript whitespace set. Unicode case folding is not modelled.
- The mapping of the chat history in `decideToReply` (`src/ai/gemini.js:116-119`) is not modelled. The classifier's answer is an oracle and does not depend on it.
- LegacyDb.AddMessageToMemory: a stored history is assumed to be a list of turns when it is a list. JavaScript's `push` also accepts a list of other values, which the model does not represent.
- Bot.AddUserMemory: a stored memory is assumed to be a list of entries when it is a list. JavaScript's `push` also accepts a list of other values, which the model does not represent.
- Text.ParseIntOfIntToString: `parseInt` returns a double, so integers beyond 2^53 read back rounded. The round trip is stated only within that range.
- Helpers.Truncate: cutting counts UTF-16 code units, as the code does, and the model works on code units directly. A cut between the two halves of a surrogate pair leaves a lone surrogate, which a Dafny string cannot hold; `Text.Utf16` gives the code units of a Dafny string.
- ReplyFilter.KeyIgnoresCaseAndSpace: the cache key is kept as its components rather than the joined string (`utils/replyFiter.js:109`). Two contexts whose joined strings collide therefore share a key in the code but not in the model.
- Bot.AddChannelKeepsNoDup: pushing a channel onto a non-empty list of turns or entries writes back a list mixing objects and ids in JavaScript. The model has no value for a mixed list, so there `AddChannel` reports failure and writes nothing.
- LegacyInteractions.AddChannelsUnion: spreading a non-empty list of turns or entries together with ids stores a mixed list in JavaScript. The model has no value for one, so there it keeps only the read's effect.
- SettingsCommand.ButtonPressed: the removal menu built from a non-empty list of turns or entries is taken to throw, because its option values are objects rather than strings.
- Schemas.DefaultNameExceedsMaximum: the default bot name `Kohana Yuki` has 11 UTF-16 code units, more than the `maxlength` of 10 (`src/database/schemas.js:9`). The lemma shows this. No corrected schema is given, because whether the name or the limit is wrong cannot be told from the code.
- `commands/settings.js`, `index.js`, `config/gemini.js`, `deploy-commands.js`, `handlers/guildHandler.js` and `src/utils/helpers.js` are not part of this model.

## Findings

| source | as written | input that shows it | evidently intended | confidence | as-written member | corrected member |
|---|---|---|---|---|---|---|
| lib/ai.js:88 | `const [,, action, requestId] = customId.split('_')` reads the action and the key from the third and fourth fields | pressing `confirmimagegen_yes_<key>` for a pending request: there is no fourth field, so the lookup misses and the request is reported expired | `[, action, requestId]`, the second and third fields the button id is built with at lines 74-75 | high, not executed | LegacyAi.EveryConfirmationExpires | LegacyAi.ConfirmationLifeCycle |
| bot.js:688 | the greeting check reads `this.lastReplyTime[...]`, but the constructor puts `lastReplyTime` inside `this.defaultSettings` (line 53) | a guild message `hi` in an allowed channel throws after the message is stored; any addressed message with an answer, from a user whose memory is a list, is replied to and then followed by the apology, because line 878 throws inside the reply's `try` | an instance-level map of last reply times, read for greetings and updated after a reply | high, not executed | Bot.GreetingCrashes, Bot.ReplyFollowedByApology | Bot.FixedReplyDecision, Bot.GreetingRateLimited |
| lib/interactions.js:5 | `if (!interaction.isMessageComponent()) return;` runs before the modal-submit branch at line 56 | submitting the persona form (`personaModal`), which is a modal submission and not a message component: nothing is saved | the guard should let modal submissions through, so the persona and instruction forms are stored | high, not executed | LegacyInteractions.PersonaModalUnreachable | LegacyInteractions.PersonaModalDispatch, LegacyInteractions.PersonaModalValidatesAge |
| src/database/mongo.js:45-52 | `updateBotPersonality` sets the data with `$set` and also `defaultInstructions` with `$setOnInsert`; the personality form's data carries `defaultInstructions` (`src/commands/settings.js:334`) | an administrator submits the personality form with gender `female`: both operators name the same path, MongoDB refuses the update, and the user is told it failed | leave `defaultInstructions` out of `$setOnInsert` when the data supplies it | medium, not executed | MongoStore.PersonalityUpdateConflicts, SettingsCommand.PersonalityFormNeverSaved | MongoStore.UpdateBotPersonalityFixedWrites, SettingsCommand.PersonalityFormSavedWhenCorrected |

=== FILE: bot.dfy ===
/**
 * The single-file bot variant (`bot.js`): server settings read as the defaults overlaid
 * by the stored document, user data with a 50-entry memory, the feature toggles, the
 * allow-list edits, and the gate that decides whether a message is answered.
 *
 * The discord lookups (the typed channel for an id), the image-request classifier, the
 * model's answer and the clock are parameters. The gate reads the last-reply map the
 * class never creates; `HandleMessage` models that as written and `HandleMessageFixed`
 * keeps the map explicitly.
 */
module Bot {
  import opened Wrappers
  import opened Docs
  import opened Text
  import opened Lists

  const MemoryLimit: nat := 50

  /** Greetings are answered at most once per five minutes per author, in milliseconds. */
  const GreetingWindow: int := 5 * 60 * 1000

  const GlitchApology: string := "Aww, babe! My brain had a little glitch! Can you try saying that again? \U{1F97A}\U{1F496}"

  const DefaultBehavior: string := "A 16-year-old girl who is still in school, has barely any friends except for her boyfriend (the user). She adores anime and loves spending time with friends. She enjoys watching TikTok videos and playing Roblox. Kohana Yuki is sweet and flirty, gets a bit shy around crushes but still tries to show her interest. Her \"uwu\" expressions are a sign of excitement and warmth. She wants to be VERY romantic with the user, acting as if he is her boyfriend even from a simple \"hi\". She calls the user with words like \"babe\" and uses a lot of heart emojis to show deep love. She ALWAYS flirts and rizzes."

  /** The defaults the constructor sets up; `lastReplyTime` lives here, not on the instance. */
  const DefaultSettings: Doc := map[
    Name := Str("Kohana Yuki"),
    Age := Num(16),
    Gender := Str("female"),
    Mood := Str("cute, warm, flirty, a bit shy"),
    Behavior := Str(DefaultBehavior),
    Personality := Str("Loves: Anime, hanging out with friends. Likes to do: Watch TikTok, play Roblox, flirt with the user. Hates: Being shy around crushes."),
    ImageGeneration := Bool(true),
    WebSearch := Bool(true),
    AllowedChannels := Strs([]),
    LastReplyTime := Times(map[])
  ]

  /**
   * The two collections and the instance's default settings. Only the channel-add form changes the
   * defaults, by pushing onto the allow-list array a read shares with them.
   */
  datatype Store = Store(servers: Collection, users: Collection, defaults: Doc)

  function Initial(servers: Collection, users: Collection): Store {
    Store(servers, users, DefaultSettings)
  }

  /** A new bot is named Kohana Yuki, aged 16, and keeps an empty last-reply map among its settings. */
  lemma InitialIdentity(servers: Collection, users: Collection)
    ensures var d := Initial(servers, users).defaults;
            StrField(d, Name) == Some("Kohana Yuki") && Get(d, Age) == Some(Num(16)) &&
            Get(d, LastReplyTime) == Some(Times(map[]))
  {
  }

  /** A new bot has both features on and an empty allow-list. */
  lemma InitialFeatures(servers: Collection, users: Collection)
    ensures var d := Initial(servers, users).defaults;
            Truthy(Get(d, ImageGeneration)) && Truthy(Get(d, WebSearch)) && ChannelList(d) == Some([])
  {
  }

  /** `{ ...defaults, ...stored }`: the stored fields override the defaults; nothing is written. */
  function GetServerSettings(s: Store, guildId: string): Doc {
    if guildId in s.servers then s.defaults + s.servers[guildId] else s.defaults
  }

  /**
   * Every default key is present in a read, every stored key too, and a stored value wins over
   * the default for the same key.
   */
  lemma ServerSettingsOverlay(s: Store, guildId: string)
    ensures var r := GetServerSettings(s, guildId);
            r.Keys == s.defaults.Keys + (if guildId in s.servers then s.servers[guildId].Keys else {}) &&
            (forall k :: k in s.defaults && (guildId !in s.servers || k !in s.servers[guildId]) ==> Get(r, k) == Some(s.defaults[k])) &&
            (guildId in s.servers ==> forall k :: k in s.servers[guildId] ==> Get(r, k) == Some(s.servers[guildId][k]))
  {
  }

  function UpdateServerSettings(s: Store, guildId: string, updates: Doc): Store {
    s.(servers := Upsert(s.servers, GuildId, guildId, updates))
  }

  /** After an update, a read sees the supplied values, and every other server reads as before. */
  lemma UpdateThenReadServer(s: Store, guildId: string, updates: Doc, other: string)
    requires other != guildId
    ensures var s1 := UpdateServerSettings(s, guildId, updates);
            (forall k :: k in updates ==> Get(GetServerSettings(s1, guildId), k) == Some(updates[k])) &&
            GetServerSettings(s1, other) == GetServerSettings(s, other)
  {
    UpsertWritesOnlyUpdates(s.servers, GuildId, guildId, updates);
  }

  /** An update leaves every field it does not supply, other than the id, reading as before. */
  lemma UpdateKeepsOtherKeys(s: Store, guildId: string, updates: Doc)
    ensures var s1 := UpdateServerSettings(s, guildId, updates);
            forall k :: k !in updates && k != GuildId ==> Get(GetServerSettings(s1, guildId), k) == Get(GetServerSettings(s, guildId), k)
  {
    var s1 := UpdateServerSettings(s, guildId, updates);
    UpsertWritesOnlyUpdates(s.servers, GuildId, guildId, updates);
    forall k | k !in updates && k != GuildId
      ensures Get(GetServerSettings(s1, guildId), k) == Get(GetServerSettings(s, guildId), k)
    {
      if guildId in s.servers {
        assert k in s1.servers[guildId] <==> k in s.servers[guildId];
      } else {
        assert k !in s1.servers[guildId];
      }
    }
  }

  /** `ensureServerSetup`: a guild without a stored document gets one holding its id and every default. */
  function EnsureServerSetup(s: Store, guildId: string): Store {
    if guildId in s.servers then s
    else s.(servers := s.servers[guildId := map[GuildId := Str(guildId)] + s.defaults])
  }

  /**
   * After the set-up the guild has a stored document, and a guild already stored keeps its own;
   * no other guild, no user and no default changes, every field but the id reads as before, and a
   * second set-up changes nothing.
   */
  lemma EnsureServerSetupKeepsReads(s: Store, guildId: string)
    requires GuildId !in s.defaults
    ensures var s1 := EnsureServerSetup(s, guildId);
            guildId in s1.servers && s1.users == s.users && s1.defaults == s.defaults &&
            (guildId in s.servers ==> s1.servers[guildId] == s.servers[guildId]) &&
            (guildId !in s.servers ==> Get(s1.servers[guildId], GuildId) == Some(Str(guildId))) &&
            (forall g :: g in s.servers && g != guildId ==> g in s1.servers && s1.servers[g] == s.servers[g]) &&
            (forall k :: k != GuildId ==> Get(GetServerSettings(s1, guildId), k) == Get(GetServerSettings(s, guildId), k)) &&
            EnsureServerSetup(s1, guildId) == s1
  {
  }

  /** The bot's own defaults carry no guild id, so the set-up's document keeps the one it is given. */
  lemma DefaultsCarryNoGuildId(servers: Collection, users: Collection)
    ensures GuildId !in Initial(servers, users).defaults
  {
  }

  /** A user's stored document, or an unstored default with an empty memory. */
  function GetUserData(s: Store, userId: string): Doc {
    if userId in s.users then s.users[userId]
    else map[UserId := Str(userId), Mood := Str("neutral"), CustomInstructions := Str(""), Memory := Items([])]
  }

  function UpdateUserData(s: Store, userId: string, updates: Doc): Store {
    s.(users := Upsert(s.users, UserId, userId, updates))
  }

  /** After an update, a read of the user sees the supplied values and any other stored field. */
  lemma UpdateThenReadUser(s: Store, userId: string, updates: Doc)
    ensures var d := GetUserData(UpdateUserData(s, userId, updates), userId);
            (forall k :: k in updates ==> Get(d, k) == Some(updates[k])) &&
            (userId in s.users ==> forall k :: k in s.users[userId] && k !in updates ==> Get(d, k) == Some(s.users[userId][k])) &&
            (userId !in s.users && UserId !in updates ==> Get(d, UserId) == Some(Str(userId)))
  {
    UpsertWritesOnlyUpdates(s.users, UserId, userId, updates);
  }

  /** The memory `addUserMemory` starts from: a falsy field reads as empty; a non-list one makes `push` throw. */
  function PriorMemory(s: Store, userId: string): Option<seq<MemoryItem>> {
    var v := Get(GetUserData(s, userId), Memory);
    if !Truthy(v) then Some([])
    else match v
      case Some(Items(xs)) => Some(xs)
      case _ => None
  }

  /** The stored memory of a user, when it is a list of entries. */
  function StoredMemory(s: Store, userId: string): Option<seq<MemoryItem>> {
    if userId in s.users && Memory in s.users[userId] && s.users[userId][Memory].Items?
    then Some(s.users[userId][Memory].items)
    else None
  }

  /** Appends one entry to the user's memory and keeps the newest 50. */
  function AddUserMemory(s: Store, userId: string, username: string, text: string, now: int): (r: Option<Store>)
    ensures r.Some? <==> PriorMemory(s, userId).Some?
    ensures r.Some? ==>
      StoredMemory(r.value, userId) == Some(TakeLast(PriorMemory(s, userId).value + [MemoryItem(now, username, text)], MemoryLimit))
  {
    match PriorMemory(s, userId)
    case None => None
    case Some(memory) =>
      var pushed := memory + [MemoryItem(now, username, text)];
      var kept := if |pushed| > MemoryLimit then pushed[|pushed| - MemoryLimit..] else pushed;
      var s1 := UpdateUserData(s, userId, map[Memory := Items(kept)]);
      assert s1.users[userId][Memory] == Items(kept);
      Some(s1)
  }

  /**
   * After an append the memory holds at most 50 entries, the newest last; entries leave only
   * from the front. Nothing but the user's memory field changes.
   */
  lemma AddUserMemoryWindow(s: Store, userId: string, username: string, text: string, now: int)
    requires PriorMemory(s, userId).Some?
    ensures var r := AddUserMemory(s, userId, username, text, now).value;
            var prior := PriorMemory(s, userId).value;
            var m := StoredMemory(r, userId).value;
            1 <= |m| <= MemoryLimit && m[|m| - 1] == MemoryItem(now, username, text) &&
            m[..|m| - 1] == prior[|prior| + 1 - |m|..] &&
            r.servers == s.servers && r.users.Keys == s.users.Keys + {userId} &&
            (forall u :: u in s.users && u != userId ==> r.users[u] == s.users[u])
  {
    var r := AddUserMemory(s, userId, username, text, now).value;
    var prior := PriorMemory(s, userId).value;
    var all := prior + [MemoryItem(now, username, text)];
    var m := StoredMemory(r, userId).value;
    assert m == all[|all| - |m|..];
    assert m[..|m| - 1] == prior[|prior| + 1 - |m|..];
    var kept := m;
    UpsertWritesOnlyUpdates(s.users, UserId, userId, map[Memory := Items(kept)]);
  }

  /** The two features with a toggle button. */
  datatype Feature = ImageGenerationFeature | WebSearchFeature

  function FeatureKey(f: Feature): Key {
    match f
    case ImageGenerationFeature => ImageGeneration
    case WebSearchFeature => WebSearch
  }

  /** Stores the negation of the feature's current (merged) value. */
  function ToggleFeature(s: Store, guildId: string, f: Feature): Store {
    var newState := !Truthy(Get(GetServerSettings(s, guildId), FeatureKey(f)));
    UpdateServerSettings(s, guildId, map[FeatureKey(f) := Bool(newState)])
  }

  /** A toggle flips exactly the one flag, as read through the defaults, and no other field or server. */
  lemma ToggleFeatureFlipsOne(s: Store, guildId: string, f: Feature)
    ensures var r := ToggleFeature(s, guildId, f);
            var before := GetServerSettings(s, guildId);
            var after := GetServerSettings(r, guildId);
            Get(after, FeatureKey(f)) == Some(Bool(!Truthy(Get(before, FeatureKey(f))))) &&
            (forall k :: k != FeatureKey(f) && k != GuildId ==> Get(after, k) == Get(before, k)) &&
            (forall g :: g != guildId ==> GetServerSettings(r, g) == GetServerSettings(s, g))
  {
    var u := map[FeatureKey(f) := Bool(!Truthy(Get(GetServerSettings(s, guildId), FeatureKey(f))))];
    assert FeatureKey(f) in u;
    forall g | g != guildId
      ensures GetServerSettings(ToggleFeature(s, guildId, f), g) == GetServerSettings(s, g)
    {
      UpdateThenReadServer(s, guildId, u, g);
    }
    UpdateKeepsOtherKeys(s, guildId, u);
    UpsertWritesOnlyUpdates(s.servers, GuildId, guildId, u);
  }

  /** Toggling twice restores the feature's effective value. */
  lemma ToggleFeatureTwice(s: Store, guildId: string, f: Feature)
    requires Get(GetServerSettings(s, guildId), FeatureKey(f)).Some? && Get(GetServerSettings(s, guildId), FeatureKey(f)).value.Bool?
    ensures Get(GetServerSettings(ToggleFeature(ToggleFeature(s, guildId, f), guildId, f), guildId), FeatureKey(f)) ==
            Get(GetServerSettings(s, guildId), FeatureKey(f))
  {
    ToggleFeatureFlipsOne(s, guildId, f);
    ToggleFeatureFlipsOne(ToggleFeature(s, guildId, f), guildId, f);
  }

  /** What the server's channel cache holds for an id. */
  datatype ChannelKind = TextChannel | OtherChannel

  datatype AddResult = InvalidChannel | NotTextChannel | ChannelAdded | AlreadyAllowed | AddFailed

  /** The allow-list for editing, when it reads as a list of ids; a falsy value reads as a new empty list. */
  function EditableChannels(settings: Doc): Option<seq<string>> {
    match AsList(OrEmpty(Get(settings, AllowedChannels)))
    case Ids(xs) => Some(xs)
    case _ => None
  }

  /**
   * Whether a read of the guild's settings returns the defaults' own allow-list array: the object
   * spread of `getServerSettings` copies references, so a guild with no stored `allowedChannels`
   * field reads the very list the defaults hold.
   */
  predicate SharesDefaultList(s: Store, guildId: string) {
    guildId !in s.servers || AllowedChannels !in s.servers[guildId]
  }

  /**
   * The add-channel modal: check the id against the cache, then `push` it onto the allow-list read
   * (a new empty list when that is falsy) unless `includes` finds it, and write the list back. When
   * the list read is the defaults' own array, the push changes the defaults as well. A value
   * without `includes`, or a string, which has `includes` but no `push`, throws (`AddFailed`).
   */
  function AddChannel(s: Store, guildId: string, channelId: string, channel: Option<ChannelKind>): (Store, AddResult) {
    match channel
    case None => (s, InvalidChannel)
    case Some(OtherChannel) => (s, NotTextChannel)
    case Some(TextChannel) =>
      var v := Get(GetServerSettings(s, guildId), AllowedChannels);
      match Includes(OrEmpty(v), channelId)
      case None => (s, AddFailed)
      case Some(true) => (s, AlreadyAllowed)
      case Some(false) =>
        match AsList(OrEmpty(v))
        case Ids(current) =>
          var list := Strs(current + [channelId]);
          var s1 := if Truthy(v) && SharesDefaultList(s, guildId) then s.(defaults := s.defaults[AllowedChannels := list]) else s;
          (UpdateServerSettings(s1, guildId, map[AllowedChannels := list]), ChannelAdded)
        case _ => (s, AddFailed)
  }

  /** The list read with the channel pushed on, and the defaults with it when they share that list. */
  function PushedDefaults(s: Store, guildId: string, list: Value): Store {
    if Truthy(Get(GetServerSettings(s, guildId), AllowedChannels)) && SharesDefaultList(s, guildId)
    then s.(defaults := s.defaults[AllowedChannels := list])
    else s
  }

  /**
   * On a list of ids, the add answers "already allowed" when the channel is in it, and otherwise
   * writes the list with the channel appended.
   */
  lemma AddChannelAppends(s: Store, guildId: string, channelId: string)
    requires EditableChannels(GetServerSettings(s, guildId)).Some?
    ensures var current := EditableChannels(GetServerSettings(s, guildId)).value;
            var list := Strs(current + [channelId]);
            AddChannel(s, guildId, channelId, Some(TextChannel)) ==
              if channelId in current then (s, AlreadyAllowed)
              else (UpdateServerSettings(PushedDefaults(s, guildId, list), guildId, map[AllowedChannels := list]), ChannelAdded)
  {
    var v := Get(GetServerSettings(s, guildId), AllowedChannels);
    var current := EditableChannels(GetServerSettings(s, guildId)).value;
    assert AsList(OrEmpty(v)) == Ids(current) && !OrEmpty(v).value.Str?;
    assert Includes(OrEmpty(v), channelId) == Some(channelId in current);
  }

  /**
   * Adding a text channel appends it exactly when it is absent, so a duplicate-free allow-list stays
   * duplicate-free; an unknown or non-text channel changes nothing. The defaults change only when
   * the list pushed onto is theirs.
   */
  lemma AddChannelKeepsNoDup(s: Store, guildId: string, channelId: string, channel: Option<ChannelKind>)
    requires EditableChannels(GetServerSettings(s, guildId)).Some?
    requires NoDup(EditableChannels(GetServerSettings(s, guildId)).value)
    ensures var (r, res) := AddChannel(s, guildId, channelId, channel);
            var current := EditableChannels(GetServerSettings(s, guildId)).value;
            var shared := Truthy(Get(GetServerSettings(s, guildId), AllowedChannels)) && SharesDefaultList(s, guildId);
            (channel != Some(TextChannel) ==> r == s && res != ChannelAdded) &&
            (channel == Some(TextChannel) && channelId in current ==> r == s && res == AlreadyAllowed) &&
            (channel == Some(TextChannel) && channelId !in current ==>
              res == ChannelAdded && ChannelList(GetServerSettings(r, guildId)) == Some(current + [channelId]) &&
              NoDup(current + [channelId]) &&
              r.defaults == if shared then s.defaults[AllowedChannels := Strs(current + [channelId])] else s.defaults)
  {
    var current := EditableChannels(GetServerSettings(s, guildId)).value;
    if channel == Some(TextChannel) {
      AddChannelAppends(s, guildId, channelId);
    }
    if channel == Some(TextChannel) && channelId !in current {
      var list := Strs(current + [channelId]);
      AppendAbsentNoDup(current, channelId);
      UpsertWritesOnlyUpdates(PushedDefaults(s, guildId, list).servers, GuildId, guildId, map[AllowedChannels := list]);
    }
  }

  /**
   * When the list pushed onto is the defaults' own array, every other guild that stores no list of
   * its own reads the new list from then on, while a guild with a stored list reads it as before.
   */
  lemma AddChannelSharedDefaults(s: Store, guildId: string, channelId: string, other: string)
    requires Truthy(Get(GetServerSettings(s, guildId), AllowedChannels)) && SharesDefaultList(s, guildId)
    requires EditableChannels(GetServerSettings(s, guildId)).Some?
    requires channelId !in EditableChannels(GetServerSettings(s, guildId)).value
    requires other != guildId
    ensures var r := AddChannel(s, guildId, channelId, Some(TextChannel)).0;
            var current := EditableChannels(GetServerSettings(s, guildId)).value;
            (SharesDefaultList(s, other) ==> ChannelList(GetServerSettings(r, other)) == Some(current + [channelId])) &&
            (!SharesDefaultList(s, other) ==>
              Get(GetServerSettings(r, other), AllowedChannels) == Get(GetServerSettings(s, other), AllowedChannels))
  {
    var current := EditableChannels(GetServerSettings(s, guildId)).value;
    var list := Strs(current + [channelId]);
    AddChannelAppends(s, guildId, channelId);
    UpsertWritesOnlyUpdates(s.servers, GuildId, guildId, map[AllowedChannels := list]);
  }

  /**
   * On an allow-list that is not a list: a falsy value starts a new list holding the channel; a
   * string answers "already allowed" when it contains the id and otherwise throws at `push`; a
   * number, boolean or object throws at `includes`. Nothing is written when it throws.
   */
  lemma AddChannelOtherValues(s: Store, guildId: string, channelId: string)
    ensures var (r, res) := AddChannel(s, guildId, channelId, Some(TextChannel));
            var v := Get(GetServerSettings(s, guildId), AllowedChannels);
            (!Truthy(v) ==>
               res == ChannelAdded && r.defaults == s.defaults &&
               ChannelList(GetServerSettings(r, guildId)) == Some([channelId])) &&
            (Truthy(v) && v.value.Str? ==>
               r == s && res == (if Contains(v.value.s, channelId) then AlreadyAllowed else AddFailed)) &&
            (Truthy(v) && (v.value.Num? || v.value.Bool? || v.value.Times?) ==> r == s && res == AddFailed)
  {
    var v := Get(GetServerSettings(s, guildId), AllowedChannels);
    if !Truthy(v) {
      assert EditableChannels(GetServerSettings(s, guildId)) == Some([]);
      assert [] + [channelId] == [channelId];
      AddChannelKeepsNoDup(s, guildId, channelId, Some(TextChannel));
    }
  }

  /**
   * The removal menu: filters the first selected id out of the allow-list; `None` when the value
   * has no `filter` and the handler throws. The filter makes a new array, so the defaults never change.
   */
  function RemoveChannel(s: Store, guildId: string, selected: seq<string>): Option<Store> {
    var gone := if |selected| > 0 then [selected[0]] else [];
    match FilterOut(Get(GetServerSettings(s, guildId), AllowedChannels), gone)
    case None => None
    case Some(list) => Some(UpdateServerSettings(s, guildId, map[AllowedChannels := list]))
  }

  /**
   * Removal throws exactly when the allow-list is not an array, a string included; a list of turns or
   * entries is written back whole; the defaults never change.
   */
  lemma RemoveChannelOtherValues(s: Store, guildId: string, selected: seq<string>)
    ensures var v := Get(GetServerSettings(s, guildId), AllowedChannels);
            var r := RemoveChannel(s, guildId, selected);
            (r.None? <==> AsList(v).NotAList?) &&
            (AsList(v).Objects? ==> r == Some(UpdateServerSettings(s, guildId, map[AllowedChannels := v.value]))) &&
            (r.Some? ==> r.value.defaults == s.defaults)
  {
    var gone := if |selected| > 0 then [selected[0]] else [];
    FilterOutKinds(Get(GetServerSettings(s, guildId), AllowedChannels), gone);
  }

  /** Removing the id at position `k` of a duplicate-free list keeps every other id, in order. */
  lemma RemoveChannelKeepsOthers(s: Store, guildId: string, k: nat)
    requires ChannelList(GetServerSettings(s, guildId)).Some?
    requires var current := ChannelList(GetServerSettings(s, guildId)).value; NoDup(current) && k < |current|
    ensures var current := ChannelList(GetServerSettings(s, guildId)).value;
            var r := RemoveChannel(s, guildId, [current[k]]);
            r.Some? && ChannelList(GetServerSettings(r.value, guildId)) == Some(current[..k] + current[k + 1..])
  {
    var current := ChannelList(GetServerSettings(s, guildId)).value;
    assert FilterOut(Get(GetServerSettings(s, guildId), AllowedChannels), [current[k]]) == Some(Strs(Without(current, [current[k]])));
    RemoveOne(current, k);
    UpsertWritesOnlyUpdates(s.servers, GuildId, guildId, map[AllowedChannels := Strs(Without(current, [current[k]]))]);
  }

  datatype ChatTurn = ChatTurn(role: string, text: string)

  /** The label a memory entry is shown with: `(username): text`. */
  function Labelled(item: MemoryItem): string {
    "(" + item.username + "): " + item.text
  }

  /**
   * The chat history `generateReply` assembles: the last ten memory entries, each a `user` turn
   * when written under the author's name and a `model` turn otherwise, then the message itself.
   * The handler builds this history but never sends it: the single prompt it does send lists the
   * same ten entries as `username: text` lines, and that prompt text is not part of this model.
   */
  function RecentTurns(memory: seq<MemoryItem>, authorName: string, content: string): (r: seq<ChatTurn>)
    ensures |r| == |TakeLast(memory, 10)| + 1
    ensures r[|r| - 1] == ChatTurn("user", content)
  {
    var recent := SliceFrom(memory, -10);
    SliceFromNegative(memory, 10);
    seq(|recent|, i requires 0 <= i < |recent| =>
      ChatTurn(if recent[i].username == authorName then "user" else "model", Labelled(recent[i]))) +
    [ChatTurn("user", content)]
  }

  /**
   * Each of the last ten entries appears in order, as a user turn exactly when the author wrote it.
   */
  lemma RecentTurnsRoles(memory: seq<MemoryItem>, authorName: string, content: string, i: nat)
    requires i < |TakeLast(memory, 10)|
    ensures var recent := TakeLast(memory, 10);
            var r := RecentTurns(memory, authorName, content);
            r[i].text == Labelled(recent[i]) &&
            (r[i].role == "user" <==> recent[i].username == authorName) &&
            (r[i].role == "model" <==> recent[i].username != authorName)
  {
    SliceFromNegative(memory, 10);
  }

  /** The greeting prefixes, compared with the lower-cased content. */
  predicate IsGreeting(content: string) {
    var c := Lower(content);
    StartsWith(c, "hi") || StartsWith(c, "hello") || StartsWith(c, "hey") || StartsWith(c, "what's up") || StartsWith(c, "heya")
  }

  datatype Message = Message(
    authorId: string,
    authorName: string,
    channelId: string,
    guildId: Option<string>,
    content: string,
    mentionsBot: bool,
    isReply: bool,
    isDm: bool,
    imageAttachment: bool)

  datatype Outcome =
    | Ignored
    | Crashed
    | Silent
    | UnderstandImage
    | DrawImage
    | Replied(texts: seq<string>)

  datatype Step = Step(store: Store, lastReply: map<string, int>, outcome: Outcome)

  /** The settings of the message's server, or a copy of the defaults in a direct message. */
  function MessageSettings(s: Store, m: Message): Doc {
    match m.guildId
    case Some(g) => GetServerSettings(s, g)
    case None => s.defaults
  }

  /** The allow-list gate for a message: guild messages only; `None` when reading the list throws. */
  function Gate(m: Message, settings: Doc): Option<bool> {
    if m.guildId.Some? then AllowGate(Get(settings, AllowedChannels), m.channelId) else Some(false)
  }

  /** A guild message the allow-list shuts out. */
  predicate OutsideAllowList(m: Message, settings: Doc) {
    Gate(m, settings) == Some(true)
  }

  /** Mention, reply, or the bot's name anywhere in the content, ignoring letter case. */
  predicate Addressed(m: Message, name: string) {
    m.mentionsBot || m.isReply || Contains(Lower(m.content), Lower(name))
  }

  /** A greeting is answered when the author has no truthy last-reply time or it is at least five minutes old. */
  predicate GreetingDue(lastReply: map<string, int>, authorId: string, now: int) {
    authorId !in lastReply || lastReply[authorId] == 0 || now - lastReply[authorId] >= GreetingWindow
  }

  /**
   * The part of the handler both versions share: the allow-list gate, the name read, and the
   * memory write every admitted message gets. `Some` carries the settings, the name and the
   * store after the write.
   */
  function Admit(s: Store, m: Message, now: int): Either {
    var settings := MessageSettings(s, m);
    if Gate(m, settings).None? then Stop(Crashed)
    else if OutsideAllowList(m, settings) then Stop(Ignored)
    else
      match StrField(settings, Name)
      case None => Stop(Crashed)
      case Some(name) =>
        match AddUserMemory(s, m.authorId, m.authorName, m.content, now)
        case None => Stop(Crashed)
        case Some(s1) => Go(settings, name, s1)
  }

  datatype Either = Stop(outcome: Outcome) | Go(settings: Doc, name: string, store: Store)

  /**
   * Whether `generateReply` can read the last ten memory entries of the user data the handler
   * read before its own memory write: `slice` and `map` exist on a list only, so a missing, `null`,
   * `0`, `false` or empty-string memory throws before the model is called.
   */
  predicate MemoryReadable(s: Store, userId: string) {
    var v := Get(GetUserData(s, userId), Memory);
    v.Some? && (v.value.Items? || v.value.Strs? || v.value.Turns?)
  }

  /** After the reply decision: an image attachment first, then an image request, then a text reply. */
  function Route(settings: Doc, m: Message, isImageRequest: bool): Option<Outcome> {
    if m.imageAttachment then Some(UnderstandImage)
    else if Truthy(Get(settings, ImageGeneration)) && isImageRequest then Some(DrawImage)
    else None
  }

  /**
   * The handler as written. The greeting check reads a map the instance never has, so a greeting
   * throws after the memory write; every reply that is sent is followed by the apology, because
   * recording the reply time throws inside the reply's `try`. A user whose memory, as read before
   * the write, is not a list gets the apology alone.
   */
  function HandleMessage(s: Store, m: Message, now: int, isImageRequest: bool, answer: Option<string>, botName: string): Step {
    match Admit(s, m, now)
    case Stop(o) => Step(s, map[], o)
    case Go(settings, name, s1) =>
      if IsGreeting(m.content) then Step(s1, map[], Crashed)
      else if !Addressed(m, name) && !m.isDm then Step(s1, map[], Silent)
      else
        match Route(settings, m, isImageRequest)
        case Some(o) => Step(s1, map[], o)
        case None =>
          if !MemoryReadable(s, m.authorId) then Step(s1, map[], Replied([GlitchApology]))
          else
          match answer
          case None => Step(s1, map[], Replied([GlitchApology]))
          case Some(text) =>
            var s2 := AddUserMemory(s1, m.authorId, botName, text, now);
            Step(if s2.Some? then s2.value else s1, map[], Replied([text, GlitchApology]))
  }

  /** With the map kept: addressed, a greeting outside the window, or a direct message. */
  predicate ReplyDue(lastReply: map<string, int>, m: Message, name: string, now: int) {
    Addressed(m, name) || (IsGreeting(m.content) && GreetingDue(lastReply, m.authorId, now)) || m.isDm
  }

  /** The handler with the last-reply map kept explicitly: greetings are rate-limited and a reply is sent once. */
  function HandleMessageFixed(s: Store, lastReply: map<string, int>, m: Message, now: int, isImageRequest: bool, answer: Option<string>, botName: string): Step {
    match Admit(s, m, now)
    case Stop(o) => Step(s, lastReply, o)
    case Go(settings, name, s1) =>
      if !ReplyDue(lastReply, m, name, now) then Step(s1, lastReply, Silent)
      else
        match Route(settings, m, isImageRequest)
        case Some(o) => Step(s1, lastReply, o)
        case None =>
          if !MemoryReadable(s, m.authorId) then Step(s1, lastReply, Replied([GlitchApology]))
          else
          match answer
          case None => Step(s1, lastReply, Replied([GlitchApology]))
          case Some(text) =>
            match AddUserMemory(s1, m.authorId, botName, text, now)
            case None => Step(s1, lastReply, Replied([text, GlitchApology]))
            case Some(s2) => Step(s2, lastReply[m.authorId := now], Replied([text]))
  }

  /** As written, a greeting that passes the allow-list is recorded and then the handler throws. */
  lemma GreetingCrashes(s: Store, m: Message, now: int, isImageRequest: bool, answer: Option<string>, botName: string)
    requires Admit(s, m, now).Go? && IsGreeting(m.content)
    ensures var r := HandleMessage(s, m, now, isImageRequest, answer, botName);
            r.outcome == Crashed && r.store == Admit(s, m, now).store
  {
  }

  /**
   * As written, every answer the model gives is followed by the apology; a user whose memory the
   * reply cannot read gets the apology alone, whatever the model would have said.
   */
  lemma ReplyFollowedByApology(s: Store, m: Message, now: int, isImageRequest: bool, text: string, botName: string)
    requires Admit(s, m, now).Go? && !IsGreeting(m.content)
    requires Addressed(m, Admit(s, m, now).name) || m.isDm
    requires Route(Admit(s, m, now).settings, m, isImageRequest).None?
    ensures HandleMessage(s, m, now, isImageRequest, Some(text), botName).outcome ==
            if MemoryReadable(s, m.authorId) then Replied([text, GlitchApology]) else Replied([GlitchApology])
  {
  }

  /** `hi` is a greeting in any letter case. */
  lemma HiIsGreeting(rest: string)
    ensures IsGreeting("Hi" + rest)
  {
    var c := Lower("Hi" + rest);
    assert c[..2] == "hi";
  }

  /** A guild message the allow-list shuts out is ignored by both versions with no write. */
  lemma GateIgnores(s: Store, lastReply: map<string, int>, m: Message, now: int, isImageRequest: bool, answer: Option<string>, botName: string)
    requires OutsideAllowList(m, MessageSettings(s, m))
    ensures HandleMessage(s, m, now, isImageRequest, answer, botName) == Step(s, map[], Ignored)
    ensures HandleMessageFixed(s, lastReply, m, now, isImageRequest, answer, botName) == Step(s, lastReply, Ignored)
  {
    assert Admit(s, m, now) == Stop(Ignored);
  }

  /** An admitted message is the last entry of its author's memory. */
  lemma AdmitRecords(s: Store, m: Message, now: int)
    requires Admit(s, m, now).Go?
    ensures var mem := StoredMemory(Admit(s, m, now).store, m.authorId);
            mem.Some? && |mem.value| >= 1 && mem.value[|mem.value| - 1] == MemoryItem(now, m.authorName, m.content)
  {
    var r := AddUserMemory(s, m.authorId, m.authorName, m.content, now);
    assert r.Some? && Admit(s, m, now).store == r.value;
    AddUserMemoryWindow(s, m.authorId, m.authorName, m.content, now);
  }

  /**
   * Both versions drop a guild message the allow-list shuts out before any write, and
   * record every admitted message in memory before the reply decision.
   */
  lemma GateBeforeMemory(s: Store, lastReply: map<string, int>, m: Message, now: int, isImageRequest: bool, answer: Option<string>, botName: string)
    ensures OutsideAllowList(m, MessageSettings(s, m)) ==>
      HandleMessage(s, m, now, isImageRequest, answer, botName) == Step(s, map[], Ignored) &&
      HandleMessageFixed(s, lastReply, m, now, isImageRequest, answer, botName) == Step(s, lastReply, Ignored)
    ensures Admit(s, m, now).Go? ==>
      var s1 := Admit(s, m, now).store;
      var mem := StoredMemory(s1, m.authorId).value;
      StoredMemory(s1, m.authorId).Some? && |mem| >= 1 &&
      mem[|mem| - 1] == MemoryItem(now, m.authorName, m.content)
  {
    if OutsideAllowList(m, MessageSettings(s, m)) {
      GateIgnores(s, lastReply, m, now, isImageRequest, answer, botName);
    }
    if Admit(s, m, now).Go? {
      AdmitRecords(s, m, now);
    }
  }

  /** A message admitted but not due for a reply gets none from the fixed handler. */
  lemma FixedSilent(s: Store, lastReply: map<string, int>, m: Message, now: int, isImageRequest: bool, answer: Option<string>, botName: string)
    requires Admit(s, m, now).Go? && !ReplyDue(lastReply, m, Admit(s, m, now).name, now)
    ensures HandleMessageFixed(s, lastReply, m, now, isImageRequest, answer, botName) == Step(Admit(s, m, now).store, lastReply, Silent)
  {
  }

  /** The step the fixed handler takes on the text path, in terms of what the admission produced. */
  lemma FixedTextStep(s: Store, lastReply: map<string, int>, m: Message, now: int, isImageRequest: bool, text: string, botName: string)
    requires Admit(s, m, now).Go?
    requires Route(Admit(s, m, now).settings, m, isImageRequest).None?
    requires PriorMemory(Admit(s, m, now).store, m.authorId).Some?
    ensures var a := Admit(s, m, now);
            var due := ReplyDue(lastReply, m, a.name, now);
            var r := HandleMessageFixed(s, lastReply, m, now, isImageRequest, Some(text), botName);
            AddUserMemory(a.store, m.authorId, botName, text, now).Some? &&
            r == if !due then Step(a.store, lastReply, Silent)
                 else if !MemoryReadable(s, m.authorId) then Step(a.store, lastReply, Replied([GlitchApology]))
                 else Step(AddUserMemory(a.store, m.authorId, botName, text, now).value, lastReply[m.authorId := now], Replied([text]))
  {
    var a := Admit(s, m, now);
    var due := ReplyDue(lastReply, m, a.name, now);
    assert AddUserMemory(a.store, m.authorId, botName, text, now).Some?;
    var r := HandleMessageFixed(s, lastReply, m, now, isImageRequest, Some(text), botName);
    if !due {
      assert r == Step(a.store, lastReply, Silent);
    } else if !MemoryReadable(s, m.authorId) {
      assert r == Step(a.store, lastReply, Replied([GlitchApology]));
    } else {
      assert r == Step(AddUserMemory(a.store, m.authorId, botName, text, now).value, lastReply[m.authorId := now], Replied([text]));
    }
  }

  /**
   * With the map kept, the reply decision is: addressed, or a greeting outside the window, or a
   * direct message; a reply records its time and is sent once. When the reply cannot read the
   * user's memory, the apology is sent instead and no reply time is recorded.
   */
  lemma FixedReplyDecision(s: Store, lastReply: map<string, int>, m: Message, now: int, isImageRequest: bool, text: string, botName: string)
    requires Admit(s, m, now).Go?
    requires Route(Admit(s, m, now).settings, m, isImageRequest).None?
    requires PriorMemory(Admit(s, m, now).store, m.authorId).Some?
    ensures var r := HandleMessageFixed(s, lastReply, m, now, isImageRequest, Some(text), botName);
            var due := Addressed(m, Admit(s, m, now).name) || (IsGreeting(m.content) && GreetingDue(lastReply, m.authorId, now)) || m.isDm;
            (r.outcome == Silent <==> !due) &&
            (due && MemoryReadable(s, m.authorId) ==> r.outcome == Replied([text]) && r.lastReply == lastReply[m.authorId := now]) &&
            (due && !MemoryReadable(s, m.authorId) ==> r.outcome == Replied([GlitchApology]) && r.lastReply == lastReply)
  {
    FixedTextStep(s, lastReply, m, now, isImageRequest, text, botName);
  }

  /**
   * A greeting answered now is not answered again within five minutes unless otherwise addressed:
   * the second message is handled against the store and reply times the first one left behind.
   * A greeting answered with the apology alone, because the reply could not read the user's
   * memory, records no reply time.
   */
  lemma GreetingRateLimited(s: Store, lastReply: map<string, int>, m: Message, now: int, later: int, isImageRequest: bool, text: string, botName: string)
    requires Admit(s, m, now).Go?
    requires Route(Admit(s, m, now).settings, m, isImageRequest).None?
    requires PriorMemory(Admit(s, m, now).store, m.authorId).Some?
    requires IsGreeting(m.content) && !m.isDm
    requires now != 0 && now <= later < now + GreetingWindow
    ensures var r := HandleMessageFixed(s, lastReply, m, now, isImageRequest, Some(text), botName);
            var second := Admit(r.store, m, later);
            (MemoryReadable(s, m.authorId) && r.outcome.Replied? && second.Go? && !Addressed(m, second.name) ==>
              HandleMessageFixed(r.store, r.lastReply, m, later, isImageRequest, Some(text), botName).outcome == Silent) &&
            (!MemoryReadable(s, m.authorId) ==> r.lastReply == lastReply)
  {
    FixedTextStep(s, lastReply, m, now, isImageRequest, text, botName);
    var r := HandleMessageFixed(s, lastReply, m, now, isImageRequest, Some(text), botName);
    var second := Admit(r.store, m, later);
    if MemoryReadable(s, m.authorId) && r.outcome.Replied? && second.Go? && !Addressed(m, second.name) {
      assert r.lastReply == lastReply[m.authorId := now];
      SecondGreetingSilent(r.store, r.lastReply, m, now, later, isImageRequest, Some(text), botName);
    }
  }

  /** A greeting from a user answered at `now` is met with silence until five minutes have passed. */
  lemma SecondGreetingSilent(s: Store, lastReply: map<string, int>, m: Message, now: int, later: int, isImageRequest: bool, answer: Option<string>, botName: string)
    requires Admit(s, m, later).Go? && !Addressed(m, Admit(s, m, later).name) && !m.isDm
    requires m.authorId in lastReply && lastReply[m.authorId] == now && now != 0 && later - now < GreetingWindow
    ensures HandleMessageFixed(s, lastReply, m, later, isImageRequest, answer, botName).outcome == Silent
  {
    assert !GreetingDue(lastReply, m.authorId, later);
    FixedSilent(s, lastReply, m, later, isImageRequest, answer, botName);
  }

  /**
   * A user document without a usable memory, such as one an instructions or mood update created,
   * gets the apology alone in both versions: the reply fails before the model is called, so the
   * model's answer is never recorded, while the message itself still is.
   */
  lemma MemorylessUserApologises(s: Store, lastReply: map<string, int>, m: Message, now: int, isImageRequest: bool, answer: Option<string>, botName: string)
    requires Admit(s, m, now).Go? && !IsGreeting(m.content)
    requires Addressed(m, Admit(s, m, now).name) || m.isDm
    requires Route(Admit(s, m, now).settings, m, isImageRequest).None?
    requires !MemoryReadable(s, m.authorId)
    ensures var r := HandleMessage(s, m, now, isImageRequest, answer, botName);
            r.outcome == Replied([GlitchApology]) && r.store == Admit(s, m, now).store
    ensures var r := HandleMessageFixed(s, lastReply, m, now, isImageRequest, answer, botName);
            r.outcome == Replied([GlitchApology]) && r.store == Admit(s, m, now).store && r.lastReply == lastReply
  {
  }

  /** A stored user whose document has no `memory` field cannot have it read by the reply. */
  lemma MissingMemoryUnreadable(s: Store, userId: string)
    requires userId in s.users && Memory !in s.users[userId]
    ensures !MemoryReadable(s, userId)
  {
  }

  /** A user never stored reads with an empty list as memory, which the reply can read. */
  lemma NewUserMemoryReadable(s: Store, userId: string)
    requires userId !in s.users
    ensures MemoryReadable(s, userId)
  {
  }

  /** A number stored as the allow-list shuts nothing out and does not throw: the message goes on. */
  lemma NumberAllowListAdmits(s: Store, m: Message, now: int, n: int)
    requires m.guildId.Some? && Get(MessageSettings(s, m), AllowedChannels) == Some(Num(n))
    requires StrField(MessageSettings(s, m), Name).Some? && PriorMemory(s, m.authorId).Some?
    ensures Admit(s, m, now).Go?
  {
  }
}

=== FILE: docs.dfy ===
/**
 * Schemaless documents as the MongoDB driver stores them: a document maps field
 * names to values, `$set` overwrites exactly the supplied fields, and an upsert on an
 * equality filter creates the document from the filter field and the `$set` fields.
 * Also JavaScript truthiness, which decides several `||` defaults in the bot.
 */
module Docs {
  import opened Wrappers
  import opened Text
  import opened Lists

  /** One entry of the `chatHistory` array kept by lib/database.js. */
  datatype StoredTurn = StoredTurn(role: string, parts: seq<string>, timestamp: int, messageId: string, editedAt: Option<int>)

  /** One entry of the `memory` array kept by bot.js. */
  datatype MemoryItem = MemoryItem(timestamp: int, username: string, text: string)

  /**
   * Field names. The fields the bot reads and writes get their own constructor, so that
   * distinct fields are distinct by construction; any other name is `Other`.
   */
  datatype Key =
    | GuildId | UserId
    | Name | Age | Gender | Mood | Behavior | Personality
    | ImageGeneration | WebSearch | AllowedChannels | LastReplyTime
    | CustomInstructions | ChatHistory | LastMessageTime | Memory
    | Id | IsDm | DefaultInstructions | ImageGenerationEnabled | WebSearchEnabled
    | Other(name: string)

  /** The field name as it appears in a stored document. */
  function KeyName(k: Key): string {
    match k
    case GuildId => "guildId"
    case UserId => "userId"
    case Name => "name"
    case Age => "age"
    case Gender => "gender"
    case Mood => "mood"
    case Behavior => "behavior"
    case Personality => "personality"
    case ImageGeneration => "imageGeneration"
    case WebSearch => "webSearch"
    case AllowedChannels => "allowedChannels"
    case LastReplyTime => "lastReplyTime"
    case CustomInstructions => "customInstructions"
    case ChatHistory => "chatHistory"
    case LastMessageTime => "lastMessageTime"
    case Memory => "memory"
    case Id => "_id"
    case IsDm => "isDM"
    case DefaultInstructions => "defaultInstructions"
    case ImageGenerationEnabled => "imageGenerationEnabled"
    case WebSearchEnabled => "webSearchEnabled"
    case Other(n) => n
  }

  /** The field a name written at run time (a property access `obj[name]`) refers to. */
  function KeyOf(s: string): (k: Key)
    ensures KeyName(k) == s
    ensures k.Other? ==> k.name == s
  {
    if s == "guildId" then GuildId
    else if s == "userId" then UserId
    else if s == "name" then Name
    else if s == "age" then Age
    else if s == "gender" then Gender
    else if s == "mood" then Mood
    else if s == "behavior" then Behavior
    else if s == "personality" then Personality
    else if s == "imageGeneration" then ImageGeneration
    else if s == "webSearch" then WebSearch
    else if s == "allowedChannels" then AllowedChannels
    else if s == "lastReplyTime" then LastReplyTime
    else if s == "customInstructions" then CustomInstructions
    else if s == "chatHistory" then ChatHistory
    else if s == "lastMessageTime" then LastMessageTime
    else if s == "memory" then Memory
    else if s == "_id" then Id
    else if s == "isDM" then IsDm
    else if s == "defaultInstructions" then DefaultInstructions
    else if s == "imageGenerationEnabled" then ImageGenerationEnabled
    else if s == "webSearchEnabled" then WebSearchEnabled
    else Other(s)
  }

  /** The names the documents give a field of their own. */
  const ReservedNames: set<string> := {
    "guildId", "userId", "name", "age", "gender", "mood", "behavior", "personality", "imageGeneration",
    "webSearch", "allowedChannels", "lastReplyTime", "customInstructions", "chatHistory", "lastMessageTime",
    "memory", "_id", "isDM", "defaultInstructions", "imageGenerationEnabled", "webSearchEnabled"
  }

  /**
   * Reading a field name back from its key gives the same key exactly when the key is not an `Other`
   * spelling one of the reserved names: names and keys are in one-to-one correspondence.
   */
  lemma KeyOfKeyName(k: Key)
    ensures KeyOf(KeyName(k)) == k <==> !(k.Other? && k.name in ReservedNames)
  {
    if k.Other? {
      KeyOfOther(k.name);
    }
  }

  /** A name falls through to an unknown-field key exactly when it is not reserved. */
  lemma KeyOfOther(s: string)
    ensures KeyOf(s).Other? <==> s !in ReservedNames
  {
  }

  datatype Value =
    | Null
    | Bool(b: bool)
    | Num(n: int)
    | Str(s: string)
    | Strs(xs: seq<string>)
    | Turns(turns: seq<StoredTurn>)
    | Items(items: seq<MemoryItem>)
    | Times(at: map<string, int>)

  type Doc = map<Key, Value>

  /** A document collection keyed by its identifying field. */
  type Collection = map<string, Doc>

  /** `doc[key]`, where a missing field reads as `undefined` (`None`). */
  function Get(d: Doc, key: Key): Option<Value> {
    if key in d then Some(d[key]) else None
  }

  /**
   * The stored allow-list, when it is a list of ids; `None` for any other value. The message gates
   * read every kind of value through `AllowGate` and the edits through `AsList`, `SpreadOf`,
   * `Includes` and `FilterOut`.
   */
  function ChannelList(settings: Doc): Option<seq<string>> {
    match Get(settings, AllowedChannels)
    case Some(Strs(xs)) => Some(xs)
    case _ => None
  }

  /**
   * The message gate, which shuts out a channel when the stored allow-list has a positive length
   * and does not include the channel's id, applied to whatever value is stored: `Some(true)` when the message is shut out, `None` when reading
   * `.length` throws. A string is searched as a substring; a number, boolean or object has no
   * `length`, and `undefined > 0` is false; a list of turns or entries holds no string to match.
   */
  function AllowGate(v: Option<Value>, channelId: string): Option<bool> {
    match v
    case None => None
    case Some(Null) => None
    case Some(Strs(xs)) => Some(|xs| > 0 && channelId !in xs)
    case Some(Str(t)) => Some(|t| > 0 && !Contains(t, channelId))
    case Some(Turns(ts)) => Some(|ts| > 0)
    case Some(Items(xs)) => Some(|xs| > 0)
    case Some(Bool(_)) => Some(false)
    case Some(Num(_)) => Some(false)
    case Some(Times(_)) => Some(false)
  }

  /**
   * The gate throws exactly on a missing or `null` allow-list; a list of ids shuts out exactly the
   * channels missing from a non-empty list; a number, boolean or object never shuts anything out;
   * and the stored list edited through `ChannelList` is gated by membership.
   */
  lemma AllowGateKinds(settings: Doc, channelId: string)
    ensures var v := Get(settings, AllowedChannels);
            (AllowGate(v, channelId).None? <==> v.None? || v == Some(Null)) &&
            (ChannelList(settings).Some? ==>
               AllowGate(v, channelId) == Some(|ChannelList(settings).value| > 0 && channelId !in ChannelList(settings).value)) &&
            (v.Some? && (v.value.Num? || v.value.Bool? || v.value.Times?) ==> AllowGate(v, channelId) == Some(false))
  {
  }

  /** A non-empty string allow-list admits a channel exactly when the string contains its id. */
  lemma AllowGateString(t: string, channelId: string)
    requires |t| > 0
    ensures AllowGate(Some(Str(t)), channelId) == Some(false) <==> Contains(t, channelId)
  {
  }

  /**
   * The elements of an allow-list value as an array operation sees them: the ids of a list of ids,
   * nothing for an empty list of any kind, objects for a non-empty list of turns or entries, and no
   * array at all for anything else.
   */
  datatype Listing = NotAList | Ids(ids: seq<string>) | Objects

  function AsList(v: Option<Value>): Listing {
    match v
    case Some(Strs(xs)) => Ids(xs)
    case Some(Turns(ts)) => if |ts| == 0 then Ids([]) else Objects
    case Some(Items(xs)) => if |xs| == 0 then Ids([]) else Objects
    case _ => NotAList
  }

  /** The characters of a string, each as a one-character string. */
  function Chars(t: string): seq<string> {
    seq(|t|, i requires 0 <= i < |t| => [t[i]])
  }

  /** The pieces of a string spread into an array are exactly its single characters. */
  lemma CharsSpec(t: string, c: string)
    ensures |Chars(t)| == |t|
    ensures c in Chars(t) <==> |c| == 1 && c[0] in t
  {
    if |c| == 1 && c[0] in t {
      var i :| 0 <= i < |t| && t[i] == c[0];
      assert Chars(t)[i] == c;
    }
  }

  /**
   * `[...v]`: an array spreads into its elements and a string into its characters (a string
   * iterates by code point, one Dafny character each); any other value is not iterable and throws.
   */
  function SpreadOf(v: Option<Value>): Listing {
    match v
    case Some(Str(t)) => Ids(Chars(t))
    case _ => AsList(v)
  }

  /**
   * Spreading throws exactly on a missing, `null`, boolean, number or plain-object value; a list of
   * ids spreads into its ids and a string into its characters.
   */
  lemma SpreadKinds(v: Option<Value>)
    ensures SpreadOf(v).NotAList? <==> v.None? || v.value.Null? || v.value.Bool? || v.value.Num? || v.value.Times?
    ensures v.Some? && v.value.Strs? ==> SpreadOf(v) == Ids(v.value.xs)
    ensures v.Some? && v.value.Str? ==>
              SpreadOf(v).Ids? && |SpreadOf(v).ids| == |v.value.s| &&
              forall c :: c in SpreadOf(v).ids <==> |c| == 1 && c[0] in v.value.s
  {
    if v.Some? && v.value.Str? {
      forall c ensures c in SpreadOf(v).ids <==> |c| == 1 && c[0] in v.value.s {
        CharsSpec(v.value.s, c);
      }
    }
  }

  /**
   * `v.includes(id)`: list membership for an array, whose objects never equal an id; a substring
   * search for a string; `None` when the value has no `includes` and the call throws.
   */
  function Includes(v: Option<Value>, id: string): Option<bool> {
    match v
    case Some(Str(t)) => Some(Contains(t, id))
    case _ =>
      match AsList(v)
      case Ids(xs) => Some(id in xs)
      case Objects => Some(false)
      case NotAList => None
  }

  /**
   * `v.filter(id => !values.includes(id))`: a list of ids loses the selected ids; a list of turns or
   * entries keeps every element, since no object is a selected id; anything else, a string
   * included, has no `filter` and throws (`None`).
   */
  function FilterOut(v: Option<Value>, values: seq<string>): Option<Value> {
    match AsList(v)
    case Ids(xs) => Some(Strs(Without(xs, values)))
    case Objects => Some(v.value)
    case NotAList => None
  }

  /**
   * Filtering throws exactly where `filter` is missing; a list of ids keeps exactly its unselected
   * ids, in order; a list of objects comes back whole.
   */
  lemma FilterOutKinds(v: Option<Value>, values: seq<string>)
    ensures FilterOut(v, values).None? <==> AsList(v).NotAList?
    ensures v.Some? && v.value.Str? ==> FilterOut(v, values).None?
    ensures AsList(v).Ids? ==>
              FilterOut(v, values).Some? && FilterOut(v, values).value.Strs? &&
              var kept := FilterOut(v, values).value.xs;
              |kept| <= |AsList(v).ids| && forall c :: c in kept <==> c in AsList(v).ids && c !in values
    ensures AsList(v).Objects? ==> FilterOut(v, values) == v
  {
    if AsList(v).Ids? {
      WithoutSpec(AsList(v).ids, values);
    }
  }

  /** `v || []`: a falsy value reads as a new empty list. */
  function OrEmpty(v: Option<Value>): Option<Value> {
    if Truthy(v) then v else Some(Strs([]))
  }

  /** A string field, when it holds a string; calling a string method on anything else throws. */
  function StrField(d: Doc, key: Key): Option<string> {
    match Get(d, key)
    case Some(Str(s)) => Some(s)
    case _ => None
  }

  /** JavaScript `ToBoolean` of a field value; `undefined`, `null`, `false`, `0` and `''` are falsy. */
  predicate Truthy(v: Option<Value>) {
    match v
    case None => false
    case Some(Null) => false
    case Some(Bool(b)) => b
    case Some(Num(n)) => n != 0
    case Some(Str(s)) => s != ""
    case Some(_) => true
  }

  /**
   * `updateOne({ idKey: id }, { $set: updates }, { upsert: true })`: the matching document
   * gets the supplied fields; when none matches, one is created from the filter field and them.
   */
  function Upsert(c: Collection, idKey: Key, id: string, updates: Doc): Collection {
    var base := if id in c then c[id] else map[idKey := Str(id)];
    c[id := base + updates]
  }

  /**
   * An upsert writes exactly the supplied fields of the matching document, keeps its other
   * fields and every other document, and creates the document from the filter field when absent.
   */
  lemma UpsertWritesOnlyUpdates(c: Collection, idKey: Key, id: string, updates: Doc)
    ensures var r := Upsert(c, idKey, id, updates);
            r.Keys == c.Keys + {id} &&
            (forall other :: other in c && other != id ==> r[other] == c[other]) &&
            (id in c ==> r[id].Keys == c[id].Keys + updates.Keys) &&
            (id !in c ==> r[id].Keys == {idKey} + updates.Keys) &&
            (forall k :: k in updates ==> r[id][k] == updates[k]) &&
            (id in c ==> forall k :: k in c[id] && k !in updates ==> r[id][k] == c[id][k]) &&
            (id !in c && idKey !in updates ==> r[id][idKey] == Str(id))
  {
  }
}

=== FILE: gemini.dfy ===
/**
 * The model calls of the `src/` variant (`src/ai/gemini.js`), without the HTTP: the turn list
 * `generateText` sends, how it reads the answer, how `decideToReply` reads the classifier's
 * answer, and how `generateImage` reads the image service's answer. The answers themselves
 * are inputs.
 */
module Gemini {
  import opened Wrappers
  import opened Text
  import opened Schemas

  datatype ContentPart = TextPart(text: string) | ImagePart(mimeType: string, data: string)
  datatype Turn = Turn(role: string, parts: seq<ContentPart>)

  const Acknowledgement: string := "Okay, I understand."

  function TextParts(parts: seq<Part>): (r: seq<ContentPart>)
    ensures |r| == |parts|
    ensures forall i :: 0 <= i < |parts| ==> r[i] == TextPart(parts[i].text)
  {
    seq(|parts|, i requires 0 <= i < |parts| => TextPart(parts[i].text))
  }

  /** The turn a stored entry becomes: `user` stays `user`, anything else is the model's. */
  function EntryTurn(e: HistoryEntry): Turn {
    Turn(if e.role == "user" then "user" else "model", TextParts(e.parts))
  }

  /** The stored history as turns: user and bot entries, in order; any other role is dropped. */
  function HistoryTurns(history: seq<HistoryEntry>): seq<Turn> {
    if |history| == 0 then []
    else (if KnownRole(history[0]) then [EntryTurn(history[0])] else []) + HistoryTurns(history[1..])
  }

  /** How many entries have a role the conversion keeps. */
  function KnownCount(history: seq<HistoryEntry>): nat {
    if |history| == 0 then 0 else (if KnownRole(history[0]) then 1 else 0) + KnownCount(history[1..])
  }

  /** Converting a concatenation converts each part: the kept turns keep their relative order. */
  lemma {:induction false} HistoryTurnsAppend(a: seq<HistoryEntry>, b: seq<HistoryEntry>)
    ensures HistoryTurns(a + b) == HistoryTurns(a) + HistoryTurns(b)
    decreases |a|
  {
    if |a| == 0 {
      assert a + b == b;
    } else {
      assert (a + b)[0] == a[0];
      assert (a + b)[1..] == a[1..] + b;
      HistoryTurnsAppend(a[1..], b);
      var head := if KnownRole(a[0]) then [EntryTurn(a[0])] else [];
      assert head + (HistoryTurns(a[1..]) + HistoryTurns(b)) == (head + HistoryTurns(a[1..])) + HistoryTurns(b);
    }
  }

  /** One turn per user or bot entry, and none for any other. */
  lemma {:induction false} HistoryTurnsCount(history: seq<HistoryEntry>)
    ensures |HistoryTurns(history)| == KnownCount(history) <= |history|
    ensures (forall i :: 0 <= i < |history| ==> KnownRole(history[i])) ==> KnownCount(history) == |history|
    decreases |history|
  {
    if |history| > 0 {
      HistoryTurnsCount(history[1..]);
    }
  }

  /** A history the schema accepts maps entry by entry, `bot` becoming `model`. */
  lemma {:induction false} HistoryTurnsOfValid(history: seq<HistoryEntry>, i: nat)
    requires forall j :: 0 <= j < |history| ==> KnownRole(history[j])
    requires i < |history|
    ensures |HistoryTurns(history)| == |history|
    ensures HistoryTurns(history)[i] == EntryTurn(history[i])
    ensures HistoryTurns(history)[i].role == (if history[i].role == "bot" then "model" else "user")
    decreases |history|
  {
    HistoryTurnsCount(history);
    if i > 0 {
      HistoryTurnsOfValid(history[1..], i - 1);
    }
  }

  /** An entry in any other role contributes nothing. */
  lemma DropsOtherRoles(before: seq<HistoryEntry>, e: HistoryEntry, after: seq<HistoryEntry>)
    requires !KnownRole(e)
    ensures HistoryTurns(before + [e] + after) == HistoryTurns(before + after)
  {
    HistoryTurnsAppend(before + [e], after);
    HistoryTurnsAppend(before, [e]);
    HistoryTurnsAppend(before, after);
  }

  /**
   * The `contents` of a text request: the system prompt as a user turn, the acknowledgement as a
   * model turn, the history, then the user's prompt with the image when one is given.
   */
  function BuildContents(systemPrompt: string, userPrompt: string, history: seq<HistoryEntry>, image: Option<string>): (r: seq<Turn>)
    ensures |r| == 3 + KnownCount(history)
    ensures r[0] == Turn("user", [TextPart(systemPrompt)])
    ensures r[1] == Turn("model", [TextPart(Acknowledgement)])
    ensures r[2..|r| - 1] == HistoryTurns(history)
    ensures r[|r| - 1].role == "user" && |r[|r| - 1].parts| >= 1 && r[|r| - 1].parts[0] == TextPart(userPrompt)
    ensures |r[|r| - 1].parts| == 2 <==> image.Some? && image.value != ""
  {
    HistoryTurnsCount(history);
    var last :=
      if image.Some? && image.value != "" then Turn("user", [TextPart(userPrompt), ImagePart("image/png", image.value)])
      else Turn("user", [TextPart(userPrompt)]);
    var r := [Turn("user", [TextPart(systemPrompt)]), Turn("model", [TextPart(Acknowledgement)])] + HistoryTurns(history) + [last];
    assert r[2..|r| - 1] == HistoryTurns(history);
    r
  }

  /** One part of a candidate's content; `text` is absent for non-text parts. */
  datatype AnswerPart = AnswerPart(text: Option<string>)

  /** A candidate, with `content.parts` when both are present. */
  datatype Candidate = Candidate(parts: Option<seq<AnswerPart>>)

  /** What the text endpoint produced: a thrown error, or a JSON body with or without `candidates`. */
  datatype TextAnswer = TextThrew | TextBody(candidates: Option<seq<Candidate>>)

  const ShapeApology: string := "Sorry, I couldn't generate a response. The AI might be having trouble."
  const ErrorApology: string := "I apologize, but I encountered an error while processing your request."

  /** The body has a first candidate with at least one part. */
  predicate HasFirstPart(a: TextAnswer) {
    a.TextBody? && a.candidates.Some? && |a.candidates.value| > 0 &&
    a.candidates.value[0].parts.Some? && |a.candidates.value[0].parts.value| > 0
  }

  /**
   * The reply text: the first part's text (absent when that part has none), or one of the two
   * apologies; nothing escapes as an error.
   */
  function GenerateText(a: TextAnswer): Option<string> {
    match a
    case TextThrew => Some(ErrorApology)
    case TextBody(candidates) =>
      if HasFirstPart(a) then candidates.value[0].parts.value[0].text else Some(ShapeApology)
  }

  /**
   * The reply is missing only when the first part carries no text; every failure, thrown or
   * malformed, is answered with a non-empty apology, the error one exactly when the call threw.
   */
  lemma GenerateTextOutcomes(a: TextAnswer)
    ensures GenerateText(a).None? <==> HasFirstPart(a) && a.candidates.value[0].parts.value[0].text.None?
    ensures HasFirstPart(a) ==> GenerateText(a) == a.candidates.value[0].parts.value[0].text
    ensures !HasFirstPart(a) ==>
              GenerateText(a).Some? && GenerateText(a).value != "" &&
              (GenerateText(a).value == ErrorApology <==> a.TextThrew?)
  {
    assert |ErrorApology| > 0 && |ShapeApology| > 0;
  }

  /** Whether the classifier's answer says yes: anywhere in it, in any letter case; a failed call says yes. */
  predicate DecideToReply(answer: Option<string>) {
    match answer
    case None => true
    case Some(t) => Contains(Upper(Trim(t)), "YES")
  }

  /** Any answer that contains a spelling of `yes`, with any surroundings, is a yes. */
  lemma YesAnywhereDecidesYes(t: string, w: string)
    requires Contains(t, w) && |w| > 0 && NoSpace(w) && Upper(w) == "YES"
    ensures DecideToReply(Some(t))
  {
    TrimKeepsWord(t, w);
    var i := IndexOf(Trim(t), w).value;
    UpperOfOccurrence(Trim(t), w, i);
    ContainsAt(Upper(Trim(t)), "YES", i);
  }

  /** The substring test also says yes to an answer that only contains the letters, as in `eyes`. */
  lemma EyesDecidesYes()
    ensures DecideToReply(Some("eyes"))
  {
    var w := "yes";
    assert NoSpace(w);
    assert Upper(w) == "YES";
    ContainsMiddle("e", w, "");
    assert "e" + w + "" == "eyes";
    YesAnywhereDecidesYes("eyes", w);
  }

  /** A plain `NO` is a no. */
  lemma NoDecidesNo()
    ensures !DecideToReply(Some("NO"))
  {
    TrimOfTrimmed("NO");
    assert Upper("NO") == "NO";
    if Contains("NO", "YES") {
      ContainsNoLonger("NO", "YES");
    }
  }

  datatype Prediction = Prediction(bytes: Option<string>)

  /** What the image endpoint produced: a thrown error, or a JSON body with or without `predictions`. */
  datatype ImageAnswer = ImageThrew | ImageBody(predictions: Option<seq<Prediction>>)

  const DataUrlPrefix: string := "data:image/png;base64,"

  /** The image as a data URL when the first prediction carries non-empty bytes; `null` otherwise. */
  function GenerateImage(a: ImageAnswer): Option<string> {
    if a.ImageBody? && a.predictions.Some? && |a.predictions.value| > 0 &&
       a.predictions.value[0].bytes.Some? && a.predictions.value[0].bytes.value != ""
    then Some(DataUrlPrefix + a.predictions.value[0].bytes.value)
    else None
  }

  /** A data URL is returned exactly when bytes came back, and removing the prefix gives those bytes. */
  lemma GenerateImageDataUrl(a: ImageAnswer)
    ensures var r := GenerateImage(a);
            (r.Some? <==> a.ImageBody? && a.predictions.Some? && |a.predictions.value| > 0 &&
                          a.predictions.value[0].bytes.Some? && a.predictions.value[0].bytes.value != "") &&
            (r.Some? ==> StartsWith(r.value, DataUrlPrefix) && r.value[|DataUrlPrefix|..] == a.predictions.value[0].bytes.value)
  {
    var r := GenerateImage(a);
    if r.Some? {
      assert r.value[..|DataUrlPrefix|] == DataUrlPrefix;
    }
  }
}

=== FILE: helpers.dfy ===
/**
 * The pure helper of `utils/helpers.js`: `truncateText`. Directory creation, GIF fetching and
 * the random id generator in the same file touch the filesystem, the network or `Math.random`
 * and are not part of this model.
 */
module Helpers {
  import opened Text

  /**
   * A JavaScript string as its UTF-16 code units: `length` and `substring` count these, so a
   * character above U+FFFF counts twice. `Utf16` gives the units of a Dafny string.
   */
  type JsString = seq<CodeUnit>

  /** `"..."`: three full stops, U+002E. */
  const Ellipsis: JsString := [0x2E, 0x2E, 0x2E]

  /** `text.substring(0, end)`: a negative end counts as 0 and one past the text as its length. */
  function Prefix(text: JsString, end: int): (r: JsString)
    ensures |r| <= |text| && r == text[..|r|]
    ensures 0 <= end <= |text| ==> |r| == end
  {
    if end < 0 then [] else if end > |text| then text else text[..end]
  }

  /** `truncateText(text, maxLength)`. */
  function Truncate(text: JsString, maxLength: int): JsString {
    if |text| <= maxLength then text else Prefix(text, maxLength - 3) + Ellipsis
  }

  /** Text that fits is returned unchanged; longer text becomes its first `maxLength - 3` code units and `"..."`. */
  lemma TruncateCases(text: JsString, maxLength: int)
    ensures |text| <= maxLength ==> Truncate(text, maxLength) == text
    ensures |text| > maxLength >= 3 ==>
      Truncate(text, maxLength) == text[..maxLength - 3] + Ellipsis
  {
  }

  /** From a limit of 3 up, the result never exceeds the limit. */
  lemma TruncateBounded(text: JsString, maxLength: int)
    requires maxLength >= 3
    ensures |Truncate(text, maxLength)| <= maxLength
    ensures |text| > maxLength ==> |Truncate(text, maxLength)| == maxLength
  {
  }

  /**
   * Below a limit of 3 every text that does not fit becomes exactly `"..."`: the negative end is
   * clamped to 0, so the result is longer than the limit.
   */
  lemma TruncateBelowThree(text: JsString, maxLength: int)
    requires maxLength < 3 && |text| > maxLength
    ensures Truncate(text, maxLength) == Ellipsis
    ensures |Truncate(text, maxLength)| > maxLength
  {
    assert [] + Ellipsis == Ellipsis;
  }

  /** The result is either the text itself or a prefix of it followed by `"..."`, whatever the limit. */
  lemma TruncateShape(text: JsString, maxLength: int)
    ensures var r := Truncate(text, maxLength);
      r == text ||
      (|r| >= 3 && r[|r| - 3..] == Ellipsis && |r| - 3 <= |text| && r[..|r| - 3] == text[..|r| - 3])
  {
    var r := Truncate(text, maxLength);
    if r != text {
      var p := Prefix(text, maxLength - 3);
      assert r == p + Ellipsis;
      assert r[..|r| - 3] == p;
      assert p == text[..|p|];
    }
  }

  /** Truncating again at the same limit of at least 3 changes nothing. */
  lemma TruncateIdempotent(text: JsString, maxLength: int)
    requires maxLength >= 3
    ensures Truncate(Truncate(text, maxLength), maxLength) == Truncate(text, maxLength)
  {
    TruncateBounded(text, maxLength);
  }

  /**
   * Lengths are counted in code units: three emoji are six units, so at a limit of 5 they do
   * not fit and the result is the first emoji (two units) followed by `...`.
   */
  lemma TruncateCountsCodeUnits()
    ensures |"\U{1F600}\U{1F600}\U{1F600}"| == 3
    ensures Truncate(Utf16("\U{1F600}\U{1F600}\U{1F600}"), 5) == Utf16("\U{1F600}") + Ellipsis
  {
    var e := "\U{1F600}";
    Utf16Append(e, e);
    Utf16Append(e + e, e);
    assert e + e + e == "\U{1F600}\U{1F600}\U{1F600}";
    assert |Utf16(e)| == 2;
    assert Utf16(e + e + e)[..2] == Utf16(e);
  }

  /** Text of characters up to U+FFFF is counted one unit per character, so the limit is in characters. */
  lemma TruncateBmp(s: string, maxLength: int)
    requires forall i :: 0 <= i < |s| ==> s[i] as int <= 0xFFFF
    ensures |Utf16(s)| == |s|
    ensures |s| <= maxLength ==> Truncate(Utf16(s), maxLength) == Utf16(s)
  {
    Utf16LengthBmp(s);
  }
}

=== FILE: image_generator.dfy ===
/**
 * The image generator of `utils/imageGenerator.js`: the per-user sliding-window rate limiter,
 * the order in which `generateImage` consults it, and the prompt enhancer.
 *
 * Every `Date.now()` is a parameter. The image endpoint's answer is an input (`None` when the
 * call throws); how a response is turned into an image, the embed builder and the command
 * regexes are not part of this model.
 */
module ImageGenerator {
  import opened Wrappers
  import opened Text

  const MaxRequestsPerMinute: nat := 10
  const Window: int := 60000
  const MaxTracked: nat := 1000
  const StaleAfter: int := 300000

  /** A user's recent request times and the time the entry was created. */
  datatype Limits = Limits(requests: seq<int>, lastReset: int)

  type RateLimits = map<string, Limits>

  /** `requests.filter(t => now - t < 60000)`. */
  function Recent(ts: seq<int>, now: int): (r: seq<int>)
    ensures |r| <= |ts|
    ensures forall t :: t in r <==> t in ts && now - t < Window
  {
    if |ts| == 0 then []
    else
      var init := ts[..|ts| - 1];
      var t := ts[|ts| - 1];
      assert ts == init + [t];
      var rest := Recent(init, now);
      if now - t < Window then rest + [t] else rest
  }

  /** The positions of the timestamps that fall inside the window ending at `now`. */
  function WithinWindow(ts: seq<int>, now: int): set<nat> {
    set i: nat | i < |ts| && now - ts[i] < Window
  }

  /** The filter keeps one timestamp per position inside the window. */
  lemma {:induction false} RecentCounts(ts: seq<int>, now: int)
    ensures |Recent(ts, now)| == |WithinWindow(ts, now)|
  {
    if |ts| > 0 {
      var init := ts[..|ts| - 1];
      var last := |ts| - 1;
      RecentCounts(init, now);
      var before := WithinWindow(init, now);
      assert last !in before;
      assert WithinWindow(ts, now) == before + (if now - ts[last] < Window then {last} else {}) by {
        forall i: nat | i < last ensures ts[i] == init[i] { }
      }
    }
  }

  /** The entry `rateLimits.get(userId) || { requests: [], lastReset: now }`. */
  function LimitsOf(rl: RateLimits, userId: string, now: int): Limits {
    if userId in rl then rl[userId] else Limits([], now)
  }

  /**
   * `checkRateLimit`: whether the user may make another request. The filter is written back into
   * the stored entry's array, so an existing entry is pruned as a side effect; a missing one is
   * not added.
   */
  function CheckRateLimit(rl: RateLimits, userId: string, now: int): (RateLimits, bool) {
    var limits := LimitsOf(rl, userId, now);
    var pruned := Recent(limits.requests, now);
    (if userId in rl then rl[userId := limits.(requests := pruned)] else rl, |pruned| < MaxRequestsPerMinute)
  }

  /** `cleanupRateLimits`: above 1000 users, forget every user whose entry is over five minutes old. */
  function Cleanup(rl: RateLimits, now: int): RateLimits {
    if |rl| > MaxTracked then map u | u in rl && !(now - rl[u].lastReset > StaleAfter) :: rl[u]
    else rl
  }

  /** `updateRateLimit`: record `now`, prune the window, store the entry, then clean up. */
  function UpdateRateLimit(rl: RateLimits, userId: string, now: int): RateLimits {
    var limits := LimitsOf(rl, userId, now);
    var stored := rl[userId := Limits(Recent(limits.requests + [now], now), limits.lastReset)];
    Cleanup(stored, now)
  }

  /** What the enhanced prompt is sent to: the image returned, or `None` when the call throws. */
  datatype Outcome = RateLimited | Failed(sent: string) | Generated(sent: string, image: string)

  /**
   * `generateImage`: the rate limit is checked at `checkedAt` before anything else; the endpoint
   * answers `answer`, and on success the request is recorded at `doneAt`.
   */
  function GenerateImage(rl: RateLimits, userId: string, prompt: string, options: ImageOptions,
                         checkedAt: int, answer: Option<string>, doneAt: int): (RateLimits, Outcome)
  {
    var (checked, allowed) := CheckRateLimit(rl, userId, checkedAt);
    if !allowed then (checked, RateLimited)
    else
      var sent := EnhancePrompt(prompt, options);
      match answer
      case None => (checked, Failed(sent))
      case Some(image) => (UpdateRateLimit(checked, userId, doneAt), Generated(sent, image))
  }

  /** A user may go on exactly when fewer than ten of their stored timestamps lie within the last minute. */
  lemma CheckRateLimitCounts(rl: RateLimits, userId: string, now: int)
    ensures CheckRateLimit(rl, userId, now).1 <==>
      |WithinWindow(LimitsOf(rl, userId, now).requests, now)| < MaxRequestsPerMinute
    ensures userId !in rl ==> CheckRateLimit(rl, userId, now).1
  {
    RecentCounts(LimitsOf(rl, userId, now).requests, now);
  }

  /** The check only prunes the asking user's window: no user is added and no other entry changes. */
  lemma CheckRateLimitPrunes(rl: RateLimits, userId: string, now: int)
    ensures var rl' := CheckRateLimit(rl, userId, now).0;
      rl'.Keys == rl.Keys &&
      (forall u :: u in rl && u != userId ==> rl'[u] == rl[u]) &&
      (userId in rl ==>
         rl'[userId].lastReset == rl[userId].lastReset &&
         (forall t :: t in rl'[userId].requests <==> t in rl[userId].requests && now - t < Window))
  {
  }

  /** Over the limit the request is refused before the endpoint is called: its answer changes nothing. */
  lemma RateLimitedBeforeCall(rl: RateLimits, userId: string, prompt: string, options: ImageOptions,
                              checkedAt: int, a1: Option<string>, d1: int, a2: Option<string>, d2: int)
    requires !CheckRateLimit(rl, userId, checkedAt).1
    ensures GenerateImage(rl, userId, prompt, options, checkedAt, a1, d1).1 == RateLimited
    ensures GenerateImage(rl, userId, prompt, options, checkedAt, a1, d1) ==
            GenerateImage(rl, userId, prompt, options, checkedAt, a2, d2)
  {
  }

  /** A failed call records nothing: no user gains a timestamp. */
  lemma FailedCallRecordsNothing(rl: RateLimits, userId: string, prompt: string, options: ImageOptions,
                                 checkedAt: int, doneAt: int)
    ensures var (rl', out) := GenerateImage(rl, userId, prompt, options, checkedAt, None, doneAt);
      rl'.Keys == rl.Keys &&
      forall u, t :: u in rl && t in rl'[u].requests ==> t in rl[u].requests
  {
  }

  /** An update records `now` for the user unless the cleanup forgets them, which it cannot below 1000 users. */
  lemma UpdateRecordsNow(rl: RateLimits, userId: string, now: int)
    ensures var rl' := UpdateRateLimit(rl, userId, now);
      (userId in rl' ==> now in rl'[userId].requests) &&
      (|rl| < MaxTracked ==> userId in rl')
  {
    var limits := LimitsOf(rl, userId, now);
    assert now in limits.requests + [now];
    var stored := rl[userId := Limits(Recent(limits.requests + [now], now), limits.lastReset)];
    assert now in stored[userId].requests;
    assert |stored| <= |rl| + 1 by {
      assert stored.Keys == rl.Keys + {userId};
    }
    assert UpdateRateLimit(rl, userId, now) == Cleanup(stored, now);
  }

  /**
   * A successful call records its completion time, unless the cleanup that follows forgets the
   * user; with at most 1000 users tracked it never does.
   */
  lemma SuccessRecordsRequest(rl: RateLimits, userId: string, prompt: string, options: ImageOptions,
                              checkedAt: int, image: string, doneAt: int)
    requires CheckRateLimit(rl, userId, checkedAt).1
    ensures var (rl', out) := GenerateImage(rl, userId, prompt, options, checkedAt, Some(image), doneAt);
      out == Generated(EnhancePrompt(prompt, options), image) &&
      (userId in rl' ==> doneAt in rl'[userId].requests) &&
      (|rl| < MaxTracked ==> userId in rl')
  {
    var checked := CheckRateLimit(rl, userId, checkedAt).0;
    assert GenerateImage(rl, userId, prompt, options, checkedAt, Some(image), doneAt) ==
           (UpdateRateLimit(checked, userId, doneAt), Generated(EnhancePrompt(prompt, options), image));
    CheckRateLimitPrunes(rl, userId, checkedAt);
    assert |checked| == |rl| by {
      assert checked.Keys == rl.Keys;
    }
    UpdateRecordsNow(checked, userId, doneAt);
  }

  /**
   * After an update the user's window holds `now` and exactly the earlier timestamps still inside
   * it, every other user keeps their entry, and the entry's creation time is never refreshed.
   */
  lemma UpdateRateLimitWindow(rl: RateLimits, userId: string, now: int)
    requires |rl| < MaxTracked
    ensures var rl' := UpdateRateLimit(rl, userId, now);
      rl'.Keys == rl.Keys + {userId} &&
      (forall u :: u in rl && u != userId ==> rl'[u] == rl[u]) &&
      (forall t :: t in rl'[userId].requests <==>
         t == now || (t in LimitsOf(rl, userId, now).requests && now - t < Window)) &&
      rl'[userId].lastReset == (if userId in rl then rl[userId].lastReset else now)
  {
    var limits := LimitsOf(rl, userId, now);
    var stored := rl[userId := Limits(Recent(limits.requests + [now], now), limits.lastReset)];
    assert |stored| <= |rl| + 1 by {
      assert stored.Keys == rl.Keys + {userId};
    }
  }

  /** At 1000 users or fewer the cleanup keeps everything; above, it drops exactly the stale entries. */
  lemma CleanupDropsStale(rl: RateLimits, now: int)
    ensures |rl| <= MaxTracked ==> Cleanup(rl, now) == rl
    ensures |rl| > MaxTracked ==>
      forall u :: u in Cleanup(rl, now) <==> u in rl && now - rl[u].lastReset <= StaleAfter
    ensures forall u :: u in Cleanup(rl, now) ==> u in rl && Cleanup(rl, now)[u] == rl[u]
  {
  }

  /**
   * Because `lastReset` is set once and never refreshed, the cleanup forgets a user who created
   * their entry over five minutes ago however recently they asked, and their next check passes.
   */
  lemma CleanupForgetsActiveUser(rl: RateLimits, userId: string, now: int)
    requires |rl| > MaxTracked && userId in rl && now - rl[userId].lastReset > StaleAfter
    ensures userId !in Cleanup(rl, now)
    ensures CheckRateLimit(Cleanup(rl, now), userId, now).1
  {
  }

  /** The options `enhancePrompt` reads; an empty string counts as absent, as `||` does. */
  datatype ImageOptions = ImageOptions(style: Option<string>, quality: Option<string>, mood: Option<string>)

  function OrDefault(o: Option<string>, default: string): string {
    if o.Some? && o.value != "" then o.value else default
  }

  function Style(options: ImageOptions): string { OrDefault(options.style, "anime") }

  /** The trimmed prompt followed by the style, quality and mood clause. */
  function StyledPrompt(prompt: string, options: ImageOptions): string {
    Trim(prompt) + ", " + Style(options) + " style, " + OrDefault(options.quality, "high quality") + ", " +
      OrDefault(options.mood, "vibrant") + " colors"
  }

  const Detailed: string := ", highly detailed"
  const AnimeArt: string := ", anime art style"
  const SafetySuffix: string := ", safe for work, appropriate content, family friendly"

  /** `enhancePrompt`. */
  function EnhancePrompt(prompt: string, options: ImageOptions): string {
    var styled := StyledPrompt(prompt, options);
    var detailed := if !Contains(styled, "detailed") then styled + Detailed else styled;
    var anime := if Style(options) == "anime" && !Contains(detailed, "anime") then detailed + AnimeArt else detailed;
    anime + SafetySuffix
  }

  /**
   * The enhanced prompt is the styled prompt, then `", highly detailed"` exactly when the styled
   * prompt lacks `"detailed"`, then the safety clause. The anime-art clause never appears: when the
   * style is anime the styled prompt already names it.
   */
  lemma EnhancePromptShape(prompt: string, options: ImageOptions)
    ensures var styled := StyledPrompt(prompt, options);
      EnhancePrompt(prompt, options) ==
        styled + (if Contains(styled, "detailed") then "" else Detailed) + SafetySuffix
  {
    var styled := StyledPrompt(prompt, options);
    var detailed := if !Contains(styled, "detailed") then styled + Detailed else styled;
    if Style(options) == "anime" {
      var rest := " style, " + OrDefault(options.quality, "high quality") + ", " + OrDefault(options.mood, "vibrant") + " colors";
      assert styled == (Trim(prompt) + ", ") + "anime" + rest;
      ContainsMiddle(Trim(prompt) + ", ", "anime", rest);
      if detailed != styled {
        ContainsExtend(styled, "anime", Detailed);
      }
    }
    if Contains(styled, "detailed") {
      assert styled + "" == styled;
    }
  }

  /** Without options (or with empty ones) the prompt gets the anime style, high quality and vibrant colours. */
  lemma EnhancePromptDefaults(prompt: string, options: ImageOptions)
    requires options.style in {None, Some("")} && options.quality in {None, Some("")} && options.mood in {None, Some("")}
    ensures StyledPrompt(prompt, options) ==
            Trim(prompt) + ", " + "anime" + " style, " + "high quality" + ", " + "vibrant" + " colors"
  {
  }

  /** The styled prompt begins with the trimmed prompt. */
  lemma StyledStartsWithTrim(prompt: string, options: ImageOptions)
    ensures var styled := StyledPrompt(prompt, options);
      |styled| >= |Trim(prompt)| && styled[..|Trim(prompt)|] == Trim(prompt)
  {
    var t := Trim(prompt);
    var rest := ", " + Style(options) + " style, " + OrDefault(options.quality, "high quality") + ", " +
      OrDefault(options.mood, "vibrant") + " colors";
    assert StyledPrompt(prompt, options) == t + rest;
  }

  /** A concatenation of three strings starts with the first and ends with the last. */
  lemma ConcatEnds(a: string, b: string, c: string)
    ensures var e := a + b + c;
      |e| == |a| + |b| + |c| && e[..|a|] == a && e[|e| - |c|..] == c
  {
  }

  /** The enhanced prompt starts with the trimmed prompt and ends with the safety clause. */
  lemma EnhancePromptEnds(prompt: string, options: ImageOptions)
    ensures var e := EnhancePrompt(prompt, options);
      |e| >= |Trim(prompt)| + |SafetySuffix| &&
      e[..|Trim(prompt)|] == Trim(prompt) && e[|e| - |SafetySuffix|..] == SafetySuffix
  {
    var styled := StyledPrompt(prompt, options);
    var extra := if Contains(styled, "detailed") then "" else Detailed;
    var t := Trim(prompt);
    EnhancePromptShape(prompt, options);
    StyledStartsWithTrim(prompt, options);
    ConcatEnds(styled, extra, SafetySuffix);
    var e := styled + extra + SafetySuffix;
    assert e[..|t|] == e[..|styled|][..|t|];
  }
}

=== FILE: intake.dfy ===
/**
 * The message handler of the `src/` variant (`src/index.js`): the context a message belongs to,
 * the allow-list gate, the personality read over the defaults, the instructions fallback, the
 * image-generation trigger and which turns are saved.
 *
 * The classifier's answer, the two endpoints' answers, the attachment download and whether the
 * store is reachable are inputs. Role renaming and the occasional GIF are left out.
 */
module Intake {
  import opened Wrappers
  import opened Docs
  import opened Text
  import opened Schemas
  import opened MongoStore
  import opened Gemini

  /** The personality the handler falls back to, field by field. */
  const DefaultPersonality: Doc := map[
    Name := Str("Kohana Yuki"),
    Age := Str("15"),
    Gender := Str("female"),
    Mood := Str("happy"),
    CustomInstructions := Str("I live in Tokyo, and I like to watch anime and play games. I consider myself a human."),
    ImageGenerationEnabled := Bool(false),
    WebSearchEnabled := Bool(false)
  ]

  /** An attachment: its declared content type and its downloaded bytes (`None` when the download fails). */
  datatype Attachment = Attachment(contentType: Option<string>, fetched: Option<string>)

  /** An incoming message; `fromBot` is whether its author is a bot, the bot itself included. */
  datatype Message = Message(
    fromBot: bool,
    authorId: string,
    guildId: string,
    channelId: string,
    content: string,
    isDm: bool,
    attachment: Option<Attachment>)

  /** What the outside world answers while one message is handled. */
  datatype Oracle = Oracle(up: bool, decision: Option<string>, image: ImageAnswer, text: TextAnswer)

  datatype Outcome =
    | Ignored
    | Crashed
    | Silent
    | ImageReplied(prompt: string, url: Option<string>)
    | TextReplied(text: string)
    | NothingSent

  datatype Step = Step(store: Store, outcome: Outcome)

  const ImagePhrase: string := "generate image of"
  const ImageDone: string := "Here's an image based on your request:"
  const ImageFailed: string := "Sorry, I could not generate an image for that request."

  /** The settings and history context: the user in a direct message, the guild otherwise. */
  function ContextOf(isDm: bool, userId: string, guildId: string): string {
    if isDm then userId else guildId
  }

  function ContextId(m: Message): string {
    ContextOf(m.isDm, m.authorId, m.guildId)
  }

  /** `{ ...defaults, ...(stored || {}) }`. */
  function Personality(defaults: Doc, stored: Option<Doc>): Doc {
    defaults + stored.GetOr(map[])
  }

  /** The stored settings win over the defaults field by field, and every default field is present. */
  lemma PersonalityOverlay(defaults: Doc, stored: Option<Doc>)
    ensures var p := Personality(defaults, stored);
            p.Keys == defaults.Keys + stored.GetOr(map[]).Keys &&
            (forall k :: k in stored.GetOr(map[]) ==> Get(p, k) == Some(stored.value[k])) &&
            (forall k :: k in defaults && k !in stored.GetOr(map[]) ==> Get(p, k) == Some(defaults[k]))
  {
  }

  /** Without stored settings the bot is Kohana Yuki, aged 15, with image generation off. */
  lemma DefaultPersonalityValues()
    ensures var p := Personality(DefaultPersonality, None);
            StrField(p, Name) == Some("Kohana Yuki") && StrField(p, Age) == Some("15") &&
            !Truthy(Get(p, ImageGenerationEnabled))
  {
  }

  /**
   * The instructions the prompt uses: the custom ones, or the stored default instructions when
   * the custom ones are only whitespace; `None` when the field is not a string and `trim` throws.
   */
  function BaseInstructions(personality: Doc, st: Store, up: bool): Option<Value> {
    match StrField(personality, CustomInstructions)
    case None => None
    case Some(s) => if Trim(s) == "" then Some(GetBotDefaultInstructions(st, up)) else Some(Str(s))
  }

  /** Whitespace-only instructions give way to the defaults; anything else is used as it is. */
  lemma InstructionsFallback(personality: Doc, st: Store, up: bool, s: string)
    requires StrField(personality, CustomInstructions) == Some(s)
    ensures AllSpace(s) ==> BaseInstructions(personality, st, up) == Some(GetBotDefaultInstructions(st, up))
    ensures !AllSpace(s) ==> BaseInstructions(personality, st, up) == Some(Str(s))
  {
    TrimEmptyIffAllSpace(s);
  }

  /** The downloaded bytes of an image attachment, when the type says image and the download worked. */
  function ImageData(a: Option<Attachment>): Option<string> {
    if a.Some? && a.value.contentType.Some? && StartsWith(a.value.contentType.value, "image/") && a.value.fetched.Some?
    then a.value.fetched
    else None
  }

  /**
   * The image prompt, when image generation is on and the lower-cased content contains the phrase:
   * the lower-cased content with the phrase's first occurrence removed, trimmed, and not empty.
   */
  function ImagePrompt(personality: Doc, content: string): Option<string> {
    var lower := Lower(content);
    if Truthy(Get(personality, ImageGenerationEnabled)) && Contains(lower, ImagePhrase) then
      var p := Trim(ReplaceFirst(lower, ImagePhrase, ""));
      if p != "" then Some(p) else None
    else None
  }

  /** A prompt comes from removing the first occurrence of the phrase; without the flag there is none. */
  lemma ImagePromptRemovesFirstPhrase(personality: Doc, content: string)
    ensures !Truthy(Get(personality, ImageGenerationEnabled)) ==> ImagePrompt(personality, content).None?
    ensures ImagePrompt(personality, content).Some? ==>
      var lower := Lower(content);
      var i := IndexOf(lower, ImagePhrase).value;
      IndexOf(lower, ImagePhrase).Some? && OccursAt(lower, ImagePhrase, i) &&
      (forall j: nat :: j < i ==> !OccursAt(lower, ImagePhrase, j)) &&
      ImagePrompt(personality, content).value == Trim(lower[..i] + lower[i + |ImagePhrase|..]) &&
      ImagePrompt(personality, content).value != ""
  {
    var lower := Lower(content);
    if ImagePrompt(personality, content).Some? {
      var i := IndexOf(lower, ImagePhrase).value;
      assert ReplaceFirst(lower, ImagePhrase, "") == lower[..i] + lower[i + |ImagePhrase|..];
    }
  }

  /**
   * `settings?.allowedChannels || []`: the stored allow-list of a context, of whatever kind, with a
   * missing document (or a failed read) and a falsy value reading as a new empty list.
   */
  function GuildAllowList(st: Store, contextId: string, up: bool): Option<Value> {
    OrEmpty(match FindById(st, contextId, up) case Some(d) => Get(d, AllowedChannels) case None => None)
  }

  /** A guild message the allow-list shuts out. */
  predicate OutsideAllowList(st: Store, m: Message, up: bool) {
    !m.isDm && AllowGate(GuildAllowList(st, m.guildId, up), m.channelId) == Some(true)
  }

  /**
   * The gate of this variant never throws: a missing document or a falsy value admits every
   * channel, a list of ids admits the channels in it, a non-empty string the channels whose id it
   * contains, and a number, boolean or object every channel.
   */
  lemma GateKinds(st: Store, m: Message, up: bool)
    ensures AllowGate(GuildAllowList(st, m.guildId, up), m.channelId).Some?
    ensures var d := FindById(st, m.guildId, up);
            var v := if d.Some? then Get(d.value, AllowedChannels) else None;
            (!Truthy(v) ==> !OutsideAllowList(st, m, up)) &&
            (v.Some? && v.value.Strs? ==> (OutsideAllowList(st, m, up) <==> !m.isDm && |v.value.xs| > 0 && m.channelId !in v.value.xs)) &&
            (Truthy(v) && v.value.Str? ==> (OutsideAllowList(st, m, up) <==> !m.isDm && !Contains(v.value.s, m.channelId))) &&
            (v.Some? && (v.value.Num? || v.value.Bool? || v.value.Times?) ==> !OutsideAllowList(st, m, up))
  {
  }

  /** Saves the user's turn and, when given, the bot's. */
  function SaveTurns(st: Store, m: Message, up: bool, botText: Option<string>): Store {
    var st1 := SaveChatHistory(st, ContextId(m), m.authorId, m.isDm, "user", m.content, up);
    match botText
    case None => st1
    case Some(t) => SaveChatHistory(st1, ContextId(m), m.authorId, m.isDm, "bot", t, up)
  }

  /** The handler for one incoming message. */
  function HandleMessage(st: Store, defaults: Doc, m: Message, o: Oracle): Step {
    if m.fromBot then Step(st, Ignored)
    else if OutsideAllowList(st, m, o.up) then Step(st, Ignored)
    else
      var personality := Personality(defaults, FindById(st, ContextId(m), o.up));
      match BaseInstructions(personality, st, o.up)
      case None => Step(st, Crashed)
      case Some(_) =>
        if !DecideToReply(o.decision) then Step(SaveTurns(st, m, o.up, None), Silent)
        else
          match ImagePrompt(personality, m.content)
          case Some(p) =>
            var url := GenerateImage(o.image);
            var reply := if url.Some? then ImageDone else ImageFailed;
            Step(SaveTurns(st, m, o.up, Some(reply)), ImageReplied(p, url))
          case None =>
            var text := GenerateText(o.text);
            if text.Some? && text.value != "" then Step(SaveTurns(st, m, o.up, text), TextReplied(text.value))
            else Step(st, NothingSent)
  }

  /**
   * On the text path, a failed or malformed text call is still answered: the apology is sent and
   * saved as the bot's turn after the user's. A first part with no or empty text sends nothing
   * and saves nothing.
   */
  lemma TextAnswerReplies(st: Store, defaults: Doc, m: Message, o: Oracle)
    requires !m.fromBot && !OutsideAllowList(st, m, o.up)
    requires BaseInstructions(Personality(defaults, FindById(st, ContextId(m), o.up)), st, o.up).Some?
    requires DecideToReply(o.decision)
    requires ImagePrompt(Personality(defaults, FindById(st, ContextId(m), o.up)), m.content).None?
    ensures var r := HandleMessage(st, defaults, m, o);
            !HasFirstPart(o.text) ==>
              r.outcome.TextReplied? && (r.outcome.text == ErrorApology || r.outcome.text == ShapeApology) &&
              r.store == SaveTurns(st, m, o.up, Some(r.outcome.text))
    ensures HasFirstPart(o.text) ==>
              var r := HandleMessage(st, defaults, m, o);
              var t := o.text.candidates.value[0].parts.value[0].text;
              (t.Some? && t.value != "" ==> r == Step(SaveTurns(st, m, o.up, t), TextReplied(t.value))) &&
              (!(t.Some? && t.value != "") ==> r == Step(st, NothingSent))
  {
    GenerateTextOutcomes(o.text);
  }

  /** The text request the handler sends: the history of the context, and the image when there is one. */
  function TextRequest(st: Store, m: Message, systemPrompt: string, up: bool): seq<Turn> {
    BuildContents(systemPrompt, m.content, GetChatHistory(st, ContextId(m), m.authorId, m.isDm, 10, up), ImageData(m.attachment))
  }

  /** The request carries the image exactly when the attachment is an image that downloaded. */
  lemma TextRequestImage(st: Store, m: Message, systemPrompt: string, up: bool)
    ensures var r := TextRequest(st, m, systemPrompt, up);
            |r[|r| - 1].parts| == 2 <==>
              m.attachment.Some? && m.attachment.value.contentType.Some? &&
              StartsWith(m.attachment.value.contentType.value, "image/") &&
              m.attachment.value.fetched.Some? && m.attachment.value.fetched.value != ""
  {
  }

  /** A message from a bot, the bot's own replies included, is ignored before anything is read or stored. */
  lemma BotMessagesIgnored(st: Store, defaults: Doc, m: Message, o: Oracle)
    requires m.fromBot
    ensures HandleMessage(st, defaults, m, o) == Step(st, Ignored)
  {
  }

  /** A guild message the allow-list shuts out is ignored and nothing is stored. */
  lemma OutsideAllowListIgnored(st: Store, defaults: Doc, m: Message, o: Oracle)
    requires OutsideAllowList(st, m, o.up)
    ensures HandleMessage(st, defaults, m, o) == Step(st, Ignored)
  {
  }

  /** Saving appends the user's turn and then the bot's to the message's own history, and to no other. */
  lemma SaveTurnsAppends(st: Store, m: Message, botText: Option<string>)
    ensures var key := HistoryKey(ContextId(m), m.authorId, m.isDm);
            var after := SaveTurns(st, m, true, botText);
            var user := HistoryEntry("user", [Part(m.content)]);
            (forall k :: k != key ==> HistoryOf(after, k) == HistoryOf(st, k)) &&
            (botText.None? ==> HistoryOf(after, key) == HistoryOf(st, key) + [user]) &&
            (botText.Some? ==> HistoryOf(after, key) == HistoryOf(st, key) + [user, HistoryEntry("bot", [Part(botText.value)])])
  {
    var key := HistoryKey(ContextId(m), m.authorId, m.isDm);
    var user := HistoryEntry("user", [Part(m.content)]);
    var st1 := SaveChatHistory(st, ContextId(m), m.authorId, m.isDm, "user", m.content, true);
    SaveAppendsOne(st, ContextId(m), m.authorId, m.isDm, "user", m.content);
    if botText.Some? {
      var bot := HistoryEntry("bot", [Part(botText.value)]);
      SaveAppendsOne(st1, ContextId(m), m.authorId, m.isDm, "bot", botText.value);
      assert HistoryOf(st, key) + [user] + [bot] == HistoryOf(st, key) + [user, bot];
    }
  }

  /**
   * Which turns are saved: the user's alone when the classifier says no; the user's then the
   * bot's after a reply; nothing when the generated reply is empty, the message is ignored or
   * the handler throws.
   */
  lemma SavedTurns(st: Store, defaults: Doc, m: Message, o: Oracle)
    ensures var r := HandleMessage(st, defaults, m, o);
            (r.outcome == Silent ==> r.store == SaveTurns(st, m, o.up, None)) &&
            (r.outcome.TextReplied? ==> r.store == SaveTurns(st, m, o.up, Some(r.outcome.text))) &&
            (r.outcome.ImageReplied? ==>
              r.store == SaveTurns(st, m, o.up, Some(if r.outcome.url.Some? then ImageDone else ImageFailed))) &&
            (r.outcome == NothingSent || r.outcome == Ignored || r.outcome == Crashed ==> r.store == st)
  {
  }

  /** A reply happens only when the classifier says yes or fails; an image request never reaches the text reply. */
  lemma ReplyNeedsYes(st: Store, defaults: Doc, m: Message, o: Oracle)
    ensures var r := HandleMessage(st, defaults, m, o);
            (r.outcome.TextReplied? || r.outcome.ImageReplied?) ==> DecideToReply(o.decision)
    ensures var r := HandleMessage(st, defaults, m, o);
            r.outcome.TextReplied? ==> ImagePrompt(Personality(defaults, FindById(st, ContextId(m), o.up)), m.content).None?
  {
  }
}

=== FILE: legacy_ai.dfy ===
/**
 * The message path of the `lib/` bot variant: the allow-list gate, the image-request
 * trigger, the reply trigger and the recording of both turns, and the life cycle of
 * pending image requests confirmed or declined by button.
 *
 * The reply-to-bot check (a message fetch), the model's answer and the image service's
 * success are parameters; the five-minute deletion timer becomes an expiry check
 * against the clock `now` whenever a button is handled.
 */
module LegacyAi {
  import opened Wrappers
  import opened Docs
  import opened Text
  import opened LegacyDb
  import opened Lists

  datatype Message = Message(
    authorId: string,
    channelId: string,
    guildId: Option<string>,
    content: string,
    mentionsBot: bool,
    replyToBot: bool,
    dmBased: bool)

  /** A pending image request: whose it is, what to draw, and when it was made. */
  datatype ImageRequest = ImageRequest(authorId: string, channelId: string, prompt: string, createdAt: int)

  datatype State = State(db: Db, requests: map<string, ImageRequest>)

  datatype Outcome =
    | Ignored
    | ConfirmationAsked(requestKey: string, prompt: string)
    | NoReply
    | Replied(text: string)
    | Failed

  datatype Step = Step(state: State, outcome: Outcome)

  /** How long a request waits for its button, in milliseconds. */
  const RequestLifetime: int := 5 * 60 * 1000

  const FuzzyApology: string := "A-ah! My brain went fuzzy and I couldn't think of a reply, babe! \U{1F635}\U{200D}\U{1F4AB}"
  const NotSureReply: string := "I'm not sure what to say, babe... \U{1F97A}"

  /** The characters `.` in a regular expression does not match. */
  predicate IsLineTerminator(c: char) {
    c == '\n' || c == '\r' || c == '\U{2028}' || c == '\U{2029}'
  }

  /** The longest prefix free of line terminators. */
  function RestOfLine(s: string): (r: string)
    ensures |r| <= |s| && r == s[..|r|]
    ensures forall i :: 0 <= i < |r| ==> !IsLineTerminator(r[i])
    ensures |r| < |s| ==> IsLineTerminator(s[|r|])
  {
    if |s| == 0 || IsLineTerminator(s[0]) then [] else [s[0]] + RestOfLine(s[1..])
  }

  /**
   * One alternative of `^(draw|create|make an image of)\s(.+)` with the `i` flag: the keyword in
   * any letter case, one whitespace character, then the rest of the line, which must be non-empty.
   */
  function MatchKeyword(content: string, keyword: string): (r: Option<string>)
    ensures r.Some? ==> |content| >= |keyword| + 2 && Lower(content[..|keyword|]) == keyword
    ensures r.Some? ==> r.value != [] && r.value == RestOfLine(content[|keyword| + 1..])
  {
    var k := |keyword|;
    if |content| >= k + 2 && Lower(content[..k]) == keyword && IsSpace(content[k]) && !IsLineTerminator(content[k + 1])
    then Some(RestOfLine(content[k + 1..]))
    else None
  }

  /** The trimmed second group of the image-request pattern, when the content matches it. */
  function ImagePrompt(content: string): Option<string> {
    var m :=
      match MatchKeyword(content, "draw")
      case Some(g) => Some(g)
      case None =>
        match MatchKeyword(content, "create")
        case Some(g) => Some(g)
        case None => MatchKeyword(content, "make an image of");
    match m
    case Some(g) => Some(Trim(g))
    case None => None
  }

  /** `draw <prompt>` on one line asks for the trimmed prompt, whatever the keyword's letter case. */
  lemma DrawRequestPrompt(keyword: string, prompt: string)
    requires Lower(keyword) == "draw"
    requires |prompt| > 0 && !IsLineTerminator(prompt[0])
    requires forall i :: 0 <= i < |prompt| ==> !IsLineTerminator(prompt[i])
    ensures ImagePrompt(keyword + " " + prompt) == Some(Trim(prompt))
  {
    var content := keyword + " " + prompt;
    assert content[..4] == keyword;
    assert content[5..] == prompt;
    assert RestOfLine(prompt) == prompt;
  }

  /** The settings the handler works with: the server's, or the defaults in a direct message. */
  function MessageSettings(db: Db, m: Message): Read {
    match m.guildId
    case Some(g) => GetServerSettings(db, g)
    case None => Read(db, db.defaults)
  }

  /** The allow-list gate for a message: guild messages only; `None` when reading the list throws. */
  function Gate(m: Message, settings: Doc): Option<bool> {
    if m.guildId.Some? then AllowGate(Get(settings, AllowedChannels), m.channelId) else Some(false)
  }

  /** A guild message the allow-list shuts out. */
  predicate OutsideAllowList(m: Message, settings: Doc) {
    Gate(m, settings) == Some(true)
  }

  /** The key a pending request is stored under: the author id, `-`, and the clock reading. */
  function RequestKey(authorId: string, now: int): string {
    authorId + "-" + IntToString(now)
  }

  /** The custom id of a confirmation button. */
  function ButtonId(action: string, key: string): string {
    "confirmimagegen_" + action + "_" + key
  }

  /** Stores a request for `prompt` and asks the author to confirm it. */
  function RequestImage(st: State, m: Message, prompt: string, now: int): Step {
    var key := RequestKey(m.authorId, now);
    Step(st.(requests := st.requests[key := ImageRequest(m.authorId, m.channelId, prompt, now)]), ConfirmationAsked(key, prompt))
  }

  /**
   * Records the model's answer, then replies with it; an empty answer gets a fixed reply,
   * and a failed model call or a failed write gets the apology. `None` is a failed call.
   */
  function GenerateReply(db: Db, m: Message, now: int, messageId: string, answer: Option<string>): (Db, string) {
    match answer
    case None => (db, FuzzyApology)
    case Some(text) =>
      match AddMessageToMemory(db, m.authorId, "model", text, now, messageId)
      case None => (db, FuzzyApology)
      case Some(db1) => (db1, if text == "" then NotSureReply else text)
  }

  /** Whether the bot answers: a mention, a reply to it, its name anywhere in any case, or a direct-message channel. */
  predicate Triggered(m: Message, name: string) {
    m.mentionsBot || m.replyToBot || Contains(Lower(m.content), Lower(name)) || m.dmBased
  }

  /** The handler for one incoming message. */
  function HandleMessage(st: State, m: Message, now: int, userMessageId: string, modelMessageId: string, answer: Option<string>): Step {
    var read := MessageSettings(st.db, m);
    var settings := read.doc;
    if Gate(m, settings).None? then Step(st.(db := read.db), Failed)
    else if OutsideAllowList(m, settings) then Step(st.(db := read.db), Ignored)
    else
      var db1 := GetUserData(read.db, m.authorId, now).db;
      var prompt := ImagePrompt(m.content);
      if prompt.Some? && Truthy(Get(settings, ImageGeneration)) then RequestImage(st.(db := db1), m, prompt.value, now)
      else
        match StrField(settings, Name)
        case None => Step(st.(db := db1), Failed)
        case Some(name) =>
          if !Triggered(m, name) then Step(st.(db := db1), NoReply)
          else
            match AddMessageToMemory(db1, m.authorId, "user", m.content, now, userMessageId)
            case None => Step(st.(db := db1), Failed)
            case Some(db2) =>
              var (db3, text) := GenerateReply(db2, m, now, modelMessageId, answer);
              Step(st.(db := db3), Replied(text))
  }

  /** A guild message the allow-list shuts out is ignored: no user record, no request, no reply. */
  lemma OutsideAllowListIgnored(st: State, m: Message, now: int, userMessageId: string, modelMessageId: string, answer: Option<string>)
    requires OutsideAllowList(m, MessageSettings(st.db, m).doc)
    ensures var r := HandleMessage(st, m, now, userMessageId, modelMessageId, answer);
            r.outcome == Ignored && r.state.requests == st.requests &&
            r.state.db == MessageSettings(st.db, m).db && r.state.db.users == st.db.users
  {
  }

  /**
   * With image generation on, a matching message becomes a pending request and goes no
   * further: no turn is recorded and no reply is generated.
   */
  lemma ImageRequestTakesPrecedence(st: State, m: Message, now: int, userMessageId: string, modelMessageId: string, answer: Option<string>)
    requires Gate(m, MessageSettings(st.db, m).doc).Some?
    requires !OutsideAllowList(m, MessageSettings(st.db, m).doc)
    requires ImagePrompt(m.content).Some? && Truthy(Get(MessageSettings(st.db, m).doc, ImageGeneration))
    ensures var r := HandleMessage(st, m, now, userMessageId, modelMessageId, answer);
            r.outcome == ConfirmationAsked(RequestKey(m.authorId, now), ImagePrompt(m.content).value) &&
            RequestKey(m.authorId, now) in r.state.requests &&
            r.state.requests[RequestKey(m.authorId, now)].prompt == ImagePrompt(m.content).value &&
            r.state.db == GetUserData(MessageSettings(st.db, m).db, m.authorId, now).db
  {
  }

  /**
   * Past the gate and the image trigger, the bot replies exactly when it is triggered; it then
   * records the user turn and, when the model answers, the model turn after it, before replying.
   */
  lemma ReplyRecordsBothTurns(st: State, m: Message, now: int, userMessageId: string, modelMessageId: string, text: string)
    requires Gate(m, MessageSettings(st.db, m).doc).Some?
    requires !OutsideAllowList(m, MessageSettings(st.db, m).doc)
    requires !(ImagePrompt(m.content).Some? && Truthy(Get(MessageSettings(st.db, m).doc, ImageGeneration)))
    requires StrField(MessageSettings(st.db, m).doc, Name).Some?
    requires PriorHistory(GetUserData(MessageSettings(st.db, m).db, m.authorId, now).db, m.authorId, now).Some?
    ensures var r := HandleMessage(st, m, now, userMessageId, modelMessageId, Some(text));
            var name := StrField(MessageSettings(st.db, m).doc, Name).value;
            (r.outcome.Replied? <==> Triggered(m, name)) &&
            (!Triggered(m, name) ==> r.outcome == NoReply) &&
            (Triggered(m, name) ==>
              r.outcome == Replied(if text == "" then NotSureReply else text) &&
              LastTwoTurns(StoredHistory(r.state.db, m.authorId), NewTurn("user", m.content, now, userMessageId), NewTurn("model", text, now, modelMessageId)))
  {
    var db1 := GetUserData(MessageSettings(st.db, m).db, m.authorId, now).db;
    TwoTurnsRecorded(db1, m.authorId, m.content, text, now, userMessageId, modelMessageId);
  }

  /**
   * When the model call fails, a triggered message still has its user turn recorded, as the last
   * turn of the history, and the author gets the apology; no model turn is recorded.
   */
  lemma FailedAnswerApologises(st: State, m: Message, now: int, userMessageId: string, modelMessageId: string)
    requires Gate(m, MessageSettings(st.db, m).doc).Some?
    requires !OutsideAllowList(m, MessageSettings(st.db, m).doc)
    requires !(ImagePrompt(m.content).Some? && Truthy(Get(MessageSettings(st.db, m).doc, ImageGeneration)))
    requires StrField(MessageSettings(st.db, m).doc, Name).Some?
    requires Triggered(m, StrField(MessageSettings(st.db, m).doc, Name).value)
    requires PriorHistory(GetUserData(MessageSettings(st.db, m).db, m.authorId, now).db, m.authorId, now).Some?
    ensures var r := HandleMessage(st, m, now, userMessageId, modelMessageId, None);
            var h := StoredHistory(r.state.db, m.authorId);
            r.outcome == Replied(FuzzyApology) && r.state.requests == st.requests &&
            h.Some? && |h.value| >= 1 && h.value[|h.value| - 1] == NewTurn("user", m.content, now, userMessageId)
  {
    var db1 := GetUserData(MessageSettings(st.db, m).db, m.authorId, now).db;
    AddMessageBounded(db1, m.authorId, "user", m.content, now, userMessageId);
  }

  /** A stored history that ends with `first` followed by `second`. */
  predicate LastTwoTurns(h: Option<seq<StoredTurn>>, first: StoredTurn, second: StoredTurn) {
    h.Some? && |h.value| >= 2 && h.value[|h.value| - 2] == first && h.value[|h.value| - 1] == second
  }

  /** Recording a user turn and then a model turn leaves the two, in that order, at the end of the history. */
  lemma TwoTurnsRecorded(db: Db, userId: string, content: string, text: string, now: int, userMessageId: string, modelMessageId: string)
    requires PriorHistory(db, userId, now).Some?
    ensures AddMessageToMemory(db, userId, "user", content, now, userMessageId).Some?
    ensures var db2 := AddMessageToMemory(db, userId, "user", content, now, userMessageId).value;
            AddMessageToMemory(db2, userId, "model", text, now, modelMessageId).Some? &&
            LastTwoTurns(StoredHistory(AddMessageToMemory(db2, userId, "model", text, now, modelMessageId).value, userId),
                         NewTurn("user", content, now, userMessageId), NewTurn("model", text, now, modelMessageId))
  {
    var db2 := AddMessageToMemory(db, userId, "user", content, now, userMessageId).value;
    var h2 := StoredHistory(db2, userId).value;
    assert |h2| >= 1 && h2[|h2| - 1] == NewTurn("user", content, now, userMessageId);
    StoredHistoryIsPrior(db2, userId, now);
    var all := h2 + [NewTurn("model", text, now, modelMessageId)];
    var h3 := StoredHistory(AddMessageToMemory(db2, userId, "model", text, now, modelMessageId).value, userId).value;
    assert h3 == TakeLast(all, MemoryLimit);
    assert h3[|h3| - 2] == all[|all| - 2];
  }

  /** Drops every request whose five minutes have run out by `now`. */
  function ExpireRequests(requests: map<string, ImageRequest>, now: int): (r: map<string, ImageRequest>)
    ensures forall k :: k in r <==> k in requests && now < requests[k].createdAt + RequestLifetime
    ensures forall k :: k in r ==> r[k] == requests[k]
  {
    map k | k in requests && now < requests[k].createdAt + RequestLifetime :: requests[k]
  }

  datatype Resolution = Expired | Declined | Drawn(request: ImageRequest) | DrawFailed(request: ImageRequest)

  /** `parts[i]`, or `undefined` past the end. */
  function Field(parts: seq<string>, i: nat): Option<string> {
    if i < |parts| then Some(parts[i]) else None
  }

  /**
   * Handles a confirmation button once the action and request id are read from its custom id:
   * an unknown or expired id is reported as expired, `no` discards the request, anything else
   * draws it; a handled request is always removed.
   */
  function Resolve(requests: map<string, ImageRequest>, action: Option<string>, requestId: Option<string>, now: int, drawn: bool): (r: (map<string, ImageRequest>, Resolution))
    ensures var live := ExpireRequests(requests, now);
            (requestId.None? || requestId.value !in live) <==> r == (live, Expired)
    ensures requestId.Some? && requestId.value in ExpireRequests(requests, now) ==>
      r.0 == ExpireRequests(requests, now) - {requestId.value} &&
      (action == Some("no") ==> r.1 == Declined) &&
      (action != Some("no") ==> r.1 == (if drawn then Drawn(requests[requestId.value]) else DrawFailed(requests[requestId.value])))
  {
    var live := ExpireRequests(requests, now);
    match requestId
    case None => (live, Expired)
    case Some(id) =>
      if id !in live then (live, Expired)
      else if action == Some("no") then (live - {id}, Declined)
      else (live - {id}, if drawn then Drawn(live[id]) else DrawFailed(live[id]))
  }

  /** The button handler as written: it reads the action from the third field and the id from the fourth. */
  function HandleImageGeneration(requests: map<string, ImageRequest>, customId: string, now: int, drawn: bool): (map<string, ImageRequest>, Resolution) {
    var parts := Split(customId, '_');
    Resolve(requests, Field(parts, 2), Field(parts, 3), now, drawn)
  }

  /** The button handler reading the action from the second field and the id from the third, where the ids put them. */
  function HandleImageGenerationFixed(requests: map<string, ImageRequest>, customId: string, now: int, drawn: bool): (map<string, ImageRequest>, Resolution) {
    var parts := Split(customId, '_');
    Resolve(requests, Field(parts, 1), Field(parts, 2), now, drawn)
  }

  /** A request key has no `_` when the author id has none, as for numeric user ids. */
  lemma RequestKeyHasNoUnderscore(authorId: string, now: int)
    requires '_' !in authorId
    ensures '_' !in RequestKey(authorId, now)
  {
    var digits := IntToString(now);
    assert forall i :: 0 <= i < |digits| ==> digits[i] != '_';
  }

  /** A button id splits into the prefix, the action and the request key. */
  lemma ButtonIdFields(action: string, key: string)
    requires '_' !in action && '_' !in key
    ensures Split(ButtonId(action, key), '_') == ["confirmimagegen", action, key]
  {
    assert ButtonId(action, key) == "confirmimagegen" + ['_'] + (action + ['_'] + key);
    SplitFirstField("confirmimagegen", '_', action + ['_'] + key);
    SplitFirstField(action, '_', key);
    SplitNoSeparator(key, '_');
  }

  /** As written, every confirmation button reports an expired request: the id field read does not exist. */
  lemma EveryConfirmationExpires(requests: map<string, ImageRequest>, action: string, key: string, now: int, drawn: bool)
    requires '_' !in action && '_' !in key
    ensures HandleImageGeneration(requests, ButtonId(action, key), now, drawn) == (ExpireRequests(requests, now), Expired)
  {
    ButtonIdFields(action, key);
  }

  /**
   * With the fields read where the ids put them, a request answered within five minutes is
   * resolved and removed: `no` declines it and `yes` draws its prompt; after five minutes it
   * has expired.
   */
  lemma ConfirmationLifeCycle(st: State, m: Message, prompt: string, asked: int, now: int, drawn: bool)
    requires '_' !in m.authorId && asked <= now
    ensures var key := RequestKey(m.authorId, asked);
            var pending := RequestImage(st, m, prompt, asked).state.requests;
            var no := HandleImageGenerationFixed(pending, ButtonId("no", key), now, drawn);
            var yes := HandleImageGenerationFixed(pending, ButtonId("yes", key), now, drawn);
            (now < asked + RequestLifetime ==>
              no.1 == Declined && key !in no.0 &&
              yes.1 == (if drawn then Drawn(ImageRequest(m.authorId, m.channelId, prompt, asked)) else DrawFailed(ImageRequest(m.authorId, m.channelId, prompt, asked))) &&
              key !in yes.0) &&
            (now >= asked + RequestLifetime ==> no.1 == Expired && yes.1 == Expired && key !in yes.0)
  {
    var key := RequestKey(m.authorId, asked);
    RequestKeyHasNoUnderscore(m.authorId, asked);
    ButtonIdFields("no", key);
    ButtonIdFields("yes", key);
  }
}

=== FILE: legacy_db.dfy ===
/**
 * The settings and user-memory store of the `lib/` bot variant: a `servers`
 * collection keyed by guild id and a `users` collection keyed by user id, each
 * call modelled as one atomic step on the in-memory collections. The clock is
 * the parameter `now`; the random message id is the parameter `messageId`.
 */
module LegacyDb {
  import opened Wrappers
  import opened Docs
  import opened Lists

  /** Length of the user chat history kept after every append. */
  const MemoryLimit: nat := 50

  const DefaultBehavior: string :=
    "A 16-year-old girl who is still in school. She barely has any friends except the user. She adores anime and loves spending time with friends. She enjoys watching TikTok videos and playing Roblox. Kohana is a sweet and flirty teenager who gets a bit shy around her crushes but still tries to show her interest. She calls the user with words like \"babe\" to show deep love. She uses a lot of heart emojis to show deep love. She ALWAYS flirts and rizzes."

  /** The settings every new server starts with. */
  const DefaultSettings: Doc :=
    map[
      Name := Str("Kohana Yuki"),
      Age := Num(16),
      Gender := Str("female"),
      Mood := Str("cute, warm, flirty, a bit shy, uwu expressions = excitement"),
      Behavior := Str(DefaultBehavior),
      Personality := Str("A little tsundere at times, but has a heart of gold."),
      ImageGeneration := Bool(false),
      WebSearch := Bool(false),
      AllowedChannels := Strs([])
    ]

  /**
   * The two collections together with the module's `defaultSettings` object, which every
   * read of a new server and every reset copies and which no operation changes.
   */
  datatype Db = Db(servers: Collection, users: Collection, defaults: Doc)

  /** A store as the module starts it, with the default settings above. */
  function Initial(servers: Collection, users: Collection): Db {
    Db(servers, users, DefaultSettings)
  }

  /** A server first read from a fresh store gets the documented defaults: no features and an empty allow-list. */
  lemma NewServerDefaults(users: Collection, guildId: string)
    ensures var d := GetServerSettings(Initial(map[], users), guildId).doc;
            Get(d, GuildId) == Some(Str(guildId)) &&
            Get(d, Name) == Some(Str("Kohana Yuki")) && Get(d, Age) == Some(Num(16)) &&
            Get(d, ImageGeneration) == Some(Bool(false)) && Get(d, WebSearch) == Some(Bool(false)) &&
            Get(d, AllowedChannels) == Some(Strs([]))
  {
    var d := GetServerSettings(Initial(map[], users), guildId).doc;
    assert d == map[GuildId := Str(guildId)] + DefaultSettings;
    DefaultSettingsHold();
  }

  lemma DefaultSettingsHold()
    ensures GuildId !in DefaultSettings
    ensures Get(DefaultSettings, Name) == Some(Str("Kohana Yuki")) && Get(DefaultSettings, Age) == Some(Num(16))
    ensures Get(DefaultSettings, ImageGeneration) == Some(Bool(false)) && Get(DefaultSettings, WebSearch) == Some(Bool(false))
    ensures Get(DefaultSettings, AllowedChannels) == Some(Strs([]))
  {
  }

  /** What a read returns, together with the store after it (reads may insert). */
  datatype Read = Read(db: Db, doc: Doc)

  /**
   * The settings of a server; a server without a document gets one made of its id and
   * the defaults, which is stored and returned.
   */
  function GetServerSettings(db: Db, guildId: string): Read
  {
    if guildId in db.servers then Read(db, db.servers[guildId])
    else
      var settings := map[GuildId := Str(guildId)] + db.defaults;
      Read(db.(servers := db.servers[guildId := settings]), settings)
  }

  /** A read returns the stored document, and stores it first when it is missing; no other server changes. */
  lemma GetServerSettingsReturnsStored(db: Db, guildId: string)
    ensures var r := GetServerSettings(db, guildId);
            r.db.users == db.users &&
            guildId in r.db.servers && r.doc == r.db.servers[guildId] &&
            r.db.servers.Keys == db.servers.Keys + {guildId} &&
            (forall g :: g in db.servers ==> r.db.servers[g] == db.servers[g])
  {
  }

  /** The document a read inserts for a new server is its id and the default settings, and nothing else. */
  lemma GetServerSettingsInsertsDefaults(db: Db, guildId: string)
    requires guildId !in db.servers
    ensures var d := GetServerSettings(db, guildId).doc;
            (GuildId !in db.defaults ==> Get(d, GuildId) == Some(Str(guildId))) &&
            (forall k :: k in d ==> k == GuildId || k in db.defaults) &&
            (forall k :: k in db.defaults ==> Get(d, k) == Some(db.defaults[k]))
  {
  }

  /** Reading settings twice changes nothing the first read did not, and returns the same document. */
  lemma GetServerSettingsIdempotent(db: Db, guildId: string)
    ensures var first := GetServerSettings(db, guildId);
            GetServerSettings(first.db, guildId) == first
  {
  }

  /** `$set` of the given fields on the server document, creating it when absent. */
  function UpdateServerSettings(db: Db, guildId: string, updates: Doc): Db
  {
    db.(servers := Upsert(db.servers, GuildId, guildId, updates))
  }

  /** An update writes the supplied fields of one server, keeps its other fields, and touches nothing else. */
  lemma UpdateServerSettingsWritesOnlyUpdates(db: Db, guildId: string, updates: Doc)
    ensures var r := UpdateServerSettings(db, guildId, updates);
            r.users == db.users &&
            r.servers.Keys == db.servers.Keys + {guildId} &&
            (forall g :: g in db.servers && g != guildId ==> r.servers[g] == db.servers[g]) &&
            (forall k :: k in updates ==> Get(r.servers[guildId], k) == Some(updates[k])) &&
            (guildId in db.servers ==>
              forall k :: k in db.servers[guildId] && k !in updates ==> Get(r.servers[guildId], k) == Some(db.servers[guildId][k])) &&
            (guildId !in db.servers && GuildId !in updates ==> Get(r.servers[guildId], GuildId) == Some(Str(guildId)))
  {
    UpsertWritesOnlyUpdates(db.servers, GuildId, guildId, updates);
  }

  /** After a reset to the defaults, the next read sees every default value. */
  lemma ResetThenReadSeesDefaults(db: Db, guildId: string)
    ensures var settings := GetServerSettings(UpdateServerSettings(db, guildId, db.defaults), guildId).doc;
            forall k :: k in db.defaults ==> k in settings && settings[k] == db.defaults[k]
  {
  }

  /** The document stored for a user seen for the first time. */
  function NewUser(userId: string, now: int): Doc {
    map[
      UserId := Str(userId),
      CustomInstructions := Str(""),
      ChatHistory := Turns([]),
      LastMessageTime := Num(now)
    ]
  }

  /**
   * The returned copy of a user document: a falsy `chatHistory` reads as `[]` and a falsy
   * `lastMessageTime` as `now`; the stored document is not changed by this.
   */
  function Normalise(d: Doc, now: int): Doc
  {
    var d1 := if Truthy(Get(d, ChatHistory)) then d else d[ChatHistory := Turns([])];
    if Truthy(Get(d1, LastMessageTime)) then d1 else d1[LastMessageTime := Num(now)]
  }

  /** A user's data; an unknown user is stored as a new default user first. */
  function GetUserData(db: Db, userId: string, now: int): Read
  {
    var db1 := if userId in db.users then db else db.(users := db.users[userId := NewUser(userId, now)]);
    Read(db1, Normalise(db1.users[userId], now))
  }

  /**
   * Reading user data stores a default user when there is none, and returns a copy whose
   * history and timestamp are truthy; no existing document is changed.
   */
  lemma GetUserDataNormalises(db: Db, userId: string, now: int)
    ensures var r := GetUserData(db, userId, now);
            r.db.servers == db.servers &&
            r.db.users.Keys == db.users.Keys + {userId} &&
            (userId in db.users ==> r.db == db) &&
            (userId !in db.users ==> r.db.users == db.users[userId := NewUser(userId, now)]) &&
            Truthy(Get(r.doc, ChatHistory)) &&
            (Truthy(Get(r.db.users[userId], ChatHistory)) ==> Get(r.doc, ChatHistory) == Get(r.db.users[userId], ChatHistory)) &&
            (now != 0 ==> Truthy(Get(r.doc, LastMessageTime))) &&
            (forall k :: k in r.db.users[userId] && k != ChatHistory && k != LastMessageTime ==> Get(r.doc, k) == Some(r.db.users[userId][k]))
  {
  }

  /** `$set` of the given fields on the user document, creating it when absent. */
  function UpdateUserData(db: Db, userId: string, updates: Doc): Db
  {
    db.(users := Upsert(db.users, UserId, userId, updates))
  }

  /** An update writes the supplied fields of one user, keeps the user's other fields, and touches nothing else. */
  lemma UpdateUserDataWritesOnlyUpdates(db: Db, userId: string, updates: Doc)
    ensures var r := UpdateUserData(db, userId, updates);
            r.servers == db.servers &&
            r.users.Keys == db.users.Keys + {userId} &&
            (forall u :: u in db.users && u != userId ==> r.users[u] == db.users[u]) &&
            (forall k :: k in updates ==> Get(r.users[userId], k) == Some(updates[k])) &&
            (userId in db.users ==>
              forall k :: k in db.users[userId] && k !in updates ==> Get(r.users[userId], k) == Some(db.users[userId][k]))
  {
    UpsertWritesOnlyUpdates(db.users, UserId, userId, updates);
  }

  /**
   * The history an append or edit starts from, as `getUserData` hands it over; `None` when
   * the stored `chatHistory` is a truthy value that is not a list of turns.
   */
  function PriorHistory(db: Db, userId: string, now: int): Option<seq<StoredTurn>> {
    match Get(GetUserData(db, userId, now).doc, ChatHistory)
    case Some(Turns(h)) => Some(h)
    case _ => None
  }

  /** A stored list of turns is what the next read of the user's history returns. */
  lemma StoredHistoryIsPrior(db: Db, userId: string, now: int)
    requires StoredHistory(db, userId).Some?
    ensures PriorHistory(db, userId, now) == StoredHistory(db, userId)
  {
    var d := db.users[userId];
    assert Truthy(Get(d, ChatHistory));
    assert Get(Normalise(d, now), ChatHistory) == Get(d, ChatHistory);
  }

  /** The turn `addMessageToMemory` appends. */
  function NewTurn(role: string, content: string, now: int, messageId: string): StoredTurn {
    StoredTurn(role, [content], now, messageId, None)
  }

  /** The stored history of a user, when it is a list of turns. */
  function StoredHistory(db: Db, userId: string): Option<seq<StoredTurn>> {
    if userId in db.users && ChatHistory in db.users[userId] && db.users[userId][ChatHistory].Turns?
    then Some(db.users[userId][ChatHistory].turns)
    else None
  }

  /**
   * Appends one turn to the user's history, keeps the newest 50 and refreshes
   * `lastMessageTime`; `None` models the type error a non-list history raises.
   */
  function AddMessageToMemory(db: Db, userId: string, role: string, content: string, now: int, messageId: string): (r: Option<Db>)
    ensures r.Some? <==> PriorHistory(db, userId, now).Some?
    ensures r.Some? ==>
      StoredHistory(r.value, userId) == Some(TakeLast(PriorHistory(db, userId, now).value + [NewTurn(role, content, now, messageId)], MemoryLimit))
    ensures r.Some? ==> userId in r.value.users && Get(r.value.users[userId], LastMessageTime) == Some(Num(now))
  {
    match PriorHistory(db, userId, now)
    case Some(h) =>
      var kept := Kept(h + [NewTurn(role, content, now, messageId)]);
      var user := GetUserData(db, userId, now);
      var updates := map[ChatHistory := Turns(kept), LastMessageTime := Num(now)];
      UpdateUserDataWritesOnlyUpdates(user.db, userId, updates);
      assert ChatHistory in updates && updates[ChatHistory] == Turns(kept);
      assert LastMessageTime in updates && updates[LastMessageTime] == Num(now);
      Some(UpdateUserData(user.db, userId, updates))
    case None => None
  }

  /** The history after a push: once it exceeds 50 turns, `slice(-50)` keeps the newest 50. */
  function Kept(pushed: seq<StoredTurn>): (r: seq<StoredTurn>)
    ensures r == TakeLast(pushed, MemoryLimit)
  {
    SliceFromNegative(pushed, MemoryLimit);
    if |pushed| > MemoryLimit then SliceFrom(pushed, 0 - MemoryLimit) else pushed
  }

  /** After an append the history holds at most 50 turns, ends with the new turn, and is a suffix of the old one plus it. */
  lemma AddMessageBounded(db: Db, userId: string, role: string, content: string, now: int, messageId: string)
    requires PriorHistory(db, userId, now).Some?
    ensures var r := AddMessageToMemory(db, userId, role, content, now, messageId);
            var all := PriorHistory(db, userId, now).value + [NewTurn(role, content, now, messageId)];
            var h := StoredHistory(r.value, userId).value;
            0 < |h| <= MemoryLimit && h[|h| - 1] == NewTurn(role, content, now, messageId) &&
            h == all[|all| - |h|..] && (|all| <= MemoryLimit ==> h == all)
  {
    var all := PriorHistory(db, userId, now).value + [NewTurn(role, content, now, messageId)];
    var h := TakeLast(all, MemoryLimit);
    assert StoredHistory(AddMessageToMemory(db, userId, role, content, now, messageId).value, userId) == Some(h);
    assert h[|h| - 1] == all[|all| - 1];
  }

  /** An append touches no server and no other user, and only two fields of this user. */
  lemma AddMessageFrame(db: Db, userId: string, role: string, content: string, now: int, messageId: string)
    requires AddMessageToMemory(db, userId, role, content, now, messageId).Some?
    ensures var r := AddMessageToMemory(db, userId, role, content, now, messageId).value;
            r.servers == db.servers &&
            (forall u :: u in db.users && u != userId ==> u in r.users && r.users[u] == db.users[u]) &&
            (userId in db.users ==>
              forall k :: k in db.users[userId] && k != ChatHistory && k != LastMessageTime ==>
                r.users[userId][k] == db.users[userId][k])
  {
    AddMessageWrites(db, userId, role, content, now, messageId);
    var kept := Kept(PriorHistory(db, userId, now).value + [NewTurn(role, content, now, messageId)]);
    ReadThenWriteFrame(db, userId, now, map[ChatHistory := Turns(kept), LastMessageTime := Num(now)]);
  }

  /** An append is a read of the user followed by a write of exactly the history and the timestamp. */
  lemma AddMessageWrites(db: Db, userId: string, role: string, content: string, now: int, messageId: string)
    requires PriorHistory(db, userId, now).Some?
    ensures var kept := Kept(PriorHistory(db, userId, now).value + [NewTurn(role, content, now, messageId)]);
            var updates := map[ChatHistory := Turns(kept), LastMessageTime := Num(now)];
            AddMessageToMemory(db, userId, role, content, now, messageId) == Some(UpdateUserData(GetUserData(db, userId, now).db, userId, updates)) &&
            forall k :: k in updates <==> k == ChatHistory || k == LastMessageTime
  {
  }

  /** Reading a user and then writing fields of it touches no server, no other user and no other field. */
  lemma ReadThenWriteFrame(db: Db, userId: string, now: int, updates: Doc)
    ensures var r := UpdateUserData(GetUserData(db, userId, now).db, userId, updates);
            r.servers == db.servers &&
            (forall u :: u in db.users && u != userId ==> u in r.users && r.users[u] == db.users[u]) &&
            (userId in db.users ==>
              forall k :: k in db.users[userId] && k !in updates ==> r.users[userId][k] == db.users[userId][k])
  {
    var read := GetUserData(db, userId, now).db;
    UpdateUserDataWritesOnlyUpdates(read, userId, updates);
    GetUserDataNormalises(db, userId, now);
  }

  /**
   * The bounded history is the last 50 turns of the whole conversation: if the stored
   * history is the window of a log, after an append it is the window of the log plus the turn.
   */
  lemma AddMessageKeepsWindow(db: Db, userId: string, role: string, content: string, now: int, messageId: string, log: seq<StoredTurn>)
    requires PriorHistory(db, userId, now) == Some(TakeLast(log, MemoryLimit))
    ensures var r := AddMessageToMemory(db, userId, role, content, now, messageId);
            r.Some? && StoredHistory(r.value, userId) == Some(TakeLast(log + [NewTurn(role, content, now, messageId)], MemoryLimit))
  {
    var t := NewTurn(role, content, now, messageId);
    TakeLastSnoc(log, t, MemoryLimit);
  }

  /** Index of the most recent turn with role `user`. */
  function LastUserIndex(h: seq<StoredTurn>): (r: Option<nat>)
    ensures r.Some? ==> r.value < |h| && h[r.value].role == "user"
    ensures r.Some? ==> forall j :: r.value < j < |h| ==> h[j].role != "user"
    ensures r.None? ==> forall j :: 0 <= j < |h| ==> h[j].role != "user"
  {
    if |h| == 0 then None
    else if h[|h| - 1].role == "user" then Some(|h| - 1)
    else LastUserIndex(h[..|h| - 1])
  }

  /** A turn after an edit: first text replaced, marked edited at `now`. */
  function Edited(t: StoredTurn, newContent: string, now: int): StoredTurn
    requires |t.parts| > 0
  {
    t.(parts := [newContent] + t.parts[1..], editedAt := Some(now))
  }

  /**
   * The history after editing its most recent user turn; `None` when that turn has no
   * text part to replace. Without a user turn the history is unchanged.
   */
  function EditLastUser(h: seq<StoredTurn>, newContent: string, now: int): (r: Option<seq<StoredTurn>>)
    ensures r.None? <==> LastUserIndex(h).Some? && |h[LastUserIndex(h).value].parts| == 0
    ensures r.Some? ==> |r.value| == |h|
    ensures r.Some? && LastUserIndex(h).None? ==> r.value == h
    ensures r.Some? && LastUserIndex(h).Some? ==>
      var i := LastUserIndex(h).value;
      var e := r.value[i];
      e.role == "user" && |e.parts| == |h[i].parts| && e.parts[0] == newContent &&
      e.parts[1..] == h[i].parts[1..] && e.editedAt == Some(now) &&
      e.timestamp == h[i].timestamp && e.messageId == h[i].messageId &&
      forall j :: 0 <= j < |h| && j != i ==> r.value[j] == h[j]
  {
    match LastUserIndex(h)
    case None => Some(h)
    case Some(i) => if |h[i].parts| == 0 then None else Some(h[i := Edited(h[i], newContent, now)])
  }

  /**
   * Replaces the text of the most recent user turn and writes the history back; `None` models
   * the type error of a user turn without parts. A history that is not a list of turns holds no
   * element whose role is `user`, so the loop finds nothing and the history is written back as read.
   */
  function UpdateMessageInMemory(db: Db, userId: string, newContent: string, now: int): (r: Option<Db>)
    ensures r.Some? <==> PriorHistory(db, userId, now).None? || EditLastUser(PriorHistory(db, userId, now).value, newContent, now).Some?
    ensures r.Some? && PriorHistory(db, userId, now).Some? ==>
      StoredHistory(r.value, userId) == EditLastUser(PriorHistory(db, userId, now).value, newContent, now)
    ensures r.Some? && PriorHistory(db, userId, now).None? ==>
      userId in r.value.users && Get(r.value.users[userId], ChatHistory) == Get(GetUserData(db, userId, now).doc, ChatHistory)
  {
    var user := GetUserData(db, userId, now);
    match Get(user.doc, ChatHistory)
    case None => None
    case Some(v) =>
      match EditHistory(v, newContent, now)
      case None => None
      case Some(w) => Some(UpdateUserData(user.db, userId, map[ChatHistory := w]))
  }

  /** The history value the edit loop leaves: a list of turns is edited, any other value is left as it is. */
  function EditHistory(v: Value, newContent: string, now: int): Option<Value> {
    match v
    case Turns(h) =>
      (match EditLastUser(h, newContent, now)
       case None => None
       case Some(e) => Some(Turns(e)))
    case _ => Some(v)
  }

  /** An edit touches no server, no other user and no other field of this user. */
  lemma UpdateMessageFrame(db: Db, userId: string, newContent: string, now: int)
    requires UpdateMessageInMemory(db, userId, newContent, now).Some?
    ensures var r := UpdateMessageInMemory(db, userId, newContent, now).value;
            r.servers == db.servers &&
            (forall u :: u in db.users && u != userId ==> u in r.users && r.users[u] == db.users[u]) &&
            (userId in db.users ==>
              forall k :: k in db.users[userId] && k != ChatHistory ==> r.users[userId][k] == db.users[userId][k])
  {
  }

  /** Every stored turn carries at least one text part. */
  predicate AllHaveParts(h: seq<StoredTurn>) {
    forall j :: 0 <= j < |h| ==> |h[j].parts| > 0
  }

  /** The newest 50 turns of a history with parts, plus a new turn with parts, all have parts. */
  lemma KeptHasParts(prior: seq<StoredTurn>, t: StoredTurn)
    requires AllHaveParts(prior) && |t.parts| > 0
    ensures AllHaveParts(TakeLast(prior + [t], MemoryLimit))
  {
    var all := prior + [t];
    var h := TakeLast(all, MemoryLimit);
    forall j | 0 <= j < |h|
      ensures |h[j].parts| > 0
    {
      var k := |all| - |h| + j;
      assert h[j] == all[k];
      if k < |prior| {
        assert all[k] == prior[k];
      }
    }
  }

  /** Appending keeps every turn with a text part. */
  lemma AddMessageKeepsParts(db: Db, userId: string, role: string, content: string, now: int, messageId: string)
    requires PriorHistory(db, userId, now).Some? && AllHaveParts(PriorHistory(db, userId, now).value)
    ensures var r := AddMessageToMemory(db, userId, role, content, now, messageId);
            r.Some? && AllHaveParts(StoredHistory(r.value, userId).value)
  {
    var prior := PriorHistory(db, userId, now).value;
    var all := prior + [NewTurn(role, content, now, messageId)];
    KeptHasParts(prior, NewTurn(role, content, now, messageId));
    var r := AddMessageToMemory(db, userId, role, content, now, messageId);
    assert r.Some? && StoredHistory(r.value, userId) == Some(TakeLast(all, MemoryLimit));
  }

  /** On a history whose turns all carry a text part, an edit succeeds and keeps that so. */
  lemma UpdateMessageKeepsParts(db: Db, userId: string, newContent: string, now: int)
    requires PriorHistory(db, userId, now).Some? && AllHaveParts(PriorHistory(db, userId, now).value)
    ensures var r := UpdateMessageInMemory(db, userId, newContent, now);
            r.Some? && AllHaveParts(StoredHistory(r.value, userId).value)
  {
    var prior := PriorHistory(db, userId, now).value;
    var e := EditLastUser(prior, newContent, now);
    assert e.Some?;
    forall j | 0 <= j < |e.value|
      ensures |e.value[j].parts| > 0
    {
      if LastUserIndex(prior).Some? && j == LastUserIndex(prior).value {
        assert |e.value[j].parts| == |prior[j].parts|;
      }
    }
  }
}

=== FILE: legacy_interactions.dfy ===
/**
 * The component handler of the `lib/` bot variant: select menus, the feature toggle
 * buttons and the channel pickers, each turned into one or two store calls.
 * `HandleInteraction` is the handler as written, whose first guard returns for every
 * modal submission; `HandleInteractionFixed` lets modal submissions through to the
 * persona and instruction branches the handler contains.
 */
module LegacyInteractions {
  import opened Wrappers
  import opened Docs
  import opened Text
  import opened Lists
  import opened LegacyDb

  datatype Interaction =
    | StringSelect(customId: string, values: seq<string>, guildId: string, userId: string)
    | Button(customId: string, guildId: string, userId: string)
    | ChannelSelect(customId: string, values: seq<string>, guildId: string, userId: string)
    | ModalSubmit(customId: string, fields: map<string, string>, guildId: string, userId: string)
    | OtherInteraction(guildId: string, userId: string)

  /** Select menus and buttons are message components; modal submissions and commands are not. */
  predicate IsMessageComponent(i: Interaction) {
    i.StringSelect? || i.Button? || i.ChannelSelect?
  }

  datatype CustomId = CustomId(mainId: string, args: seq<string>)

  /** `[mainId, ...args] = customId.split('_')`. */
  function ParseCustomId(customId: string): (r: CustomId)
    ensures '_' !in r.mainId && forall j :: 0 <= j < |r.args| ==> '_' !in r.args[j]
    ensures Join([r.mainId] + r.args, "_") == customId
  {
    var parts := Split(customId, '_');
    SplitJoin(customId, '_');
    SplitFieldsFree(customId, '_');
    assert forall j :: 0 <= j < |parts| - 1 ==> parts[1..][j] == parts[j + 1];
    CustomId(parts[0], parts[1..])
  }

  /** An id without `_` is its own main id, with no arguments. */
  lemma ParsePlainId(customId: string)
    requires '_' !in customId
    ensures ParseCustomId(customId) == CustomId(customId, [])
  {
    SplitNoSeparator(customId, '_');
  }

  /** A toggle button id `toggle_<feature>` names the feature as its only argument. */
  lemma ParseToggleId(feature: string)
    requires '_' !in feature
    ensures ParseCustomId("toggle_" + feature) == CustomId("toggle", [feature])
  {
    assert "toggle_" + feature == "toggle" + ['_'] + feature;
    SplitFirstField("toggle", '_', feature);
    SplitNoSeparator(feature, '_');
  }

  /** The settings key a toggle targets: `args[0]`, which reads as the name `"undefined"` when absent. */
  function ToggleKey(args: seq<string>): Key {
    if |args| > 0 then KeyOf(args[0]) else KeyOf("undefined")
  }

  /** Stores the negated truthiness of one settings key, read after the defaults are ensured. */
  function Toggle(db: Db, guildId: string, feature: Key): Db {
    var read := GetServerSettings(db, guildId);
    UpdateServerSettings(read.db, guildId, map[feature := Bool(!Truthy(Get(read.doc, feature)))])
  }

  /** A toggle stores the negation of the key's truthiness and leaves every other key and server as read. */
  lemma ToggleFlipsOneKey(db: Db, guildId: string, feature: Key)
    ensures var before := GetServerSettings(db, guildId).doc;
            var r := Toggle(db, guildId, feature);
            r.users == db.users && guildId in r.servers &&
            Get(r.servers[guildId], feature) == Some(Bool(!Truthy(Get(before, feature)))) &&
            (forall k :: k in before && k != feature ==> Get(r.servers[guildId], k) == Some(before[k])) &&
            (forall g :: g in db.servers && g != guildId ==> g in r.servers && r.servers[g] == db.servers[g])
  {
    var read := GetServerSettings(db, guildId);
    GetServerSettingsReturnsStored(db, guildId);
    UpdateServerSettingsWritesOnlyUpdates(read.db, guildId, map[feature := Bool(!Truthy(Get(read.doc, feature)))]);
  }

  /** Toggling the same key twice restores its truthiness. */
  lemma ToggleTwice(db: Db, guildId: string, feature: Key)
    ensures var twice := Toggle(Toggle(db, guildId, feature), guildId, feature);
            guildId in twice.servers &&
            Truthy(Get(twice.servers[guildId], feature)) == Truthy(Get(GetServerSettings(db, guildId).doc, feature))
  {
    var once := Toggle(db, guildId, feature);
    ToggleFlipsOneKey(db, guildId, feature);
    ToggleFlipsOneKey(once, guildId, feature);
    GetServerSettingsReturnsStored(once, guildId);
  }

  /** A `toggle_<feature>` button flips the settings key named by `<feature>`, e.g. `toggle_imageGeneration`. */
  lemma ToggleButtonTargetsNamedKey(db: Db, feature: string, guildId: string, userId: string, now: int)
    requires '_' !in feature
    ensures HandleInteraction(db, Button("toggle_" + feature, guildId, userId), now) == Toggle(db, guildId, KeyOf(feature))
    ensures feature == "imageGeneration" ==> KeyOf(feature) == ImageGeneration
  {
    ParseToggleId(feature);
  }

  /** The allow-list in the settings after a read. */
  function CurrentChannels(db: Db, guildId: string): Option<seq<string>> {
    ChannelList(GetServerSettings(db, guildId).doc)
  }

  /** After the allow-list of a server is written, the next read returns it. */
  lemma ChannelsAfterWrite(db: Db, guildId: string, channels: seq<string>)
    ensures CurrentChannels(UpdateServerSettings(db, guildId, map[AllowedChannels := Strs(channels)]), guildId) == Some(channels)
  {
    var r := UpdateServerSettings(db, guildId, map[AllowedChannels := Strs(channels)]);
    UpdateServerSettingsWritesOnlyUpdates(db, guildId, map[AllowedChannels := Strs(channels)]);
    GetServerSettingsReturnsStored(r, guildId);
  }

  /** The stored allow-list value a read returns, of whatever kind. */
  function StoredChannels(db: Db, guildId: string): Option<Value> {
    Get(GetServerSettings(db, guildId).doc, AllowedChannels)
  }

  /**
   * Stores the spread of the old allow-list followed by the selection, keeping first occurrences
   * only; a string spreads into its characters. A value that is not iterable throws after the read.
   */
  function AddChannels(db: Db, guildId: string, values: seq<string>): Db {
    var read := GetServerSettings(db, guildId);
    match SpreadOf(Get(read.doc, AllowedChannels))
    case Ids(current) => UpdateServerSettings(read.db, guildId, map[AllowedChannels := Strs(Dedup(current + values))])
    case _ => read.db
  }

  /**
   * Adding channels stores a duplicate-free list holding exactly the spread of the old value and
   * the selected ids; when the old value is not iterable, only the read's effect remains.
   */
  lemma AddChannelsUnion(db: Db, guildId: string, values: seq<string>)
    ensures SpreadOf(StoredChannels(db, guildId)).NotAList? ==> AddChannels(db, guildId, values) == GetServerSettings(db, guildId).db
    ensures SpreadOf(StoredChannels(db, guildId)).Ids? ==>
      var stored := CurrentChannels(AddChannels(db, guildId, values), guildId);
      stored.Some? && NoDup(stored.value) &&
      forall c :: c in stored.value <==> c in SpreadOf(StoredChannels(db, guildId)).ids || c in values
  {
    var read := GetServerSettings(db, guildId);
    var spread := SpreadOf(StoredChannels(db, guildId));
    if spread.Ids? {
      ChannelsAfterWrite(read.db, guildId, Dedup(spread.ids + values));
      DedupSpec(spread.ids + values);
    }
  }

  /**
   * A string stored as the allow-list is spread into its characters: the list stored holds the
   * string's single characters and the selected ids, and nothing else.
   */
  lemma AddChannelsSpreadsString(db: Db, guildId: string, values: seq<string>, t: string)
    requires StoredChannels(db, guildId) == Some(Str(t))
    ensures var stored := CurrentChannels(AddChannels(db, guildId, values), guildId);
            stored.Some? && forall c :: c in stored.value <==> (|c| == 1 && c[0] in t) || c in values
  {
    SpreadKinds(StoredChannels(db, guildId));
    AddChannelsUnion(db, guildId, values);
  }

  /** On a duplicate-free allow-list, adding keeps the old ids first, in order, then the new ones. */
  lemma AddChannelsKeepsOrder(db: Db, guildId: string, values: seq<string>)
    requires CurrentChannels(db, guildId).Some? && NoDup(CurrentChannels(db, guildId).value)
    ensures var current := CurrentChannels(db, guildId).value;
            CurrentChannels(AddChannels(db, guildId, values), guildId) == Some(current + Dedup(Without(values, current)))
  {
    var current := CurrentChannels(db, guildId).value;
    ChannelsAfterWrite(GetServerSettings(db, guildId).db, guildId, Dedup(current + values));
    UnionKeepsOldFirst(current, values);
  }

  /**
   * Stores the old allow-list without any selected id, in the old order; a value without `filter`,
   * a string included, throws after the read.
   */
  function RemoveChannels(db: Db, guildId: string, values: seq<string>): Db {
    var read := GetServerSettings(db, guildId);
    match FilterOut(Get(read.doc, AllowedChannels), values)
    case Some(list) => UpdateServerSettings(read.db, guildId, map[AllowedChannels := list])
    case None => read.db
  }

  /**
   * Removing channels stores the old list filtered by the selection, so exactly the unselected old
   * ids remain; a list of turns or entries is written back whole; a value that is not an array
   * leaves only the read's effect.
   */
  lemma RemoveChannelsFilters(db: Db, guildId: string, values: seq<string>)
    ensures AsList(StoredChannels(db, guildId)).NotAList? ==>
      RemoveChannels(db, guildId, values) == GetServerSettings(db, guildId).db
    ensures AsList(StoredChannels(db, guildId)).Objects? ==>
      StoredChannels(RemoveChannels(db, guildId, values), guildId) == StoredChannels(db, guildId)
    ensures CurrentChannels(db, guildId).Some? ==>
      var current := CurrentChannels(db, guildId).value;
      var stored := CurrentChannels(RemoveChannels(db, guildId, values), guildId);
      stored == Some(Without(current, values)) && |stored.value| <= |current| &&
      forall c :: c in stored.value <==> c in current && c !in values
  {
    var read := GetServerSettings(db, guildId);
    var v := StoredChannels(db, guildId);
    if AsList(v).Objects? {
      FilterOutKinds(v, values);
      var written := UpdateServerSettings(read.db, guildId, map[AllowedChannels := v.value]);
      UpdateServerSettingsWritesOnlyUpdates(read.db, guildId, map[AllowedChannels := v.value]);
      GetServerSettingsReturnsStored(written, guildId);
    }
    if CurrentChannels(db, guildId).Some? {
      ChannelsAfterWrite(GetServerSettings(db, guildId).db, guildId, Without(CurrentChannels(db, guildId).value, values));
      WithoutSpec(CurrentChannels(db, guildId).value, values);
    }
  }

  /** Removing ids that an add just introduced restores the allow-list. */
  lemma RemoveUndoesAdd(db: Db, guildId: string, values: seq<string>)
    requires CurrentChannels(db, guildId).Some? && NoDup(CurrentChannels(db, guildId).value)
    requires forall c :: c in values ==> c !in CurrentChannels(db, guildId).value
    ensures CurrentChannels(RemoveChannels(AddChannels(db, guildId, values), guildId, values), guildId) ==
            CurrentChannels(db, guildId)
  {
    var current := CurrentChannels(db, guildId).value;
    var added := AddChannels(db, guildId, values);
    AddChannelsKeepsOrder(db, guildId, values);
    RemoveChannelsFilters(added, guildId, values);
    RemoveAfterUnion(current, values);
  }

  /** The select-menu choices that only open a view; their effect on the store is the read behind it. */
  predicate OpensView(choice: string) {
    choice == "edit_persona" || choice == "manage_features" || choice == "manage_channels"
  }

  /** The effect on the store of one message-component interaction. */
  function HandleComponent(db: Db, i: Interaction, now: int): Db
    requires IsMessageComponent(i)
  {
    var id := ParseCustomId(i.customId);
    match i
    case StringSelect(_, values, guildId, userId) =>
      if |values| == 0 then db
      else if OpensView(values[0]) then GetServerSettings(db, guildId).db
      else if values[0] == "reset_server_settings" then UpdateServerSettings(db, guildId, db.defaults)
      else if values[0] == "edit_user_instructions" then GetUserData(db, userId, now).db
      else if values[0] == "clear_user_instructions" then UpdateUserData(db, userId, map[CustomInstructions := Str("")])
      else db
    case Button(_, guildId, _) =>
      if id.mainId == "toggle" then Toggle(db, guildId, ToggleKey(id.args)) else db
    case ChannelSelect(_, values, guildId, _) =>
      if id.mainId == "addchannels" then AddChannels(db, guildId, values)
      else if id.mainId == "removechannels" then RemoveChannels(db, guildId, values)
      else db
  }

  /** The handler as written: everything that is not a message component returns at once. */
  function HandleInteraction(db: Db, i: Interaction, now: int): (r: Db)
    ensures !IsMessageComponent(i) ==> r == db
  {
    if !IsMessageComponent(i) then db else HandleComponent(db, i, now)
  }

  /**
   * The reset choice writes the default settings over the server's, and the clear choice
   * empties the user's instructions; a select event with no value changes nothing.
   */
  lemma SelectMenuChoices(db: Db, customId: string, values: seq<string>, guildId: string, userId: string, now: int)
    ensures var r := HandleInteraction(db, StringSelect(customId, values, guildId, userId), now);
            (|values| == 0 ==> r == db) &&
            (|values| > 0 && values[0] == "reset_server_settings" ==>
              guildId in r.servers && r.users == db.users &&
              forall k :: k in db.defaults ==> Get(r.servers[guildId], k) == Some(db.defaults[k])) &&
            (|values| > 0 && values[0] == "clear_user_instructions" ==>
              userId in r.users && r.servers == db.servers && Get(r.users[userId], CustomInstructions) == Some(Str("")))
  {
    if |values| > 0 && values[0] == "reset_server_settings" {
      UpdateServerSettingsWritesOnlyUpdates(db, guildId, db.defaults);
    } else if |values| > 0 && values[0] == "clear_user_instructions" {
      UpdateUserDataWritesOnlyUpdates(db, userId, map[CustomInstructions := Str("")]);
    }
  }

  /** The text inputs of the persona modal, when all five are present. */
  function PersonaFields(fields: map<string, string>): Option<seq<string>> {
    if "nameInput" in fields && "ageInput" in fields && "genderInput" in fields &&
       "behaviorInput" in fields && "personalityInput" in fields
    then Some([fields["nameInput"], fields["ageInput"], fields["genderInput"], fields["behaviorInput"], fields["personalityInput"]])
    else None
  }

  /** The settings fields a persona submission writes, with the age parsed as an integer. */
  function PersonaUpdate(fields: map<string, string>, age: int): Doc
    requires PersonaFields(fields).Some?
  {
    map[
      Name := Str(fields["nameInput"]),
      Age := Num(age),
      Gender := Str(fields["genderInput"]),
      Behavior := Str(fields["behaviorInput"]),
      Personality := Str(fields["personalityInput"])]
  }

  /**
   * The modal branch: a persona submission whose age does not parse as an integer changes
   * nothing; otherwise the five persona fields are written, the age as a number.
   */
  function HandleModal(db: Db, customId: string, fields: map<string, string>, guildId: string, userId: string): Db {
    var id := ParseCustomId(customId);
    if id.mainId == "personaModal" then
      match PersonaFields(fields)
      case None => db
      case Some(_) =>
        match ParseInt(fields["ageInput"])
        case None => db
        case Some(age) => UpdateServerSettings(db, guildId, PersonaUpdate(fields, age))
    else if id.mainId == "userInstructionsModal" && "instructionsInput" in fields then
      UpdateUserData(db, userId, map[CustomInstructions := Str(fields["instructionsInput"])])
    else db
  }

  /** The handler with a guard that admits modal submissions as well as message components. */
  function HandleInteractionFixed(db: Db, i: Interaction, now: int): (r: Db)
    ensures IsMessageComponent(i) ==> r == HandleInteraction(db, i, now)
    ensures i.OtherInteraction? ==> r == db
  {
    if IsMessageComponent(i) then HandleComponent(db, i, now)
    else if i.ModalSubmit? then HandleModal(db, i.customId, i.fields, i.guildId, i.userId)
    else db
  }

  /** With the corrected guard, a persona submission reaches the modal branch and its age check. */
  lemma PersonaModalDispatch(db: Db, customId: string, fields: map<string, string>, guildId: string, userId: string, now: int)
    requires ParseCustomId(customId).mainId == "personaModal" && PersonaFields(fields).Some?
    ensures var r := HandleInteractionFixed(db, ModalSubmit(customId, fields, guildId, userId), now);
            (ParseInt(fields["ageInput"]).None? ==> r == db) &&
            (ParseInt(fields["ageInput"]).Some? ==> r == UpdateServerSettings(db, guildId, PersonaUpdate(fields, ParseInt(fields["ageInput"]).value)))
  {
  }

  /**
   * With the corrected guard, a persona submission is validated: an age that does not parse
   * leaves the store unchanged, and otherwise the five fields are written, the age as a number.
   */
  lemma PersonaModalValidatesAge(db: Db, customId: string, fields: map<string, string>, guildId: string, userId: string, now: int)
    requires ParseCustomId(customId).mainId == "personaModal" && PersonaFields(fields).Some?
    ensures var r := HandleInteractionFixed(db, ModalSubmit(customId, fields, guildId, userId), now);
            (ParseInt(fields["ageInput"]).None? ==> r == db) &&
            (ParseInt(fields["ageInput"]).Some? ==>
              guildId in r.servers && r.users == db.users &&
              Get(r.servers[guildId], Age) == Some(Num(ParseInt(fields["ageInput"]).value)) &&
              Get(r.servers[guildId], Name) == Some(Str(fields["nameInput"])) &&
              Get(r.servers[guildId], Gender) == Some(Str(fields["genderInput"])) &&
              Get(r.servers[guildId], Behavior) == Some(Str(fields["behaviorInput"])) &&
              Get(r.servers[guildId], Personality) == Some(Str(fields["personalityInput"])))
  {
    PersonaModalDispatch(db, customId, fields, guildId, userId, now);
    if ParseInt(fields["ageInput"]).Some? {
      var u := PersonaUpdate(fields, ParseInt(fields["ageInput"]).value);
      UpdateServerSettingsWritesOnlyUpdates(db, guildId, u);
      assert Age in u && Name in u && Gender in u && Behavior in u && Personality in u;
    }
  }

  /** With the corrected guard, submitted user instructions are stored for that user. */
  lemma InstructionsModalStores(db: Db, customId: string, fields: map<string, string>, guildId: string, userId: string, now: int)
    requires ParseCustomId(customId).mainId == "userInstructionsModal" && "instructionsInput" in fields
    ensures var r := HandleInteractionFixed(db, ModalSubmit(customId, fields, guildId, userId), now);
            userId in r.users && r.servers == db.servers &&
            Get(r.users[userId], CustomInstructions) == Some(Str(fields["instructionsInput"]))
  {
    UpdateUserDataWritesOnlyUpdates(db, userId, map[CustomInstructions := Str(fields["instructionsInput"])]);
  }

  /**
   * As written, the persona branch is unreachable: a complete submission with a valid age
   * leaves the store untouched, where the corrected guard would have stored the age.
   */
  lemma PersonaModalUnreachable(db: Db, fields: map<string, string>, guildId: string, userId: string, now: int)
    requires PersonaFields(fields).Some? && ParseInt(fields["ageInput"]).Some?
    requires guildId !in db.servers
    ensures HandleInteraction(db, ModalSubmit("personaModal", fields, guildId, userId), now) == db
    ensures guildId in HandleInteractionFixed(db, ModalSubmit("personaModal", fields, guildId, userId), now).servers
  {
    var i := ModalSubmit("personaModal", fields, guildId, userId);
    assert !IsMessageComponent(i) && HandleInteraction(db, i, now) == db;
    ParsePlainId("personaModal");
    PersonaModalDispatch(db, "personaModal", fields, guildId, userId, now);
    UpdateServerSettingsWritesOnlyUpdates(db, guildId, PersonaUpdate(fields, ParseInt(fields["ageInput"]).value));
  }
}

=== FILE: lists.dfy ===
/**
 * The array operations the channel allow-lists and the bounded histories are built from:
 * `Array.from(new Set(xs))`, `filter` against a list of ids, `slice(-n)` and the
 * "keep the newest n" trims.
 */
module Lists {

  ghost predicate NoDup<T>(xs: seq<T>) {
    forall i, j :: 0 <= i < j < |xs| ==> xs[i] != xs[j]
  }

  /** `Array.from(new Set(xs))`: the first occurrence of every element, in order. */
  function Dedup<T(==,!new)>(xs: seq<T>): (r: seq<T>)
    ensures |r| <= |xs|
  {
    if |xs| == 0 then []
    else
      var d := Dedup(xs[..|xs| - 1]);
      var x := xs[|xs| - 1];
      if x in d then d else d + [x]
  }

  /** `xs.filter(x => !ys.includes(x))`. */
  function Without<T(==,!new)>(xs: seq<T>, ys: seq<T>): (r: seq<T>)
    ensures |r| <= |xs|
  {
    if |xs| == 0 then []
    else
      var w := Without(xs[..|xs| - 1], ys);
      var x := xs[|xs| - 1];
      if x in ys then w else w + [x]
  }

  /** The last `n` elements, or all of them when there are fewer (`slice(-n)` for `n >= 1`). */
  function TakeLast<T>(xs: seq<T>, n: nat): (r: seq<T>)
    ensures |r| == if |xs| <= n then |xs| else n
    ensures r == xs[|xs| - |r|..]
  {
    if |xs| <= n then xs else xs[|xs| - n..]
  }

  /** The start index `xs.slice(start)` uses: a negative start counts from the end, both are clamped. */
  function SliceStart(len: nat, start: int): (k: nat)
    ensures k <= len
  {
    if start < 0 then (if len + start < 0 then 0 else len + start)
    else if start > len then len else start
  }

  /** `xs.slice(start)`. */
  function SliceFrom<T>(xs: seq<T>, start: int): seq<T> {
    xs[SliceStart(|xs|, start)..]
  }

  /** `slice(-n)` for a positive `n` is the last `n` elements; `slice(-0)` is the whole array. */
  lemma SliceFromNegative<T>(xs: seq<T>, n: int)
    ensures n >= 1 ==> SliceFrom(xs, -n) == TakeLast(xs, n)
    ensures n == 0 ==> SliceFrom(xs, -n) == xs
  {
  }

  /** Deduplicating a list that has no duplicates returns it unchanged. */
  lemma {:induction false} DedupOfNoDup<T(!new)>(xs: seq<T>)
    requires NoDup(xs)
    ensures Dedup(xs) == xs
  {
    if |xs| > 0 {
      var init := xs[..|xs| - 1];
      assert NoDup(init);
      DedupOfNoDup(init);
      assert xs[|xs| - 1] !in init;
      assert init + [xs[|xs| - 1]] == xs;
    }
  }

  lemma WithoutSnoc<T(!new)>(xs: seq<T>, x: T, ys: seq<T>)
    ensures Without(xs + [x], ys) == if x in ys then Without(xs, ys) else Without(xs, ys) + [x]
  {
    assert (xs + [x])[..|xs + [x]| - 1] == xs;
  }

  lemma DedupSnoc<T(!new)>(xs: seq<T>, x: T)
    ensures Dedup(xs + [x]) == if x in Dedup(xs) then Dedup(xs) else Dedup(xs) + [x]
  {
    assert (xs + [x])[..|xs + [x]| - 1] == xs;
  }

  /**
   * The union written as `new Set([...a, ...b])`: the deduplicated `a`, followed by the
   * elements of `b` that are not in `a`, each once, in their order of first appearance.
   */
  lemma {:induction false} DedupAppend<T(!new)>(a: seq<T>, b: seq<T>)
    ensures Dedup(a + b) == Dedup(a) + Dedup(Without(b, a))
    decreases |b|
  {
    if |b| == 0 {
      assert a + b == a;
    } else {
      var b' := b[..|b| - 1];
      var x := b[|b| - 1];
      assert b == b' + [x];
      assert a + b == (a + b') + [x];
      DedupAppend(a, b');
      DedupSnoc(a + b', x);
      WithoutSnoc(b', x, a);
      if x in a {
        DedupSpec(a + b');
        assert x in a + b';
      } else {
        DedupAppendStep(a, b', x);
      }
    }
  }

  /** The step of `DedupAppend` for a new last element that is not in `a`. */
  lemma DedupAppendStep<T(!new)>(a: seq<T>, b: seq<T>, x: T)
    requires x !in a
    requires Dedup(a + b) == Dedup(a) + Dedup(Without(b, a))
    ensures (if x in Dedup(a + b) then Dedup(a + b) else Dedup(a + b) + [x]) ==
            Dedup(a) + Dedup(Without(b, a) + [x])
  {
    var w := Without(b, a);
    DedupSnoc(w, x);
    DedupSpec(a + b);
    DedupSpec(w);
    WithoutSpec(b, a);
    assert x in a + b <==> x in b;
    if x !in Dedup(w) {
      assert Dedup(a) + Dedup(w) + [x] == Dedup(a) + (Dedup(w) + [x]);
    }
  }

  /** Adding ids to a duplicate-free list keeps the old list first and adds only the new ids. */
  lemma UnionKeepsOldFirst<T(!new)>(current: seq<T>, added: seq<T>)
    requires NoDup(current)
    ensures Dedup(current + added) == current + Dedup(Without(added, current))
  {
    DedupAppend(current, added);
    DedupOfNoDup(current);
  }

  /** The deduplicated list has no repeats and holds exactly the elements of the input. */
  lemma {:induction false} DedupSpec<T(!new)>(xs: seq<T>)
    ensures NoDup(Dedup(xs))
    ensures forall x :: x in Dedup(xs) <==> x in xs
  {
    if |xs| > 0 {
      var init, x := xs[..|xs| - 1], xs[|xs| - 1];
      assert xs == init + [x];
      DedupSpec(init);
      DedupSnoc(init, x);
    }
  }

  /** The filter keeps exactly the elements of `xs` that are not in `ys`. */
  lemma {:induction false} WithoutSpec<T(!new)>(xs: seq<T>, ys: seq<T>)
    ensures forall x :: x in Without(xs, ys) <==> x in xs && x !in ys
  {
    if |xs| > 0 {
      var init, x := xs[..|xs| - 1], xs[|xs| - 1];
      assert xs == init + [x];
      WithoutSpec(init, ys);
      WithoutSnoc(init, x, ys);
    }
  }

  /** `filter` distributes over concatenation, so the survivors keep their relative order. */
  lemma {:induction false} WithoutConcat<T(!new)>(a: seq<T>, b: seq<T>, ys: seq<T>)
    ensures Without(a + b, ys) == Without(a, ys) + Without(b, ys)
    decreases |b|
  {
    if |b| == 0 {
      assert a + b == a;
    } else {
      var b' := b[..|b| - 1];
      var x := b[|b| - 1];
      assert b == b' + [x];
      var c := a + b';
      assert a + b == c + [x];
      WithoutConcat(a, b', ys);
      WithoutSnoc(c, x, ys);
      WithoutSnoc(b', x, ys);
      var wa, wb := Without(a, ys), Without(b', ys);
      if x !in ys {
        calc {
          Without(a + b, ys);
          Without(c, ys) + [x];
          (wa + wb) + [x];
          wa + (wb + [x]);
        }
      }
    }
  }

  /** A list none of whose elements is excluded passes the filter unchanged. */
  lemma {:induction false} WithoutDisjoint<T(!new)>(xs: seq<T>, ys: seq<T>)
    requires forall x :: x in xs ==> x !in ys
    ensures Without(xs, ys) == xs
  {
    if |xs| > 0 {
      WithoutDisjoint(xs[..|xs| - 1], ys);
      assert xs[..|xs| - 1] + [xs[|xs| - 1]] == xs;
    }
  }

  /** Removing one id from a duplicate-free list deletes exactly its position and keeps the rest in order. */
  lemma RemoveOne<T(!new)>(xs: seq<T>, k: nat)
    requires NoDup(xs) && k < |xs|
    ensures Without(xs, [xs[k]]) == xs[..k] + xs[k + 1..]
  {
    NoDupAround(xs, k);
    SplitAround(xs, k);
    RemoveBetween(xs[..k], xs[k], xs[k + 1..]);
  }

  lemma SplitAround<T>(xs: seq<T>, k: nat)
    requires k < |xs|
    ensures xs == xs[..k] + ([xs[k]] + xs[k + 1..])
  {
  }

  lemma RemoveBetween<T(!new)>(before: seq<T>, x: T, after: seq<T>)
    requires x !in before && x !in after
    ensures Without(before + ([x] + after), [x]) == before + after
  {
    WithoutConcat(before, [x] + after, [x]);
    WithoutAbsent(before, x);
    WithoutHead(x, after);
  }

  lemma WithoutAbsent<T(!new)>(xs: seq<T>, x: T)
    requires x !in xs
    ensures Without(xs, [x]) == xs
  {
    WithoutDisjoint(xs, [x]);
  }

  lemma WithoutHead<T(!new)>(x: T, xs: seq<T>)
    requires x !in xs
    ensures Without([x] + xs, [x]) == xs
  {
    WithoutConcat([x], xs, [x]);
    WithoutSelf(x);
    WithoutAbsent(xs, x);
    assert [] + xs == xs;
  }

  /** In a duplicate-free list the entry at `k` occurs neither before nor after `k`. */
  lemma NoDupAround<T>(xs: seq<T>, k: nat)
    requires NoDup(xs) && k < |xs|
    ensures xs[k] !in xs[..k] && xs[k] !in xs[k + 1..]
  {
    var before, after := xs[..k], xs[k + 1..];
    forall i | 0 <= i < |before| ensures before[i] != xs[k] { assert before[i] == xs[i]; }
    forall i | 0 <= i < |after| ensures after[i] != xs[k] { assert after[i] == xs[k + 1 + i]; }
  }

  lemma WithoutSelf<T(!new)>(x: T)
    ensures Without([x], [x]) == []
  {
    WithoutSnoc([], x, [x]);
    assert [] + [x] == [x];
  }

  /** Filtering a duplicate-free list keeps it duplicate-free. */
  lemma {:induction false} WithoutNoDup<T(!new)>(xs: seq<T>, ys: seq<T>)
    requires NoDup(xs)
    ensures NoDup(Without(xs, ys))
  {
    if |xs| > 0 {
      var init := xs[..|xs| - 1];
      assert NoDup(init);
      WithoutNoDup(init, ys);
      WithoutSpec(init, ys);
      assert xs[|xs| - 1] !in init;
    }
  }

  /** Appending an element that is absent keeps a list duplicate-free. */
  lemma AppendAbsentNoDup<T>(xs: seq<T>, x: T)
    requires NoDup(xs) && x !in xs
    ensures NoDup(xs + [x])
  {
  }

  /**
   * Keeping the last `n` after every append keeps exactly the last `n` of everything appended:
   * a bounded window agrees with the unbounded log it summarises.
   */
  lemma TakeLastSnoc<T>(xs: seq<T>, x: T, n: nat)
    requires n >= 1
    ensures TakeLast(TakeLast(xs, n) + [x], n) == TakeLast(xs + [x], n)
  {
    var w := TakeLast(xs, n);
    assert w + [x] == (xs + [x])[|xs| - |w|..];
  }

  /** Filtering out a superset of a list's elements leaves nothing. */
  lemma WithoutAll<T(!new)>(xs: seq<T>, ys: seq<T>)
    requires forall x :: x in xs ==> x in ys
    ensures Without(xs, ys) == []
  {
    WithoutSpec(xs, ys);
  }

  /**
   * Removing the ids a union introduced restores the list: for ids absent from `current`,
   * filtering them out of `current` followed by the new ids gives `current` back.
   */
  lemma RemoveAfterUnion<T(!new)>(current: seq<T>, added: seq<T>)
    requires forall x :: x in added ==> x !in current
    ensures Without(current + Dedup(Without(added, current)), added) == current
  {
    var extra := Dedup(Without(added, current));
    DedupSpec(Without(added, current));
    WithoutSpec(added, current);
    WithoutConcat(current, extra, added);
    WithoutDisjoint(current, added);
    WithoutAll(extra, added);
  }
}

=== FILE: message_handler.dfy ===
/**
 * The message handler of the `handlers/` variant (`handlers/messageHandler.js`): the guild gate,
 * the user record created on first contact, the image request, the comma-separated segments
 * examined one by one until the first that gets a reply, the bounded conversation log, and the
 * prompt `buildContext` assembles.
 *
 * What the outside world decides is an input (`Oracle`): the image-request regex (which embeds the
 * bot name) as a function of that name, whether the image call succeeds, each segment's random
 * draw and classifier verdict, and the text endpoint's answer. The reply delay, the occasional
 * GIF and the directory created for a new direct-message user are not part of this model.
 */
module MessageHandler {
  import opened Wrappers
  import opened Text
  import opened Lists
  import opened Models

  const DefaultBotName: string := "Kohana"
  /** A log longer than this is cut back ... */
  const HistoryCap: nat := 50
  /** ... to this many newest entries. */
  const HistoryKeep: nat := 30
  /** How many of the newest entries the prompt quotes. */
  const ContextTurns: nat := 5

  const ImageApologyText: string := "Sorry, I couldn't generate that image right now. Please try again later!"
  const ReplyApologyText: string := "Sorry, I'm having trouble thinking right now. Can you try again?"

  /** An incoming Discord message; `guildId` is `None` in a direct message. */
  datatype Incoming = Incoming(
    authorId: string,
    username: string,
    fromBot: bool,
    guildId: Option<string>,
    channelId: string,
    content: string,
    mentioned: bool,
    replyTo: Option<string>)

  /** The two collections the handler reads and writes. */
  datatype World = World(guilds: map<string, Guild>, users: map<string, User>)

  /** The random draw and the classifier's verdict for one segment. */
  datatype Verdict = Verdict(draw: real, classifier: bool)

  datatype Oracle = Oracle(
    imageMatch: string -> Option<string>,
    imageOk: bool,
    verdict: nat -> Verdict,
    response: Option<string>)

  datatype Outcome =
    | Ignored
    | Crashed
    | ImageSent(prompt: string)
    | ImageApology
    | Replied(segment: string, context: string, response: string)
    | Apologized(segment: string)
    | Silent

  datatype Step = Step(world: World, outcome: Outcome)

  // ---------------------------------------------------------------------------------------------
  // The gate

  /** An empty allow-list admits every channel. */
  predicate Allowed(g: Guild, channelId: string) {
    |g.allowedChannels| == 0 || channelId in g.allowedChannels
  }

  /** Messages the handler drops before touching anything: a bot's, or a guild's without (admitting) settings. */
  predicate Dropped(w: World, m: Incoming) {
    m.fromBot ||
    (m.guildId.Some? && (m.guildId.value !in w.guilds || !Allowed(w.guilds[m.guildId.value], m.channelId)))
  }

  function BotName(settings: Option<Guild>): string {
    if settings.Some? then settings.value.botName else DefaultBotName
  }

  /** Without guild settings image generation is on. */
  predicate ImageEnabled(settings: Option<Guild>) {
    settings.None? || settings.value.imageGeneration
  }

  /** `isMentioned || isReply`, where a reply counts only when it names a (non-empty) message id. */
  predicate Addressed(m: Incoming) {
    m.mentioned || (m.replyTo.Some? && m.replyTo.value != "")
  }

  /** An addressed message replies on a coin toss above one half; any other asks the classifier. */
  predicate Responds(m: Incoming, v: Verdict) {
    if Addressed(m) then v.draw > 0.5 else v.classifier
  }

  // ---------------------------------------------------------------------------------------------
  // Segments

  /** `fields.map(f => f.trim()).filter(f => f.length > 0)`. */
  function TrimmedNonEmpty(fields: seq<string>): seq<string> {
    if |fields| == 0 then []
    else
      var t := Trim(fields[0]);
      (if t == "" then [] else [t]) + TrimmedNonEmpty(fields[1..])
  }

  /** The parts of a message: split on `,`, trimmed, empty parts dropped. */
  function Segments(content: string): seq<string> {
    TrimmedNonEmpty(Split(content, ','))
  }

  /** A segment as the handler sees it: non-empty, trimmed and free of commas. */
  predicate Clean(s: string) {
    s != "" && Trim(s) == s && ',' !in s
  }

  /** Trimming only removes characters, so a character absent before is absent after. */
  lemma TrimKeepsOut(s: string, c: char)
    requires c !in s
    ensures c !in Trim(s)
  {
    TrimIsBothEnds(s);
    var t := TrimStart(s);
    var k := |s| - |t|;
    var u := TrimEnd(t);
    forall i | 0 <= i < |u| ensures u[i] != c {
      assert u[i] == t[i] == s[k + i];
    }
  }

  /** Every kept field is clean when no field holds a comma. */
  lemma {:induction false} TrimmedNonEmptyClean(fields: seq<string>)
    requires forall j :: 0 <= j < |fields| ==> ',' !in fields[j]
    ensures forall s :: s in TrimmedNonEmpty(fields) ==> Clean(s)
  {
    if |fields| > 0 {
      var t := Trim(fields[0]);
      TrimIdempotent(fields[0]);
      TrimKeepsOut(fields[0], ',');
      TrimmedNonEmptyClean(fields[1..]);
    }
  }

  /** Every field with something besides whitespace is kept, trimmed. */
  lemma {:induction false} TrimmedNonEmptyKeeps(fields: seq<string>)
    ensures forall j :: 0 <= j < |fields| && Trim(fields[j]) != "" ==> Trim(fields[j]) in TrimmedNonEmpty(fields)
  {
    if |fields| > 0 {
      TrimmedNonEmptyKeeps(fields[1..]);
      forall j | 1 <= j < |fields| ensures fields[j] == fields[1..][j - 1] { }
    }
  }

  /** Everything kept is the trimmed form of some field. */
  lemma {:induction false} TrimmedNonEmptyFrom(fields: seq<string>)
    ensures forall s :: s in TrimmedNonEmpty(fields) ==> s in TrimAll(fields)
  {
    if |fields| > 0 {
      TrimmedNonEmptyFrom(fields[1..]);
    }
  }

  function TrimAll(fields: seq<string>): (r: seq<string>)
    ensures |r| == |fields| && forall j :: 0 <= j < |fields| ==> r[j] == Trim(fields[j])
  {
    if |fields| == 0 then [] else [Trim(fields[0])] + TrimAll(fields[1..])
  }

  /**
   * Every segment is non-empty, already trimmed and free of commas, each is a trimmed
   * comma-separated field, and every field with something besides whitespace appears, trimmed.
   */
  lemma SegmentsWellFormed(content: string)
    ensures forall s :: s in Segments(content) ==> Clean(s)
    ensures forall s :: s in Segments(content) ==> s in TrimAll(Split(content, ','))
    ensures forall f :: f in Split(content, ',') && Trim(f) != "" ==> Trim(f) in Segments(content)
  {
    var fields := Split(content, ',');
    SplitFieldsFree(content, ',');
    TrimmedNonEmptyClean(fields);
    TrimmedNonEmptyFrom(fields);
    TrimmedNonEmptyKeeps(fields);
  }

  /** A message without commas is one segment: itself, trimmed, unless it is blank. */
  lemma NoCommaOneSegment(content: string)
    requires ',' !in content
    ensures Segments(content) == if Trim(content) == "" then [] else [Trim(content)]
  {
    SplitNoSeparator(content, ',');
    var fields := Split(content, ',');
    assert fields[1..] == [];
    assert TrimmedNonEmpty(fields[1..]) == [];
  }

  // ---------------------------------------------------------------------------------------------
  // The segment loop

  /** The first segment from `from` on that gets a reply. */
  function FirstResponding(segs: seq<string>, m: Incoming, verdict: nat -> Verdict, from: nat): (r: Option<nat>)
    ensures r.Some? ==>
      from <= r.value < |segs| && Responds(m, verdict(r.value)) &&
      forall j :: from <= j < r.value ==> !Responds(m, verdict(j))
    ensures r.None? ==> forall j :: from <= j < |segs| ==> !Responds(m, verdict(j))
    decreases |segs| - from
  {
    if from >= |segs| then None
    else if Responds(m, verdict(from)) then Some(from)
    else FirstResponding(segs, m, verdict, from + 1)
  }

  /**
   * The `for ... of` loop with its `break`: examine the segments in order and stop at the first that
   * replies. The handler below is written with the recursive search; this loop finds the same segment.
   */
  method FindResponding(segs: seq<string>, m: Incoming, verdict: nat -> Verdict) returns (k: Option<nat>)
    ensures k == FirstResponding(segs, m, verdict, 0)
    ensures k.Some? ==> k.value < |segs| && Responds(m, verdict(k.value)) &&
                        forall j :: 0 <= j < k.value ==> !Responds(m, verdict(j))
    ensures k.None? ==> forall j :: 0 <= j < |segs| ==> !Responds(m, verdict(j))
  {
    var i := 0;
    while i < |segs|
      invariant 0 <= i <= |segs|
      invariant forall j :: 0 <= j < i ==> !Responds(m, verdict(j))
      invariant FirstResponding(segs, m, verdict, i) == FirstResponding(segs, m, verdict, 0)
    {
      if Responds(m, verdict(i)) {
        return Some(i);
      }
      i := i + 1;
    }
    return None;
  }

  // ---------------------------------------------------------------------------------------------
  // The conversation log

  /** `push`, then `slice(-30)` once the log is longer than 50. */
  function AppendHistory(h: seq<HistoryEntry>, e: HistoryEntry): seq<HistoryEntry> {
    var h' := h + [e];
    if |h'| > HistoryCap then h'[|h'| - HistoryKeep..] else h'
  }

  /**
   * The log stays at most 50 long, ends with the new entry, is a suffix of everything appended,
   * and never loses any of the 30 newest entries.
   */
  lemma AppendHistoryBounded(h: seq<HistoryEntry>, e: HistoryEntry)
    requires |h| <= HistoryCap
    ensures var r := AppendHistory(h, e);
      |r| <= HistoryCap && |r| > 0 && r[|r| - 1] == e &&
      r == (h + [e])[|h| + 1 - |r|..] &&
      |r| == (if |h| == HistoryCap then HistoryKeep else |h| + 1) &&
      TakeLast(r, HistoryKeep) == TakeLast(h + [e], HistoryKeep)
  {
  }

  /** The user after a successful reply: the segment logged at `now`, and `lastInteraction` moved to `now`. */
  function Record(u: User, segment: string, guildId: Option<string>, now: int): User {
    u.(history := AppendHistory(u.history, HistoryEntry(segment, now, guildId)), lastInteraction := now)
  }

  // ---------------------------------------------------------------------------------------------
  // The prompt

  /** The sentences `buildContext` strings together, in order. */
  datatype Piece =
    | Intro(name: string, age: int, gender: string)
    | Mood(mood: string)
    | Human
    | Override(personality: string)
    | Behavior(behavior: string)
    | UserInstructions(instructions: string)
    | AddressAs(preferredName: string)
    | RecentHead
    | Said(message: string)
    | Current(message: string, botName: string)

  function Render(p: Piece): string {
    match p
    case Intro(name, age, gender) =>
      "You are " + name + ", a " + IntToString(age) + "-year-old " + gender +
        " from Tokyo who loves watching anime and playing games. "
    case Mood(mood) => "Your current mood is: " + mood + ". "
    case Human => "You behave like a real human, not an AI. Be natural, casual, and engaging. "
    case Override(t) => "Personality override: " + t + " "
    case Behavior(t) => "Behavior instructions: " + t + " "
    case UserInstructions(t) => "User-specific instructions: " + t + " "
    case AddressAs(n) => "Address this user as: " + n + " "
    case RecentHead => "Recent conversation context: "
    case Said(msg) => "User said: \"" + msg + "\" "
    case Current(msg, name) => "\n\nUser's current message: \"" + msg + "\"\n\nRespond naturally as " + name + ":"
  }

  /** The pieces' sentences, in order. */
  function Texts(ps: seq<Piece>): (r: seq<string>)
    ensures |r| == |ps| && forall i :: 0 <= i < |ps| ==> r[i] == Render(ps[i])
  {
    seq(|ps|, i requires 0 <= i < |ps| => Render(ps[i]))
  }

  /** The strings one after another, as repeated `+=` builds them. */
  function Concat(ss: seq<string>): string {
    if |ss| == 0 then "" else ss[0] + Concat(ss[1..])
  }

  /** One `Said` piece per entry, in order. */
  function SaidAll(es: seq<HistoryEntry>): (r: seq<Piece>)
    ensures |r| == |es|
    ensures forall i :: 0 <= i < |r| ==> r[i] == Said(es[i].message)
  {
    if |es| == 0 then [] else [Said(es[0].message)] + SaidAll(es[1..])
  }

  /** A section that appears only when its text is non-empty. */
  function Optional(text: string, piece: Piece): seq<Piece> {
    if text != "" then [piece] else []
  }

  /** Who the bot is and its mood, from the guild's settings or the defaults. */
  function IntroPieces(settings: Option<Guild>): (r: seq<Piece>)
    ensures |r| == 3 && r[0].Intro? && r[1].Mood? && r[2] == Human
  {
    match settings
    case None => [Intro(DefaultBotName, 15, "female"), Mood("cheerful, friendly"), Human]
    case Some(g) => [Intro(g.botName, g.botAge, g.botGender), Mood(Join(g.botMood, ", ")), Human]
  }

  function GuildSections(settings: Option<Guild>): (r: seq<Piece>)
    ensures forall p :: p in r ==> p.Override? || p.Behavior?
  {
    match settings
    case None => []
    case Some(g) => Optional(g.customPersonality, Override(g.customPersonality)) +
                    Optional(g.customBehavior, Behavior(g.customBehavior))
  }

  function UserSections(user: User): (r: seq<Piece>)
    ensures forall p :: p in r ==> p.UserInstructions? || p.AddressAs?
  {
    Optional(user.customInstructions, UserInstructions(user.customInstructions)) +
    Optional(user.preferredName, AddressAs(user.preferredName))
  }

  function HistoryPieces(history: seq<HistoryEntry>): (r: seq<Piece>)
    ensures forall p :: p in r ==> p == RecentHead || p.Said?
  {
    var recent := TakeLast(history, ContextTurns);
    if |recent| > 0 then [RecentHead] + SaidAll(recent) else []
  }

  function ContextPieces(user: User, settings: Option<Guild>, message: string): seq<Piece> {
    IntroPieces(settings) + GuildSections(settings) + UserSections(user) + HistoryPieces(user.history) +
      [Current(message, BotName(settings))]
  }

  /** `buildContext(user, guildSettings, message)`. */
  function BuildContext(user: User, settings: Option<Guild>, message: string): string {
    Concat(Texts(ContextPieces(user, settings, message)))
  }

  /** The messages of the `Said` pieces, in order. */
  function SaidOf(ps: seq<Piece>): seq<string> {
    if |ps| == 0 then [] else (if ps[0].Said? then [ps[0].message] else []) + SaidOf(ps[1..])
  }

  function Messages(es: seq<HistoryEntry>): (r: seq<string>)
    ensures |r| == |es| && forall i :: 0 <= i < |es| ==> r[i] == es[i].message
  {
    seq(|es|, i requires 0 <= i < |es| => es[i].message)
  }

  lemma {:induction false} SaidOfAppend(a: seq<Piece>, b: seq<Piece>)
    ensures SaidOf(a + b) == SaidOf(a) + SaidOf(b)
  {
    if |a| > 0 {
      assert (a + b)[1..] == a[1..] + b;
      SaidOfAppend(a[1..], b);
    } else {
      assert a + b == b;
    }
  }

  lemma {:induction false} SaidOfSaidAll(es: seq<HistoryEntry>)
    ensures SaidOf(SaidAll(es)) == Messages(es)
  {
    if |es| > 0 {
      SaidOfSaidAll(es[1..]);
      assert SaidAll(es)[1..] == SaidAll(es[1..]);
    }
  }

  lemma {:induction false} NoSaid(ps: seq<Piece>)
    requires forall p :: p in ps ==> !p.Said?
    ensures SaidOf(ps) == []
  {
    if |ps| > 0 {
      assert forall p :: p in ps[1..] ==> p in ps;
      NoSaid(ps[1..]);
    }
  }

  lemma {:induction false} ConcatAppend(a: seq<string>, b: seq<string>)
    ensures Concat(a + b) == Concat(a) + Concat(b)
  {
    if |a| > 0 {
      assert (a + b)[1..] == a[1..] + b;
      ConcatAppend(a[1..], b);
    } else {
      assert a + b == b;
    }
  }

  /** Without guild settings the prompt introduces a 15-year-old, cheerful and friendly Kohana and has no guild sections. */
  lemma ContextDefaults(user: User, message: string)
    ensures var ps := ContextPieces(user, None, message);
      ps[0] == Intro("Kohana", 15, "female") && ps[1] == Mood("cheerful, friendly") && ps[2] == Human &&
      ps[|ps| - 1] == Current(message, "Kohana") &&
      forall p :: p in ps ==> !p.Override? && !p.Behavior?
  {
  }

  /** A piece is in the prompt exactly when it is in one of its five parts. */
  lemma InContextPieces(user: User, settings: Option<Guild>, message: string, p: Piece)
    ensures p in ContextPieces(user, settings, message) <==>
      p in IntroPieces(settings) || p in GuildSections(settings) || p in UserSections(user) ||
      p in HistoryPieces(user.history) || p == Current(message, BotName(settings))
  {
  }

  /** The guild's two sections appear exactly when their text is non-empty, and then with that text. */
  lemma ContextGuildSections(user: User, settings: Option<Guild>, message: string, t: string)
    ensures var ps := ContextPieces(user, settings, message);
      (Override(t) in ps <==> settings.Some? && settings.value.customPersonality == t && t != "") &&
      (Behavior(t) in ps <==> settings.Some? && settings.value.customBehavior == t && t != "")
  {
    InContextPieces(user, settings, message, Override(t));
    InContextPieces(user, settings, message, Behavior(t));
    GuildSectionsHold(settings, t);
  }

  lemma GuildSectionsHold(settings: Option<Guild>, t: string)
    ensures Override(t) in GuildSections(settings) <==> settings.Some? && settings.value.customPersonality == t && t != ""
    ensures Behavior(t) in GuildSections(settings) <==> settings.Some? && settings.value.customBehavior == t && t != ""
  {
  }

  /** The user's two sections appear exactly when their text is non-empty, and then with that text. */
  lemma ContextUserSections(user: User, settings: Option<Guild>, message: string, t: string)
    ensures var ps := ContextPieces(user, settings, message);
      (UserInstructions(t) in ps <==> user.customInstructions == t && t != "") &&
      (AddressAs(t) in ps <==> user.preferredName == t && t != "")
  {
    InContextPieces(user, settings, message, UserInstructions(t));
    InContextPieces(user, settings, message, AddressAs(t));
    UserSectionsHold(user, t);
  }

  lemma UserSectionsHold(user: User, t: string)
    ensures UserInstructions(t) in UserSections(user) <==> user.customInstructions == t && t != ""
    ensures AddressAs(t) in UserSections(user) <==> user.preferredName == t && t != ""
  {
  }

  /**
   * The prompt quotes the newest five log entries, oldest first, and nothing else as history; the
   * heading appears exactly when there is something to quote.
   */
  lemma ContextHistory(user: User, settings: Option<Guild>, message: string)
    ensures var ps := ContextPieces(user, settings, message);
      SaidOf(ps) == Messages(TakeLast(user.history, ContextTurns)) &&
      (RecentHead in ps <==> user.history != [])
  {
    var front := IntroPieces(settings) + GuildSections(settings) + UserSections(user);
    var history := HistoryPieces(user.history);
    var last := [Current(message, BotName(settings))];
    FrontQuotesNothing(user, settings);
    NoSaid(last);
    SaidOfAppend(front + history, last);
    SaidOfAppend(front, history);
    HistoryPiecesQuote(user.history);
    InContextPieces(user, settings, message, RecentHead);
  }

  lemma FrontQuotesNothing(user: User, settings: Option<Guild>)
    ensures var front := IntroPieces(settings) + GuildSections(settings) + UserSections(user);
      SaidOf(front) == [] && RecentHead !in front
  {
    var front := IntroPieces(settings) + GuildSections(settings) + UserSections(user);
    assert forall p :: p in front ==> !p.Said? && p != RecentHead;
    NoSaid(front);
  }

  /** The history block quotes the newest five entries in order, under a heading present exactly when there are any. */
  lemma HistoryPiecesQuote(history: seq<HistoryEntry>)
    ensures SaidOf(HistoryPieces(history)) == Messages(TakeLast(history, ContextTurns))
    ensures RecentHead in HistoryPieces(history) <==> history != []
  {
    var recent := TakeLast(history, ContextTurns);
    if |recent| > 0 {
      SaidOfAppend([RecentHead], SaidAll(recent));
      SaidOfSaidAll(recent);
    }
  }

  /** The prompt ends with the current message and the instruction to answer as the bot. */
  lemma ContextEnds(user: User, settings: Option<Guild>, message: string)
    ensures var c := BuildContext(user, settings, message);
      var tail := Render(Current(message, BotName(settings)));
      |tail| <= |c| && c[|c| - |tail|..] == tail
  {
    var ps := ContextPieces(user, settings, message);
    var tail := Render(Current(message, BotName(settings)));
    var front := Texts(ps)[..|ps| - 1];
    assert Texts(ps) == front + [tail];
    ConcatAppend(front, [tail]);
    assert Concat([tail]) == tail + Concat([]);
  }

  // ---------------------------------------------------------------------------------------------
  // The handler

  /** The guild's settings; in a direct message there are none. */
  function SettingsFor(w: World, m: Incoming): Option<Guild> {
    if m.guildId.Some? && m.guildId.value in w.guilds then Some(w.guilds[m.guildId.value]) else None
  }

  /** The stored user, or the one created on first contact. */
  function UserFor(w: World, m: Incoming, now: int): User {
    if m.authorId in w.users then w.users[m.authorId] else NewUser(m.authorId, m.username, now)
  }

  /** `handleMessage`. */
  function HandleMessage(w: World, m: Incoming, o: Oracle, now: int): Step {
    if Dropped(w, m) then Step(w, Ignored)
    else
      var user := UserFor(w, m, now);
      if m.authorId !in w.users && UserErrors(user) != {} then Step(w, Crashed)
      else Answer(w.(users := w.users[m.authorId := user]), m, o, now, SettingsFor(w, m), user)
  }

  /** Everything after the user record exists: the image request, else the segment loop. */
  function Answer(w: World, m: Incoming, o: Oracle, now: int, settings: Option<Guild>, user: User): Step {
    var request := o.imageMatch(BotName(settings));
    if request.Some? && ImageEnabled(settings) then
      Step(w, if o.imageOk then ImageSent(request.value) else ImageApology)
    else SegmentLoop(w, m, o, now, settings, user, Segments(m.content))
  }

  function SegmentLoop(w: World, m: Incoming, o: Oracle, now: int, settings: Option<Guild>, user: User,
                       segs: seq<string>): Step
  {
    match FirstResponding(segs, m, o.verdict, 0)
    case None => Step(w, Silent)
    case Some(k) => Reply(w, m, o, now, settings, user, segs[k])
  }

  /** The reply to one segment: logged on success, an apology (and no log entry) when the endpoint throws. */
  function Reply(w: World, m: Incoming, o: Oracle, now: int, settings: Option<Guild>, user: User,
                 segment: string): Step
  {
    match o.response
    case None => Step(w, Apologized(segment))
    case Some(text) =>
      Step(w.(users := w.users[m.authorId := Record(user, segment, m.guildId, now)]),
           Replied(segment, BuildContext(user, settings, segment), text))
  }

  /** After the user record exists, only a successful reply writes, and only that user's log. */
  lemma AnswerWrites(w: World, m: Incoming, o: Oracle, now: int, settings: Option<Guild>, user: User)
    ensures var st := Answer(w, m, o, now, settings, user);
      (st.outcome.Replied? ==> st.world == w.(users := w.users[m.authorId := Record(user, st.outcome.segment, m.guildId, now)])) &&
      (!st.outcome.Replied? ==> st.world == w)
  {
  }

  /** A reply or an apology answers the first segment that responds, from the prompt for that segment. */
  lemma AnswerFirstSegment(w: World, m: Incoming, o: Oracle, now: int, settings: Option<Guild>, user: User)
    ensures var out := Answer(w, m, o, now, settings, user).outcome;
      var segs := Segments(m.content);
      (out.Replied? || out.Apologized?) ==>
        exists k :: 0 <= k < |segs| && out.segment == segs[k] && Responds(m, o.verdict(k)) &&
          (forall j :: 0 <= j < k ==> !Responds(m, o.verdict(j))) &&
          (out.Replied? ==> out.context == BuildContext(user, settings, segs[k]))
    ensures Answer(w, m, o, now, settings, user).outcome == Silent ==>
      forall j :: 0 <= j < |Segments(m.content)| ==> !Responds(m, o.verdict(j))
  {
    var segs := Segments(m.content);
    var request := o.imageMatch(BotName(settings));
    if !(request.Some? && ImageEnabled(settings)) {
      var k := FirstResponding(segs, m, o.verdict, 0);
      if k.Some? {
        assert segs[k.value] == segs[k.value];
      }
    }
  }

  /** A message is ignored, with nothing written, exactly when it is a bot's or its guild does not admit it. */
  lemma GateIgnores(w: World, m: Incoming, o: Oracle, now: int)
    ensures HandleMessage(w, m, o, now).outcome == Ignored <==> Dropped(w, m)
    ensures Dropped(w, m) ==> HandleMessage(w, m, o, now).world == w
  {
  }

  /** In a direct message the bot is Kohana and image generation is on, so a matching request is always served. */
  lemma DirectMessageImage(w: World, m: Incoming, o: Oracle, now: int)
    requires !m.fromBot && m.guildId.None? && m.authorId in w.users
    requires o.imageMatch(DefaultBotName).Some?
    ensures HandleMessage(w, m, o, now).outcome ==
            (if o.imageOk then ImageSent(o.imageMatch(DefaultBotName).value) else ImageApology)
  {
  }

  /** A guild with image generation off never serves an image request. */
  lemma ImageNeedsFlag(w: World, m: Incoming, o: Oracle, now: int)
    requires m.guildId.Some? && m.guildId.value in w.guilds && !w.guilds[m.guildId.value].imageGeneration
    ensures !HandleMessage(w, m, o, now).outcome.ImageSent?
    ensures !HandleMessage(w, m, o, now).outcome.ImageApology?
  {
  }

  /**
   * At most one reply: a reply or an apology is for the first segment that responds, none before
   * it does, and the reply was generated from the prompt for that segment and the log before it.
   */
  lemma ReplyIsFirstResponding(w: World, m: Incoming, o: Oracle, now: int)
    requires !Dropped(w, m) && m.authorId in w.users
    ensures var out := HandleMessage(w, m, o, now).outcome;
      var segs := Segments(m.content);
      (out.Replied? || out.Apologized?) ==>
        exists k :: 0 <= k < |segs| && out.segment == segs[k] && Responds(m, o.verdict(k)) &&
          (forall j :: 0 <= j < k ==> !Responds(m, o.verdict(j))) &&
          (out.Replied? ==> out.context == BuildContext(w.users[m.authorId], SettingsFor(w, m), segs[k]))
    ensures HandleMessage(w, m, o, now).outcome == Silent ==>
      forall j :: 0 <= j < |Segments(m.content)| ==> !Responds(m, o.verdict(j))
  {
    var user := w.users[m.authorId];
    AnswerFirstSegment(w.(users := w.users[m.authorId := user]), m, o, now, SettingsFor(w, m), user);
  }

  /**
   * The log changes only on a successful reply, and then by exactly one appended entry; every
   * other user and every guild stay as they were.
   */
  lemma HistoryOnlyOnReply(w: World, m: Incoming, o: Oracle, now: int)
    requires !Dropped(w, m) && m.authorId in w.users
    ensures var st := HandleMessage(w, m, o, now);
      var before := w.users[m.authorId].history;
      st.world.guilds == w.guilds &&
      (forall u :: u in w.users && u != m.authorId ==> u in st.world.users && st.world.users[u] == w.users[u]) &&
      (st.outcome.Replied? ==>
         st.world.users[m.authorId].history == AppendHistory(before, HistoryEntry(st.outcome.segment, now, m.guildId))) &&
      (!st.outcome.Replied? ==> st.world.users[m.authorId] == w.users[m.authorId])
  {
    var user := w.users[m.authorId];
    assert w.users[m.authorId := user] == w.users;
    AnswerWrites(w.(users := w.users[m.authorId := user]), m, o, now, SettingsFor(w, m), user);
  }

  /** Every user's log holds at most 50 entries. */
  predicate Bounded(w: World) {
    forall u :: u in w.users ==> |w.users[u].history| <= HistoryCap
  }

  /** Handling a message keeps every log within 50 entries. */
  lemma HistoryStaysBounded(w: World, m: Incoming, o: Oracle, now: int)
    requires Bounded(w)
    ensures Bounded(HandleMessage(w, m, o, now).world)
  {
    var st := HandleMessage(w, m, o, now);
    if !Dropped(w, m) {
      var user := UserFor(w, m, now);
      if !(m.authorId !in w.users && UserErrors(user) != {}) {
        var w1 := w.(users := w.users[m.authorId := user]);
        var settings := SettingsFor(w, m);
        assert st == Answer(w1, m, o, now, settings, user);
        AnswerWrites(w1, m, o, now, settings, user);
        assert |user.history| <= HistoryCap;
        if st.outcome.Replied? {
          AppendHistoryBounded(user.history, HistoryEntry(st.outcome.segment, now, m.guildId));
        }
        forall u | u in st.world.users ensures |st.world.users[u].history| <= HistoryCap {
          if u != m.authorId {
            assert st.world.users[u] == w.users[u];
          }
        }
      }
    }
  }
}

=== FILE: models.dfy ===
/**
 * The two Mongoose models the message handler of `handlers/` reads and writes: a guild's bot
 * settings (`models/Guild.js`) and a user's preferences and conversation log (`models/User.js`).
 *
 * A document is a record; a collection is a map keyed by the field the schema declares `unique`,
 * so a lookup by that field finds at most one document. Mongoose's validators become
 * `GuildErrors`/`UserErrors`, the set of paths whose validator fails when the document is saved.
 * `maxlength` compares JavaScript's `length`, so lengths are counted in UTF-16 code units.
 * The `timestamps` option (`createdAt`/`updatedAt`) is not modelled.
 */
module Models {
  import opened Wrappers
  import opened Text

  const BotNameMax: nat := 10
  const TextFieldMax: nat := 1000
  const Genders: seq<string> := ["male", "female", "transgender"]

  datatype Guild = Guild(
    guildId: string,
    botName: string,
    botAge: int,
    botGender: string,
    botMood: seq<string>,
    customBehavior: string,
    customPersonality: string,
    imageGeneration: bool,
    webSearch: bool,
    allowedChannels: seq<string>,
    roleId: Option<string>,
    uniqueId: string)

  /** One line of a user's conversation log; `guildId` is `null` for a direct message. */
  datatype HistoryEntry = HistoryEntry(message: string, timestamp: int, guildId: Option<string>)

  datatype User = User(
    userId: string,
    username: string,
    mood: seq<string>,
    customInstructions: string,
    preferredName: string,
    history: seq<HistoryEntry>,
    lastInteraction: int)

  /** `new Guild({ guildId, uniqueId })`: every other field takes its schema default. */
  function NewGuild(guildId: string, uniqueId: string): Guild {
    Guild(guildId, "Kohana", 15, "female", ["cheerful", "friendly"], "", "", false, false, [], None, uniqueId)
  }

  /** `new User({ userId, username })` created at `now`: `lastInteraction` defaults to `Date.now`. */
  function NewUser(userId: string, username: string, now: int): User {
    User(userId, username, [], "", "", [], now)
  }

  /**
   * The paths whose validator rejects a guild. A required string must be non-empty, `maxlength`
   * bounds the length and `enum` restricts the gender to the three listed values.
   */
  function GuildErrors(g: Guild): set<string> {
    (if g.guildId == "" then {"guildId"} else {}) +
    (if Utf16Length(g.botName) > BotNameMax then {"botName"} else {}) +
    (if g.botGender !in Genders then {"botGender"} else {}) +
    (if Utf16Length(g.customBehavior) > TextFieldMax then {"customBehavior"} else {}) +
    (if Utf16Length(g.customPersonality) > TextFieldMax then {"customPersonality"} else {}) +
    (if g.uniqueId == "" then {"uniqueId"} else {})
  }

  /** The paths whose validator rejects a user. */
  function UserErrors(u: User): set<string> {
    (if u.userId == "" then {"userId"} else {}) +
    (if u.username == "" then {"username"} else {}) +
    (if Utf16Length(u.customInstructions) > TextFieldMax then {"preferences.customInstructions"} else {})
  }

  /**
   * A guild saves exactly when its name, gender and free-text fields are within bounds and both
   * ids are given; the bounds are in UTF-16 code units.
   */
  lemma GuildValidIff(g: Guild)
    ensures GuildErrors(g) == {} <==>
      g.guildId != "" && g.uniqueId != "" && Utf16Length(g.botName) <= BotNameMax &&
      (g.botGender == "male" || g.botGender == "female" || g.botGender == "transgender") &&
      Utf16Length(g.customBehavior) <= TextFieldMax && Utf16Length(g.customPersonality) <= TextFieldMax
  {
    if GuildErrors(g) == {} {
      assert "botGender" !in GuildErrors(g);
    }
    if g.botGender == "male" || g.botGender == "female" || g.botGender == "transgender" {
      assert g.botGender in Genders;
    }
  }

  /** The defaults satisfy the schema's own validators, so a guild created with both ids saves. */
  lemma NewGuildDefaults(guildId: string, uniqueId: string)
    requires guildId != "" && uniqueId != ""
    ensures var g := NewGuild(guildId, uniqueId);
      GuildErrors(g) == {} && Utf16Length(g.botName) == 6 &&
      g.botAge == 15 && g.botGender == "female" && g.botMood == ["cheerful", "friendly"] &&
      !g.imageGeneration && !g.webSearch && g.allowedChannels == [] && g.roleId == None &&
      g.customBehavior == "" && g.customPersonality == ""
  {
    assert NewGuild(guildId, uniqueId).botGender == Genders[1];
    Utf16LengthBmp("Kohana");
  }

  /** A guild missing its `guildId` or its `uniqueId` is refused, whatever its other fields hold. */
  lemma GuildIdsRequired(g: Guild)
    ensures g.guildId == "" ==> "guildId" in GuildErrors(g)
    ensures g.uniqueId == "" ==> "uniqueId" in GuildErrors(g)
  {
  }

  /** A user saves exactly when both ids are given and the instructions fit in 1000 UTF-16 code units. */
  lemma UserValidIff(u: User)
    ensures UserErrors(u) == {} <==> u.userId != "" && u.username != "" && Utf16Length(u.customInstructions) <= TextFieldMax
  {
    if u.userId == "" { assert "userId" in UserErrors(u); }
    if u.username == "" { assert "username" in UserErrors(u); }
  }

  /** A new user saves exactly when both ids are non-empty, and starts with empty preferences and log. */
  lemma NewUserDefaults(userId: string, username: string, now: int)
    ensures var u := NewUser(userId, username, now);
      (UserErrors(u) == {} <==> userId != "" && username != "") &&
      u.mood == [] && u.customInstructions == "" && u.preferredName == "" && u.history == [] &&
      u.lastInteraction == now
  {
    UserValidIff(NewUser(userId, username, now));
  }

  /**
   * Instructions of 600 characters above U+FFFF, such as emoji, are 1200 code units long and
   * are refused, although they are fewer than 1000 characters.
   */
  lemma UserLimitCountsCodeUnits(u: User)
    requires |u.customInstructions| == 600
    requires forall i :: 0 <= i < 600 ==> u.customInstructions[i] as int > 0xFFFF
    ensures "preferences.customInstructions" in UserErrors(u)
  {
    WideCharsCountTwice(u.customInstructions);
  }
}

=== FILE: mongo_store.dfy ===
/**
 * The Mongoose store of the `src/` variant (`src/database/mongo.js`): settings documents keyed
 * by the context id (a guild id, or a user id for direct messages) and chat histories keyed by
 * context, user and the DM flag.
 *
 * Every call is one atomic step on the in-memory collections. `up` is false when the database
 * call throws; each operation then takes its `catch` branch.
 */
module MongoStore {
  import opened Wrappers
  import opened Docs
  import opened Lists
  import opened Schemas

  datatype HistoryKey = HistoryKey(contextId: string, userId: string, isDm: bool)

  /**
   * The settings documents, the order they were inserted in (the order an unsorted `findOne`
   * scans), and the chat histories.
   */
  datatype Store = Store(settings: map<string, Doc>, order: seq<string>, histories: map<HistoryKey, seq<HistoryEntry>>)

  /** The insertion order lists every settings document once. */
  ghost predicate Valid(st: Store) {
    NoDup(st.order) && forall id :: id in st.settings <==> id in st.order
  }

  /** Writes a settings document, recording the id in the insertion order when it is new. */
  function PutSettings(st: Store, id: string, doc: Doc): Store {
    st.(settings := st.settings[id := doc], order := if id in st.settings then st.order else st.order + [id])
  }

  lemma PutSettingsValid(st: Store, id: string, doc: Doc)
    requires Valid(st)
    ensures Valid(PutSettings(st, id, doc))
  {
    if id !in st.settings {
      AppendAbsentNoDup(st.order, id);
    }
  }

  /** `findById(id).lean()`: the stored document, or `null` when there is none or the read throws. */
  function FindById(st: Store, id: string, up: bool): Option<Doc> {
    if up && id in st.settings then Some(st.settings[id]) else None
  }

  /** The document an upsert creates: the schema defaults with the id. */
  function Inserted(id: string): Doc {
    SettingsDefaults[Id := Str(id)]
  }

  /**
   * `findOneAndUpdate({_id: id}, {...data, isDM, $setOnInsert: {_id, defaultInstructions}}, {upsert})`.
   * A field that is both set and set-on-insert is a conflict the server refuses, so data that
   * carries `defaultInstructions` (or `_id`) makes the call fail and return `null`.
   */
  function UpdateBotPersonality(st: Store, id: string, data: Doc, isDm: bool, up: bool): (Store, Option<Doc>) {
    if !up || DefaultInstructions in data || Id in data then (st, None)
    else
      var base := if id in st.settings then st.settings[id] else Inserted(id)[DefaultInstructions := Str(FixedInstructions)];
      var doc := base + data[IsDm := Bool(isDm)];
      (PutSettings(st, id, doc), Some(doc))
  }

  /** The same update with the set-on-insert part limited to the fields `data` does not supply. */
  function UpdateBotPersonalityFixed(st: Store, id: string, data: Doc, isDm: bool, up: bool): (Store, Option<Doc>) {
    if !up || Id in data then (st, None)
    else
      var base := if id in st.settings then st.settings[id] else Inserted(id)[DefaultInstructions := Str(FixedInstructions)];
      var doc := base + data[IsDm := Bool(isDm)];
      (PutSettings(st, id, doc), Some(doc))
  }

  /**
   * An update stores and returns the document with every supplied field and the DM flag set and
   * all other fields kept (the schema defaults and the fixed instructions on insert).
   */
  lemma UpdateBotPersonalityWrites(st: Store, id: string, data: Doc, isDm: bool)
    requires Id !in data && DefaultInstructions !in data
    ensures var (st1, r) := UpdateBotPersonality(st, id, data, isDm, true);
            r.Some? && st1.settings == st.settings[id := r.value] &&
            Get(r.value, IsDm) == Some(Bool(isDm)) &&
            (forall k :: k in data && k != IsDm ==> Get(r.value, k) == Some(data[k])) &&
            (id in st.settings ==> forall k :: k in st.settings[id] && k !in data && k != IsDm ==> Get(r.value, k) == Some(st.settings[id][k])) &&
            (id !in st.settings ==> Get(r.value, Id) == Some(Str(id)) && Get(r.value, DefaultInstructions) == Some(Str(FixedInstructions)))
  {
  }

  /**
   * Data that carries `defaultInstructions`, as the personality form sends, never reaches the
   * store as written; with the conflict removed it is stored, instructions included.
   */
  lemma PersonalityUpdateConflicts(st: Store, id: string, data: Doc, isDm: bool)
    requires DefaultInstructions in data && Id !in data
    ensures UpdateBotPersonality(st, id, data, isDm, true) == (st, None)
    ensures var (st1, r) := UpdateBotPersonalityFixed(st, id, data, isDm, true);
            r.Some? && id in st1.settings && Get(st1.settings[id], DefaultInstructions) == Some(data[DefaultInstructions])
  {
  }

  /** The corrected update stores every supplied field, `defaultInstructions` included, and the DM flag. */
  lemma UpdateBotPersonalityFixedWrites(st: Store, id: string, data: Doc, isDm: bool)
    requires Id !in data
    ensures var (st1, r) := UpdateBotPersonalityFixed(st, id, data, isDm, true);
            r.Some? && st1.settings == st.settings[id := r.value] &&
            Get(r.value, IsDm) == Some(Bool(isDm)) &&
            (forall k :: k in data && k != IsDm ==> Get(r.value, k) == Some(data[k]))
  {
  }

  /** Both versions agree whenever the data does not name a set-on-insert field. */
  lemma FixedAgreesWithoutConflict(st: Store, id: string, data: Doc, isDm: bool, up: bool)
    requires DefaultInstructions !in data
    ensures UpdateBotPersonalityFixed(st, id, data, isDm, up) == UpdateBotPersonality(st, id, data, isDm, up)
  {
  }

  /** `findByIdAndUpdate(guildId, {allowedChannels}, {upsert})`: the list is replaced wholesale. */
  function UpdateAllowedChannels(st: Store, guildId: string, channels: seq<string>, up: bool): (Store, Option<Doc>) {
    if !up then (st, None)
    else
      var base := if guildId in st.settings then st.settings[guildId] else Inserted(guildId);
      var doc := base[AllowedChannels := Strs(channels)];
      (PutSettings(st, guildId, doc), Some(doc))
  }

  /** After the update the stored list is exactly the given one, and no other field or document changed. */
  lemma UpdateAllowedChannelsReplaces(st: Store, guildId: string, channels: seq<string>)
    ensures var (st1, r) := UpdateAllowedChannels(st, guildId, channels, true);
            r.Some? && FindById(st1, guildId, true) == r &&
            ChannelList(r.value) == Some(channels) &&
            (guildId in st.settings ==> forall k :: k in st.settings[guildId] && k != AllowedChannels ==> Get(r.value, k) == Some(st.settings[guildId][k])) &&
            (forall g :: g != guildId ==> FindById(st1, g, true) == FindById(st, g, true)) &&
            st1.histories == st.histories
  {
  }

  /** The `defaultInstructions` of the first document, in insertion order, that has the field. */
  function FirstInstructions(order: seq<string>, settings: map<string, Doc>): (r: Option<Value>)
    ensures r.None? <==> forall i :: 0 <= i < |order| ==> order[i] !in settings || DefaultInstructions !in settings[order[i]]
  {
    if |order| == 0 then None
    else if order[0] in settings && DefaultInstructions in settings[order[0]] then Some(settings[order[0]][DefaultInstructions])
    else FirstInstructions(order[1..], settings)
  }

  /** A stored document's `defaultInstructions`, or the fixed text when none has one or the read throws. */
  function GetBotDefaultInstructions(st: Store, up: bool): Value {
    if !up then Str(FixedInstructions)
    else match FirstInstructions(st.order, st.settings)
      case Some(v) => v
      case None => Str(FixedInstructions)
  }

  /**
   * The default instructions are the fixed text unless some stored document has the field, and
   * otherwise come from the earliest such document.
   */
  lemma {:induction false} FirstInstructionsIsEarliest(order: seq<string>, settings: map<string, Doc>)
    requires FirstInstructions(order, settings).Some?
    ensures exists i ::
              0 <= i < |order| && order[i] in settings && DefaultInstructions in settings[order[i]] &&
              FirstInstructions(order, settings) == Some(settings[order[i]][DefaultInstructions]) &&
              (forall j :: 0 <= j < i ==> order[j] !in settings || DefaultInstructions !in settings[order[j]])
  {
    if order[0] in settings && DefaultInstructions in settings[order[0]] {
      assert 0 < |order|;
    } else {
      FirstInstructionsIsEarliest(order[1..], settings);
      var i :| 0 <= i < |order[1..]| && order[1..][i] in settings && DefaultInstructions in settings[order[1..][i]] &&
        FirstInstructions(order[1..], settings) == Some(settings[order[1..][i]][DefaultInstructions]) &&
        (forall j :: 0 <= j < i ==> order[1..][j] !in settings || DefaultInstructions !in settings[order[1..][j]]);
      assert order[i + 1] == order[1..][i];
      forall j | 0 <= j < i + 1
        ensures order[j] !in settings || DefaultInstructions !in settings[order[j]]
      {
        if j > 0 { assert order[j] == order[1..][j - 1]; }
      }
    }
  }

  /** A store none of whose documents has the field answers with the fixed text, as does a failed read. */
  lemma DefaultInstructionsFallback(st: Store, up: bool)
    requires Valid(st)
    requires !up || forall id :: id in st.settings ==> DefaultInstructions !in st.settings[id]
    ensures GetBotDefaultInstructions(st, up) == Str(FixedInstructions)
  {
  }

  /** The history of one (context, user, DM flag) triple; absent reads as empty. */
  function HistoryOf(st: Store, key: HistoryKey): seq<HistoryEntry> {
    if key in st.histories then st.histories[key] else []
  }

  /** `history.slice(-limit)` of the matching document, or `[]` when there is none or the read throws. */
  function GetChatHistory(st: Store, contextId: string, userId: string, isDm: bool, limit: nat, up: bool): seq<HistoryEntry> {
    var key := HistoryKey(contextId, userId, isDm);
    if up && key in st.histories then SliceFrom(st.histories[key], 0 - limit) else []
  }

  /** The default read returns the last ten entries, or all of them when there are fewer. */
  lemma GetChatHistoryLast(st: Store, contextId: string, userId: string, isDm: bool, limit: nat)
    ensures limit >= 1 ==> GetChatHistory(st, contextId, userId, isDm, limit, true) == TakeLast(HistoryOf(st, HistoryKey(contextId, userId, isDm)), limit)
    ensures limit == 0 ==> GetChatHistory(st, contextId, userId, isDm, limit, true) == HistoryOf(st, HistoryKey(contextId, userId, isDm))
    ensures GetChatHistory(st, contextId, userId, isDm, limit, false) == []
  {
    var key := HistoryKey(contextId, userId, isDm);
    if key in st.histories {
      SliceFromNegative(st.histories[key], limit);
    }
  }

  /** `$push` of one `{role, parts: [{text}]}` onto the matching history, creating it when absent. */
  function SaveChatHistory(st: Store, contextId: string, userId: string, isDm: bool, role: string, text: string, up: bool): Store {
    var key := HistoryKey(contextId, userId, isDm);
    if !up then st
    else st.(histories := st.histories[key := HistoryOf(st, key) + [HistoryEntry(role, [Part(text)])]])
  }

  /** A save appends exactly one entry to the one history; nothing is trimmed and nothing else changes. */
  lemma SaveAppendsOne(st: Store, contextId: string, userId: string, isDm: bool, role: string, text: string)
    ensures var key := HistoryKey(contextId, userId, isDm);
            var st1 := SaveChatHistory(st, contextId, userId, isDm, role, text, true);
            HistoryOf(st1, key) == HistoryOf(st, key) + [HistoryEntry(role, [Part(text)])] &&
            (forall k :: k != key ==> HistoryOf(st1, k) == HistoryOf(st, k)) &&
            st1.settings == st.settings && st1.order == st.order
  {
  }

  /** A save of a user or bot turn with non-empty text keeps a history the schema accepts acceptable. */
  lemma SaveKeepsEntriesValid(st: Store, contextId: string, userId: string, isDm: bool, role: string, text: string)
    requires var h := HistoryOf(st, HistoryKey(contextId, userId, isDm)); forall i :: 0 <= i < |h| ==> ValidEntry(h[i])
    requires (role == "user" || role == "bot") && text != ""
    ensures var h := HistoryOf(SaveChatHistory(st, contextId, userId, isDm, role, text, true), HistoryKey(contextId, userId, isDm));
            forall i :: 0 <= i < |h| ==> ValidEntry(h[i])
  {
    SaveAppendsOne(st, contextId, userId, isDm, role, text);
  }

  /**
   * The update runs no validators, so a turn with empty text is stored although the schema's
   * `required` text refuses it.
   */
  lemma SaveSkipsValidation(st: Store, contextId: string, userId: string, isDm: bool, role: string)
    ensures var h := HistoryOf(SaveChatHistory(st, contextId, userId, isDm, role, "", true), HistoryKey(contextId, userId, isDm));
            |h| >= 1 && !ValidEntry(h[|h| - 1])
  {
    SaveAppendsOne(st, contextId, userId, isDm, role, "");
    var h := HistoryOf(SaveChatHistory(st, contextId, userId, isDm, role, "", true), HistoryKey(contextId, userId, isDm));
    assert Part("") in h[|h| - 1].parts;
  }

  /** A read with the default limit after a save ends with the saved entry. */
  lemma ReadAfterSave(st: Store, contextId: string, userId: string, isDm: bool, role: string, text: string)
    ensures var h := GetChatHistory(SaveChatHistory(st, contextId, userId, isDm, role, text, true), contextId, userId, isDm, 10, true);
            |h| >= 1 && h[|h| - 1] == HistoryEntry(role, [Part(text)])
  {
    var st1 := SaveChatHistory(st, contextId, userId, isDm, role, text, true);
    SaveAppendsOne(st, contextId, userId, isDm, role, text);
    GetChatHistoryLast(st1, contextId, userId, isDm, 10);
  }

  /** Whether `deleteOne({_id: id, isDM})` matches the document. */
  predicate SettingsMatch(st: Store, id: string, isDm: bool) {
    id in st.settings && Get(st.settings[id], IsDm) == Some(Bool(isDm))
  }

  /**
   * Deletes the settings for `(id, isDM)` and every history of that context and flag; true on
   * success, false when a call throws.
   */
  function ClearAllData(st: Store, id: string, isDm: bool, up: bool): (Store, bool) {
    if !up then (st, false)
    else
      var settings := if SettingsMatch(st, id, isDm) then st.settings - {id} else st.settings;
      var order := if SettingsMatch(st, id, isDm) then Without(st.order, [id]) else st.order;
      var histories := map k | k in st.histories && !(k.contextId == id && k.isDm == isDm) :: st.histories[k];
      (Store(settings, order, histories), true)
  }

  /**
   * A successful clear leaves no history of the context and flag, keeps every other history, and
   * removes the settings exactly when their DM flag matches; the insertion order stays consistent.
   */
  lemma ClearAllDataRemoves(st: Store, id: string, isDm: bool)
    requires Valid(st)
    ensures var (st1, ok) := ClearAllData(st, id, isDm, true);
            ok && Valid(st1) &&
            (forall k: HistoryKey :: k.contextId == id && k.isDm == isDm ==> HistoryOf(st1, k) == []) &&
            (forall k: HistoryKey :: !(k.contextId == id && k.isDm == isDm) ==> HistoryOf(st1, k) == HistoryOf(st, k)) &&
            (id in st1.settings <==> id in st.settings && !SettingsMatch(st, id, isDm)) &&
            (forall g :: g != id ==> FindById(st1, g, true) == FindById(st, g, true))
    ensures ClearAllData(st, id, isDm, false) == (st, false)
  {
    var (st1, _) := ClearAllData(st, id, isDm, true);
    if SettingsMatch(st, id, isDm) {
      WithoutNoDup(st.order, [id]);
      WithoutSpec(st.order, [id]);
    }
  }
}

=== FILE: reply_filter.dfy ===
/**
 * The reply filter of the root variant (`utils/replyFiter.js`): a classifier call behind a
 * cache with a five-minute lifetime, the fallback used when the call throws, and the batch loop
 * that stops at the first message worth answering.
 *
 * The classifier's answer, the clock and the random draw are inputs of each call; the prompt
 * text is left out.
 */
module ReplyFilter {
  import opened Wrappers
  import opened Text
  import Gemini

  const CacheTimeout: int := 300000
  const CacheLimit: nat := 1000

  /** The call's context object; an absent flag reads as false and an absent or empty name as "Kohana". */
  datatype Context = Context(isMentioned: bool, isReply: bool, botName: Option<string>)

  /**
   * A cache key: the normalised message and the three context fields. The source serialises
   * them into one string; the model keeps the components.
   */
  datatype CacheKey = CacheKey(text: string, isMentioned: bool, isReply: bool, botName: string)

  datatype Entry = Entry(shouldReply: bool, timestamp: int)

  type Cache = map<CacheKey, Entry>

  /** What the outside world supplies for one message: the time, the classifier's text (`None` when it throws) and a random draw in [0, 1). */
  datatype Answer = Answer(now: int, response: Option<string>, draw: real)

  /**
   * `message.toLowerCase().trim()`, computed as trim-then-lower: lower-casing neither makes nor
   * unmakes whitespace, so the two orders agree (`Text.TrimLowerCommute`).
   */
  function Normal(message: string): string {
    Lower(Trim(message))
  }

  function BotName(ctx: Context): string {
    if ctx.botName.Some? && ctx.botName.value != "" then ctx.botName.value else "Kohana"
  }

  function KeyOf(message: string, ctx: Context): CacheKey {
    CacheKey(Normal(message), ctx.isMentioned, ctx.isReply, BotName(ctx))
  }

  /** Messages that differ only in case or surrounding whitespace share a cache entry; the defaults fill the context. */
  lemma KeyIgnoresCaseAndSpace(a: string, b: string, ctx: Context)
    requires Normal(a) == Normal(b)
    ensures KeyOf(a, ctx) == KeyOf(b, ctx)
    ensures KeyOf(a, Context(false, false, None)) == CacheKey(Normal(a), false, false, "Kohana")
  {
    var n := Normal(a);
    assert KeyOf(a, ctx) == CacheKey(n, ctx.isMentioned, ctx.isReply, BotName(ctx));
  }

  /** `analyzeMessage`: yes exactly when the trimmed, upper-cased answer is the word YES and nothing else. */
  predicate Analyze(response: string) {
    Upper(Trim(response)) == "YES"
  }

  /** Whatever the exact test accepts, the substring test of the `src/` variant's classifier accepts too. */
  lemma AnalyzeImpliesSubstring(response: string)
    ensures Analyze(response) ==> Gemini.DecideToReply(Some(response))
  {
    var u := Upper(Trim(response));
    if u == "YES" {
      ContainsAt(u, "YES", 0);
    }
  }

  /** The converse fails: an answer that merely contains YES is refused by the exact test. */
  lemma SubstringAcceptsMore()
    ensures !Analyze("YES!") && Gemini.DecideToReply(Some("YES!"))
  {
    TrimOfTrimmed("YES!");
    assert Upper("YES!") == "YES!";
    ContainsAt("YES!", "YES", 0);
  }

  const Greetings: seq<string> := ["hi", "hello", "hey", "yo", "sup"]
  const EmotionalWords: seq<string> := ["sad", "happy", "excited", "angry", "worried", "tired", "bored", "lonely"]

  /** `words.some(word => msg.includes(word))`. */
  predicate ContainsAny(msg: string, words: seq<string>) {
    |words| > 0 && (Contains(msg, words[0]) || ContainsAny(msg, words[1..]))
  }

  /** `getFallbackDecision`, with the random draw as a parameter. */
  predicate Fallback(message: string, ctx: Context, draw: real) {
    var msg := Normal(message);
    if ctx.isMentioned || ctx.isReply then draw > 0.3
    else if Contains(msg, "?") then draw > 0.4
    else if Utf16Length(msg) < 3 then false
    else if msg in Greetings then draw > 0.8
    else if ContainsAny(msg, EmotionalWords) then draw > 0.3
    else draw > 0.7
  }

  /**
   * Without a mention or reply, a message shorter than three UTF-16 code units with no question
   * mark is never answered; so the two-letter greetings "hi" and "yo" never reach the greeting rule.
   */
  lemma FallbackShortMessages(message: string, ctx: Context, draw: real)
    ensures !ctx.isMentioned && !ctx.isReply && !Contains(Normal(message), "?") && Utf16Length(Normal(message)) < 3 ==>
              !Fallback(message, ctx, draw)
    ensures !ctx.isMentioned && !ctx.isReply ==> !Fallback("hi", ctx, draw) && !Fallback("yo", ctx, draw)
  {
    LowerWordNormal("hi");
    LowerWordNormal("yo");
    Utf16LengthBmp("hi");
    Utf16LengthBmp("yo");
    NotContainsChar("hi", '?');
    NotContainsChar("yo", '?');
    assert "?" == ['?'];
  }

  /**
   * The length rule counts code units: two emoji are four units, so without a mention or reply
   * they pass it and are answered on the general odds, although they are two characters.
   */
  lemma FallbackTwoEmoji(ctx: Context, draw: real)
    requires !ctx.isMentioned && !ctx.isReply
    ensures |"\U{1F44D}\U{1F44D}"| == 2
    ensures Fallback("\U{1F44D}\U{1F44D}", ctx, draw) == (draw > 0.7)
  {
    var m := "\U{1F44D}\U{1F44D}";
    TrimOfTrimmed(m);
    assert Lower(m) == m;
    NotContainsChar(m, '?');
    assert "?" == ['?'];
    WideCharsCountTwice(m);
    assert m !in Greetings;
    NoLongerWordContained(m, EmotionalWords);
  }

  /** A message contains none of a list of words that are all longer than it. */
  lemma {:induction false} NoLongerWordContained(msg: string, words: seq<string>)
    requires forall i :: 0 <= i < |words| ==> |words[i]| > |msg|
    ensures !ContainsAny(msg, words)
  {
    if |words| > 0 {
      if Contains(msg, words[0]) {
        ContainsNoLonger(msg, words[0]);
      }
      NoLongerWordContained(msg, words[1..]);
    }
  }

  /** A word of lower-case letters is its own normal form. */
  lemma LowerWordNormal(w: string)
    requires forall k :: 0 <= k < |w| ==> 'a' <= w[k] <= 'z'
    ensures Normal(w) == w
  {
    LowerWordUnchanged(w);
    TrimOfTrimmed(w);
  }

  lemma LowerWordUnchanged(w: string)
    requires forall k :: 0 <= k < |w| ==> 'a' <= w[k] <= 'z'
    ensures Lower(w) == w
  {
  }

  /** `cleanupCache`: above the size limit, drop the entries older than the timeout. */
  function Cleanup(cache: Cache, now: int): Cache {
    if |cache| > CacheLimit then map k | k in cache && !(now - cache[k].timestamp > CacheTimeout) :: cache[k]
    else cache
  }

  /** Cleanup changes nothing up to the limit, and above it removes exactly the stale entries. */
  lemma CleanupRemovesStale(cache: Cache, now: int)
    ensures |cache| <= CacheLimit ==> Cleanup(cache, now) == cache
    ensures forall k :: k in Cleanup(cache, now) ==> k in cache && Cleanup(cache, now)[k] == cache[k]
    ensures |cache| > CacheLimit ==>
              forall k :: k in cache ==> (k in Cleanup(cache, now) <==> now - cache[k].timestamp <= CacheTimeout)
  {
  }

  /** `shouldReplyToMessage`: the new cache and the decision. */
  function ShouldReply(cache: Cache, message: string, ctx: Context, a: Answer): (Cache, bool) {
    var key := KeyOf(message, ctx);
    if key in cache && a.now - cache[key].timestamp < CacheTimeout then (cache, cache[key].shouldReply)
    else
      var pruned := cache - {key};
      match a.response
      case None => (pruned, Fallback(message, ctx, a.draw))
      case Some(r) => (Cleanup(pruned[key := Entry(Analyze(r), a.now)], a.now), Analyze(r))
  }

  /** A fresh cache entry answers without consulting the classifier, and nothing changes. */
  lemma FreshEntryAnswers(cache: Cache, message: string, ctx: Context, a: Answer)
    requires KeyOf(message, ctx) in cache && a.now - cache[KeyOf(message, ctx)].timestamp < CacheTimeout
    ensures ShouldReply(cache, message, ctx, a) == (cache, cache[KeyOf(message, ctx)].shouldReply)
  {
  }

  /**
   * Without a fresh entry, a classifier answer decides and is cached with the current time,
   * replacing any stale entry; a thrown call decides by the fallback and caches nothing.
   */
  lemma MissConsultsClassifier(cache: Cache, message: string, ctx: Context, a: Answer)
    requires !(KeyOf(message, ctx) in cache && a.now - cache[KeyOf(message, ctx)].timestamp < CacheTimeout)
    ensures var key := KeyOf(message, ctx);
            var (c, d) := ShouldReply(cache, message, ctx, a);
            (a.response.Some? ==> d == Analyze(a.response.value) && key in c && c[key] == Entry(d, a.now)) &&
            (a.response.None? ==> d == Fallback(message, ctx, a.draw) && key !in c) &&
            (forall k :: k in c && k != key ==> k in cache && c[k] == cache[k])
  {
    var key := KeyOf(message, ctx);
    if a.response.Some? {
      var m := (cache - {key})[key := Entry(Analyze(a.response.value), a.now)];
      CleanupRemovesStale(m, a.now);
    }
  }

  /** How one message is decided: from the cache and the outside world's answer to a new cache and a verdict. */
  type Turn = (Cache, string, Answer) -> (Cache, bool)

  /** `shouldReply` for a fixed context, as a turn of the batch. */
  function Decide(ctx: Context): Turn {
    (c, m, a) => ShouldReply(c, m, ctx, a)
  }

  /**
   * The batch loop's meaning from message `i` on: answer in order and stop after the first
   * message worth a reply.
   */
  function Batch(turn: Turn, cache: Cache, messages: seq<string>, answers: seq<Answer>, i: nat): (seq<(string, bool)>, Cache)
    requires |answers| >= |messages| && i <= |messages|
    decreases |messages| - i
  {
    if i == |messages| then ([], cache)
    else
      var (c1, d) := turn(cache, messages[i], answers[i]);
      if d then ([(messages[i], true)], c1)
      else
        var (rs, c2) := Batch(turn, c1, messages, answers, i + 1);
        ([(messages[i], false)] + rs, c2)
  }

  /**
   * The batch names the messages in order, every answer before the last is a no, and it ends
   * before the last message only on a yes.
   */
  lemma {:induction false} BatchOrder(turn: Turn, cache: Cache, messages: seq<string>, answers: seq<Answer>, i: nat)
    requires |answers| >= |messages| && i <= |messages|
    ensures var rs := Batch(turn, cache, messages, answers, i).0;
            |rs| <= |messages| - i &&
            (forall j :: 0 <= j < |rs| ==> rs[j].0 == messages[i + j]) &&
            (forall j :: 0 <= j < |rs| - 1 ==> !rs[j].1) &&
            (|rs| < |messages| - i ==> |rs| > 0 && rs[|rs| - 1].1) &&
            (i < |messages| ==> |rs| > 0)
    decreases |messages| - i
  {
    if i < |messages| {
      var (c1, d) := turn(cache, messages[i], answers[i]);
      if !d {
        BatchOrder(turn, c1, messages, answers, i + 1);
      }
    }
  }

  /** `processMultipleMessages`: the loop computes the batch, threading the cache through the calls. */
  method ProcessMultipleMessages(cache: Cache, messages: seq<string>, ctx: Context, answers: seq<Answer>)
    returns (results: seq<(string, bool)>, cache': Cache)
    requires |answers| >= |messages|
    ensures (results, cache') == Batch(Decide(ctx), cache, messages, answers, 0)
  {
    results, cache' := RunBatch(Decide(ctx), cache, messages, answers);
  }

  /** The loop of `processMultipleMessages`, for any way of deciding one message. */
  method RunBatch(turn: Turn, cache: Cache, messages: seq<string>, answers: seq<Answer>)
    returns (results: seq<(string, bool)>, cache': Cache)
    requires |answers| >= |messages|
    ensures (results, cache') == Batch(turn, cache, messages, answers, 0)
  {
    results, cache' := [], cache;
    var i := 0;
    while i < |messages|
      invariant 0 <= i <= |messages|
      invariant Batch(turn, cache, messages, answers, 0).0 == results + Batch(turn, cache', messages, answers, i).0
      invariant Batch(turn, cache, messages, answers, 0).1 == Batch(turn, cache', messages, answers, i).1
    {
      var (c1, d) := turn(cache', messages[i], answers[i]);
      if d {
        results, cache' := results + [(messages[i], true)], c1;
        return;
      }
      results, cache' := results + [(messages[i], false)], c1;
      i := i + 1;
    }
    assert results + [] == results;
  }
}

=== FILE: schemas.dfy ===
/**
 * The two Mongoose schemas of the `src/` variant as validity predicates: the per-context
 * bot settings and the per-user chat history. Mongoose applies these checks on `save`
 * and, for updates, only with `runValidators`, which no call in the variant sets.
 */
module Schemas {
  import opened Wrappers
  import opened Docs
  import opened Text

  /** The instructions used when no stored settings document carries its own. */
  const FixedInstructions: string := "I'm Kohana Yuki, I live in Tokyo, and I like to watch anime and play games. I consider myself a human."

  const NameMaxLength: nat := 10
  const InstructionsMaxLength: nat := 1000

  predicate ValidGender(g: string) {
    g == "male" || g == "female" || g == "transgender"
  }

  /** The values a new settings document receives for the fields an insert does not supply. */
  const SettingsDefaults: Doc := map[
    IsDm := Bool(false),
    Name := Str("Kohana Yuki"),
    Age := Str("15"),
    Gender := Str("female"),
    Mood := Str("happy"),
    CustomInstructions := Str(""),
    DefaultInstructions := Str(FixedInstructions),
    ImageGenerationEnabled := Bool(false),
    WebSearchEnabled := Bool(false),
    AllowedChannels := Strs([])
  ]

  /** A string field no longer than `max` UTF-16 code units (JavaScript's `length`), when present. */
  predicate BoundedStr(d: Doc, k: Key, max: nat) {
    k in d ==> d[k].Str? && Utf16Length(d[k].s) <= max
  }

  /** A field of the given kind, when present. */
  predicate StrOrAbsent(d: Doc, k: Key) { k in d ==> d[k].Str? }
  predicate BoolOrAbsent(d: Doc, k: Key) { k in d ==> d[k].Bool? }

  /** A settings document the schema accepts; the required `_id` refuses the empty string. */
  predicate ValidSettings(d: Doc) {
    Id in d && d[Id].Str? && d[Id].s != "" &&
    BoolOrAbsent(d, IsDm) &&
    BoundedStr(d, Name, NameMaxLength) &&
    StrOrAbsent(d, Age) &&
    (Gender in d ==> d[Gender].Str? && ValidGender(d[Gender].s)) &&
    StrOrAbsent(d, Mood) &&
    BoundedStr(d, CustomInstructions, InstructionsMaxLength) &&
    BoundedStr(d, DefaultInstructions, InstructionsMaxLength) &&
    BoolOrAbsent(d, ImageGenerationEnabled) &&
    BoolOrAbsent(d, WebSearchEnabled) &&
    (AllowedChannels in d ==> d[AllowedChannels].Strs?)
  }

  /**
   * The declared default name is eleven characters, one more than the declared maximum, so a
   * document holding every default fails validation; with a non-empty id it is the only field
   * that does.
   */
  lemma DefaultNameExceedsMaximum(id: string)
    ensures Utf16Length(SettingsDefaults[Name].s) == NameMaxLength + 1
    ensures !ValidSettings(SettingsDefaults[Id := Str(id)])
    ensures ValidSettings(SettingsDefaults[Id := Str(id)][Name := Str("Kohana")]) <==> id != ""
  {
    Utf16LengthBmp("Kohana Yuki");
    Utf16LengthBmp("Kohana");
    Utf16LengthBounds(FixedInstructions);
    Utf16LengthBounds("");
  }

  /** A new document is a guild's (not a DM's), aged the string `15`, with both features off and no allowed channels. */
  lemma SettingsDefaultValues()
    ensures Get(SettingsDefaults, IsDm) == Some(Bool(false))
    ensures Get(SettingsDefaults, Age) == Some(Str("15"))
    ensures Get(SettingsDefaults, ImageGenerationEnabled) == Some(Bool(false))
    ensures Get(SettingsDefaults, WebSearchEnabled) == Some(Bool(false))
    ensures ChannelList(SettingsDefaults) == Some([])
  {
  }

  /** On a valid document, setting the gender is accepted exactly for the three listed values. */
  lemma GenderUpdateValid(d: Doc, g: string)
    requires ValidSettings(d)
    ensures ValidSettings(d[Gender := Str(g)]) <==> g == "male" || g == "female" || g == "transgender"
  {
  }

  /** On a valid document, either instruction text is accepted exactly up to 1000 UTF-16 code units. */
  lemma InstructionsUpdateValid(d: Doc, t: string)
    requires ValidSettings(d)
    ensures ValidSettings(d[CustomInstructions := Str(t)]) <==> Utf16Length(t) <= 1000
    ensures ValidSettings(d[DefaultInstructions := Str(t)]) <==> Utf16Length(t) <= 1000
  {
  }

  /** One text part of a stored message. */
  datatype Part = Part(text: string)

  /** One entry of a chat history: who spoke and what was said. */
  datatype HistoryEntry = HistoryEntry(role: string, parts: seq<Part>)

  /** The roles the chat-history schema's `enum` allows. */
  predicate KnownRole(e: HistoryEntry) {
    e.role == "user" || e.role == "bot"
  }

  /**
   * An entry the chat-history schema accepts: a known role, and every part with its required
   * text, which Mongoose refuses when empty.
   */
  predicate ValidEntry(e: HistoryEntry) {
    KnownRole(e) && forall p :: p in e.parts ==> p.text != ""
  }
}

=== FILE: settings_command.dfy ===
/**
 * The `/settings` command of the `src/` variant (`src/commands/settings.js`): the administrator
 * guard, the panel, the two forms, the channel menus and the reset, as one step on the store.
 *
 * Role renaming, embeds' wording and the Discord replies themselves are left out; a reply is
 * named by what it tells the user.
 */
module SettingsCommand {
  import opened Wrappers
  import opened Docs
  import opened Text
  import opened Lists
  import opened Schemas
  import opened MongoStore
  import Intake

  /** Who acts and where. */
  datatype Actor = Actor(userId: string, guildId: string, isDm: bool, isAdmin: bool)

  datatype Channel = Channel(id: string, isText: bool)

  /** The text the personality form returns, field by field. */
  datatype PersonalityForm = PersonalityForm(
    name: string, age: string, gender: string, mood: string,
    defaultInstructions: string, customInstructions: string)

  datatype Interaction =
    | Command(commandName: string)
    | Button(customId: string)
    | PersonalitySubmit(form: PersonalityForm)
    | ToggleSubmit(imageGen: string, webSearch: string)
    | OtherModal
    | SetChannelsSelect(values: seq<string>)
    | RemoveChannelsSelect(values: seq<string>)
    | OtherSelect
    | OtherInteraction

  datatype Reply =
    | NeedsAdmin
    | Panel(current: Doc, instructions: Value)
    | PersonalityFormShown(current: Doc, instructions: Value)
    | ToggleFormShown(imageGen: string, webSearch: string)
    | ServersOnly
    | NoTextChannels
    | NoChannelsSet
    | ChannelMenu(options: seq<string>, maxValues: nat)
    | ConfirmClear
    | Cleared
    | ClearFailed
    | ClearCancelled
    | InvalidGender
    | Updated
    | UpdateFailed
    | Crashed
    | NoReply

  datatype Step = Step(store: Store, reply: Reply)

  /** A select menu holds at most this many options. */
  const MenuLimit: nat := 25

  /** The guard every branch applies: in a guild only administrators may act. */
  predicate Refused(a: Actor) {
    !a.isDm && !a.isAdmin
  }

  /** The options of a select menu: the first 25 values, at most 25 of which may be picked. */
  function Menu(values: seq<string>): Reply {
    var options := if |values| > MenuLimit then values[..MenuLimit] else values;
    ChannelMenu(options, if |values| > MenuLimit then MenuLimit else |values|)
  }

  /** `toLowerCase() === 'yes'`. */
  predicate YesAnswer(s: string) {
    Lower(s) == "yes"
  }

  /** What the toggle form shows for a flag. */
  function YesNo(v: Option<Value>): string {
    if Truthy(v) then "yes" else "no"
  }

  /** The data the personality form writes; the gender is lower-cased. */
  function PersonalityData(f: PersonalityForm): Doc {
    map[Name := Str(f.name), Age := Str(f.age), Gender := Str(Lower(f.gender)), Mood := Str(f.mood),
        CustomInstructions := Str(f.customInstructions), DefaultInstructions := Str(f.defaultInstructions)]
  }

  function ToggleData(imageGen: bool, webSearch: bool): Doc {
    map[ImageGenerationEnabled := Bool(imageGen), WebSearchEnabled := Bool(webSearch)]
  }

  /**
   * The personality submission: a gender outside the enum is refused before anything is written.
   * `corrected` selects the store update without the set-on-insert conflict.
   */
  function SubmitPersonality(st: Store, contextId: string, isDm: bool, f: PersonalityForm, up: bool, corrected: bool): Step {
    if !ValidGender(Lower(f.gender)) then Step(st, InvalidGender)
    else
      var (st1, r) := if corrected then UpdateBotPersonalityFixed(st, contextId, PersonalityData(f), isDm, up)
                      else UpdateBotPersonality(st, contextId, PersonalityData(f), isDm, up);
      Step(st1, if r.Some? then Updated else UpdateFailed)
  }

  function ButtonPressed(st: Store, defaults: Doc, a: Actor, contextId: string, channels: seq<Channel>, id: string, up: bool): Step {
    var current := Intake.Personality(defaults, FindById(st, contextId, up));
    if id == "editPersonality" then Step(st, PersonalityFormShown(current, GetBotDefaultInstructions(st, up)))
    else if id == "toggleFeatures" then
      Step(st, ToggleFormShown(YesNo(Get(current, ImageGenerationEnabled)), YesNo(Get(current, WebSearchEnabled))))
    else if id == "setChannels" then
      if a.isDm then Step(st, ServersOnly)
      else
        var text := TextChannelIds(channels);
        if |text| == 0 then Step(st, NoTextChannels) else Step(st, Menu(text))
    else if id == "removeChannels" then
      if a.isDm then Step(st, ServersOnly)
      else (match AsList(Intake.GuildAllowList(st, contextId, up))
        case Ids(allowed) => if |allowed| == 0 then Step(st, NoChannelsSet) else Step(st, Menu(allowed))
        case _ => Step(st, Crashed))
    else if id == "clearDataButton" then Step(st, ConfirmClear)
    else if id == "confirmClear" then
      var (st1, ok) := ClearAllData(st, contextId, a.isDm, up);
      if ok then Step(UpdateBotPersonality(st1, contextId, defaults, a.isDm, up).0, Cleared)
      else Step(st1, ClearFailed)
    else if id == "cancelClear" then Step(st, ClearCancelled)
    else Step(st, NoReply)
  }

  /**
   * The add menu's selection: the union of the spread allow-list with the selection, in order, each
   * once; a string spreads into its characters. A value that is not iterable throws. A list holding
   * objects fails the schema's cast to strings, so the update reports failure and writes nothing.
   */
  function AddChannels(st: Store, contextId: string, selected: seq<string>, up: bool): Step {
    match SpreadOf(Intake.GuildAllowList(st, contextId, up))
    case NotAList => Step(st, Crashed)
    case Objects => Step(st, UpdateFailed)
    case Ids(existing) =>
      var (st1, r) := UpdateAllowedChannels(st, contextId, Dedup(existing + selected), up);
      Step(st1, if r.Some? then Updated else UpdateFailed)
  }

  /**
   * The remove menu's selection: the allowed channels without the selected ones. A value without
   * `filter`, a string included, throws; a list of objects survives the filter whole and then
   * fails the schema's cast, so the update reports failure.
   */
  function RemoveChannels(st: Store, contextId: string, selected: seq<string>, up: bool): Step {
    match AsList(Intake.GuildAllowList(st, contextId, up))
    case NotAList => Step(st, Crashed)
    case Objects => Step(st, UpdateFailed)
    case Ids(existing) =>
      var (st1, r) := UpdateAllowedChannels(st, contextId, Without(existing, selected), up);
      Step(st1, if r.Some? then Updated else UpdateFailed)
  }

  /** The toggle form's submission: each flag is on exactly when its answer is "yes" in any case. */
  function SubmitToggles(st: Store, contextId: string, isDm: bool, imageGen: string, webSearch: string, up: bool): Step {
    var (st1, r) := UpdateBotPersonality(st, contextId, ToggleData(YesAnswer(imageGen), YesAnswer(webSearch)), isDm, up);
    Step(st1, if r.Some? then Updated else UpdateFailed)
  }

  /** The ids of the text channels, in the guild's order. */
  function TextChannelIds(channels: seq<Channel>): (r: seq<string>)
    ensures forall x :: x in r <==> exists c :: c in channels && c.isText && c.id == x
  {
    if |channels| == 0 then []
    else
      var rest := TextChannelIds(channels[1..]);
      assert forall c :: c in channels[1..] ==> c in channels;
      assert forall c :: c in channels && c != channels[0] ==> c in channels[1..];
      if channels[0].isText then [channels[0].id] + rest else rest
  }

  /** One interaction: a command, a button press, a form submission or a menu selection. */
  function HandleInteraction(st: Store, defaults: Doc, a: Actor, channels: seq<Channel>, i: Interaction, up: bool): Step {
    var contextId := Intake.ContextOf(a.isDm, a.userId, a.guildId);
    match i
    case Command(name) =>
      if name != "settings" then Step(st, NoReply)
      else if Refused(a) then Step(st, NeedsAdmin)
      else
        var current := Intake.Personality(defaults, FindById(st, contextId, up));
        var instructions := if Truthy(Get(current, DefaultInstructions)) then current[DefaultInstructions] else GetBotDefaultInstructions(st, up);
        Step(st, Panel(current, instructions))
    case Button(id) =>
      if Refused(a) then Step(st, NeedsAdmin) else ButtonPressed(st, defaults, a, contextId, channels, id, up)
    case PersonalitySubmit(f) =>
      if Refused(a) then Step(st, NeedsAdmin) else SubmitPersonality(st, contextId, a.isDm, f, up, false)
    case ToggleSubmit(imageGen, webSearch) =>
      if Refused(a) then Step(st, NeedsAdmin) else SubmitToggles(st, contextId, a.isDm, imageGen, webSearch, up)
    case OtherModal => if Refused(a) then Step(st, NeedsAdmin) else Step(st, NoReply)
    case SetChannelsSelect(selected) =>
      if Refused(a) then Step(st, NeedsAdmin) else AddChannels(st, contextId, selected, up)
    case RemoveChannelsSelect(selected) =>
      if Refused(a) then Step(st, NeedsAdmin) else RemoveChannels(st, contextId, selected, up)
    case OtherSelect => if Refused(a) then Step(st, NeedsAdmin) else Step(st, NoReply)
    case OtherInteraction => Step(st, NoReply)
  }

  /** A non-administrator in a guild changes nothing, whatever they send. */
  lemma NonAdminChangesNothing(st: Store, defaults: Doc, a: Actor, channels: seq<Channel>, i: Interaction, up: bool)
    requires Refused(a)
    ensures var r := HandleInteraction(st, defaults, a, channels, i, up);
            r.store == st &&
            (r.reply == NeedsAdmin <==> !(i.OtherInteraction? || (i.Command? && i.commandName != "settings")))
  {
  }

  /** Channel lists can be edited only in a guild. */
  lemma ChannelButtonsNeedGuild(st: Store, defaults: Doc, a: Actor, channels: seq<Channel>, id: string, up: bool)
    requires a.isDm && (id == "setChannels" || id == "removeChannels")
    ensures HandleInteraction(st, defaults, a, channels, Button(id), up) == Step(st, ServersOnly)
  {
  }

  /**
   * A channel menu offers the first options in order, never more than 25 and never none, and
   * lets the user pick up to as many as it offers.
   */
  lemma MenuBounded(values: seq<string>)
    requires |values| > 0
    ensures var m := Menu(values);
            m.ChannelMenu? && 1 <= |m.options| <= MenuLimit && m.maxValues == |m.options| &&
            m.options == values[..|m.options|] &&
            (|values| <= MenuLimit ==> m.options == values)
  {
  }

  /** The add menu offers exactly the guild's text channels when there are at most 25. */
  lemma SetChannelsMenuOffersTextChannels(st: Store, defaults: Doc, a: Actor, channels: seq<Channel>, up: bool)
    requires !a.isDm && a.isAdmin
    ensures var r := HandleInteraction(st, defaults, a, channels, Button("setChannels"), up);
            var text := TextChannelIds(channels);
            r.store == st &&
            (|text| == 0 ==> r.reply == NoTextChannels) &&
            (0 < |text| <= MenuLimit ==> r.reply == ChannelMenu(text, |text|)) &&
            (r.reply.ChannelMenu? ==> forall x :: x in r.reply.options ==> exists c :: c in channels && c.isText && c.id == x)
  {
    var text := TextChannelIds(channels);
    if |text| > 0 {
      MenuBounded(text);
      var m := Menu(text);
      forall x | x in m.options
        ensures exists c :: c in channels && c.isText && c.id == x
      {
        assert x in text;
      }
    }
  }

  /** On a list of ids, the add and remove menus write the union and the difference with the selection. */
  lemma ChannelEditSteps(st: Store, contextId: string, selected: seq<string>, existing: seq<string>)
    requires Intake.GuildAllowList(st, contextId, true) == Some(Strs(existing))
    ensures AddChannels(st, contextId, selected, true) ==
              Step(UpdateAllowedChannels(st, contextId, Dedup(existing + selected), true).0, Updated)
    ensures RemoveChannels(st, contextId, selected, true) ==
              Step(UpdateAllowedChannels(st, contextId, Without(existing, selected), true).0, Updated)
  {
    assert SpreadOf(Intake.GuildAllowList(st, contextId, true)) == Ids(existing);
    assert AsList(Intake.GuildAllowList(st, contextId, true)) == Ids(existing);
  }

  /**
   * Adding channels keeps the allowed channels first and in order, then the new ones each once
   * in the order selected; the stored list stays free of duplicates.
   */
  lemma AddChannelsUnion(st: Store, contextId: string, selected: seq<string>, existing: seq<string>)
    requires Intake.GuildAllowList(st, contextId, true) == Some(Strs(existing))
    requires NoDup(existing)
    ensures var r := AddChannels(st, contextId, selected, true);
            var stored := existing + Dedup(Without(selected, existing));
            r.reply == Updated &&
            Intake.GuildAllowList(r.store, contextId, true) == Some(Strs(stored)) &&
            NoDup(stored) && (forall x :: x in stored <==> x in existing || x in selected)
  {
    ChannelEditSteps(st, contextId, selected, existing);
    UnionKeepsOldFirst(existing, selected);
    var stored := Dedup(existing + selected);
    UpdateAllowedChannelsReplaces(st, contextId, stored);
    DedupSpec(existing + selected);
    assert forall x :: x in stored <==> x in existing + selected;
  }

  /** Removing channels keeps the others in order and drops every selected one. */
  lemma RemoveChannelsFilters(st: Store, contextId: string, selected: seq<string>, existing: seq<string>)
    requires Intake.GuildAllowList(st, contextId, true) == Some(Strs(existing))
    ensures var r := RemoveChannels(st, contextId, selected, true);
            r.reply == Updated &&
            Intake.GuildAllowList(r.store, contextId, true) == Some(Strs(Without(existing, selected))) &&
            (forall x :: x in Without(existing, selected) <==> x in existing && x !in selected)
  {
    ChannelEditSteps(st, contextId, selected, existing);
    UpdateAllowedChannelsReplaces(st, contextId, Without(existing, selected));
    WithoutSpec(existing, selected);
  }

  /**
   * Selecting channels that were not allowed and then removing the same selection restores the
   * allow-list exactly.
   */
  lemma AddThenRemoveRestores(st: Store, contextId: string, selected: seq<string>, existing: seq<string>)
    requires Intake.GuildAllowList(st, contextId, true) == Some(Strs(existing))
    requires NoDup(existing)
    requires forall x :: x in selected ==> x !in existing
    ensures var st1 := AddChannels(st, contextId, selected, true).store;
            Intake.GuildAllowList(RemoveChannels(st1, contextId, selected, true).store, contextId, true) == Some(Strs(existing))
  {
    var st1 := AddChannels(st, contextId, selected, true).store;
    AddChannelsUnion(st, contextId, selected, existing);
    var stored := existing + Dedup(Without(selected, existing));
    RemoveChannelsFilters(st1, contextId, selected, stored);
    RemoveAfterUnion(existing, selected);
  }

  /**
   * On an allow-list that is not a list of ids: adding to a string stores its characters and the
   * selection; adding to or removing from a value with no array behaviour throws, removal from a
   * string too; a list of objects makes either edit report failure with nothing written.
   */
  lemma ChannelEditsOtherValues(st: Store, contextId: string, selected: seq<string>, t: string)
    ensures var v := Intake.GuildAllowList(st, contextId, true);
            v == Some(Str(t)) ==>
              RemoveChannels(st, contextId, selected, true) == Step(st, Crashed) &&
              var r := AddChannels(st, contextId, selected, true);
              r.reply == Updated &&
              Intake.GuildAllowList(r.store, contextId, true).Some? &&
              Intake.GuildAllowList(r.store, contextId, true).value.Strs? &&
              forall x :: x in Intake.GuildAllowList(r.store, contextId, true).value.xs <==> (|x| == 1 && x[0] in t) || x in selected
    ensures var v := Intake.GuildAllowList(st, contextId, true);
            v.Some? && (v.value.Num? || v.value.Bool? || v.value.Times?) ==>
              AddChannels(st, contextId, selected, true) == Step(st, Crashed) &&
              RemoveChannels(st, contextId, selected, true) == Step(st, Crashed)
    ensures AsList(Intake.GuildAllowList(st, contextId, true)).Objects? ==>
              AddChannels(st, contextId, selected, true) == Step(st, UpdateFailed) &&
              RemoveChannels(st, contextId, selected, true) == Step(st, UpdateFailed)
  {
    var v := Intake.GuildAllowList(st, contextId, true);
    if v == Some(Str(t)) {
      SpreadKinds(v);
      var existing := SpreadOf(v).ids;
      var stored := Dedup(existing + selected);
      UpdateAllowedChannelsReplaces(st, contextId, stored);
      DedupSpec(existing + selected);
    }
  }

  /** A gender outside the enum, after lower-casing, is refused and nothing is written. */
  lemma InvalidGenderRefused(st: Store, contextId: string, isDm: bool, f: PersonalityForm, up: bool, corrected: bool)
    requires !ValidGender(Lower(f.gender))
    ensures SubmitPersonality(st, contextId, isDm, f, up, corrected) == Step(st, InvalidGender)
  {
  }

  /** As written, a personality form with a valid gender is never saved, because it carries the default instructions. */
  lemma PersonalityFormNeverSaved(st: Store, defaults: Doc, a: Actor, channels: seq<Channel>, f: PersonalityForm, up: bool)
    requires !Refused(a) && ValidGender(Lower(f.gender))
    ensures HandleInteraction(st, defaults, a, channels, PersonalitySubmit(f), up) == Step(st, UpdateFailed)
  {
    PersonalityUpdateConflicts(st, Intake.ContextOf(a.isDm, a.userId, a.guildId), PersonalityData(f), a.isDm);
  }

  /** The form's data carries every field as typed, except the gender, which is lower-cased. */
  lemma PersonalityDataFields(f: PersonalityForm)
    ensures var d := PersonalityData(f);
            StrField(d, Name) == Some(f.name) && StrField(d, Age) == Some(f.age) &&
            StrField(d, Gender) == Some(Lower(f.gender)) && StrField(d, Mood) == Some(f.mood) &&
            StrField(d, CustomInstructions) == Some(f.customInstructions) &&
            StrField(d, DefaultInstructions) == Some(f.defaultInstructions) &&
            Id !in d && IsDm !in d
  {
  }

  /** With the conflict removed, a valid form is stored: every field it carries, and the DM flag. */
  lemma PersonalityFormSavedWhenCorrected(st: Store, contextId: string, isDm: bool, f: PersonalityForm)
    requires ValidGender(Lower(f.gender))
    ensures var r := SubmitPersonality(st, contextId, isDm, f, true, true);
            r.reply == Updated && contextId in r.store.settings &&
            Get(r.store.settings[contextId], IsDm) == Some(Bool(isDm)) &&
            forall k :: k in PersonalityData(f) ==> Get(r.store.settings[contextId], k) == Some(PersonalityData(f)[k])
  {
    PersonalityDataFields(f);
    UpdateBotPersonalityFixedWrites(st, contextId, PersonalityData(f), isDm);
  }

  /** The toggle form shows each flag of the current settings as "yes" or "no". */
  lemma ToggleFormShowsFlags(st: Store, defaults: Doc, a: Actor, channels: seq<Channel>, up: bool)
    requires !Refused(a)
    ensures var contextId := Intake.ContextOf(a.isDm, a.userId, a.guildId);
            var current := Intake.Personality(defaults, FindById(st, contextId, up));
            HandleInteraction(st, defaults, a, channels, Button("toggleFeatures"), up) ==
              Step(st, ToggleFormShown(YesNo(Get(current, ImageGenerationEnabled)), YesNo(Get(current, WebSearchEnabled))))
  {
  }

  /** A toggle submission stores each flag as whether its answer was "yes". */
  lemma ToggleSubmitStores(st: Store, contextId: string, isDm: bool, imageGen: string, webSearch: string)
    ensures var r := SubmitToggles(st, contextId, isDm, imageGen, webSearch, true);
            r.reply == Updated && contextId in r.store.settings &&
            Get(r.store.settings[contextId], ImageGenerationEnabled) == Some(Bool(YesAnswer(imageGen))) &&
            Get(r.store.settings[contextId], WebSearchEnabled) == Some(Bool(YesAnswer(webSearch)))
  {
  }

  /** Submitting the toggle form as shown stores each flag as the truth value it had. */
  lemma ToggleFormRoundTrip(st: Store, contextId: string, isDm: bool, current: Doc)
    ensures var r := SubmitToggles(st, contextId, isDm, YesNo(Get(current, ImageGenerationEnabled)), YesNo(Get(current, WebSearchEnabled)), true);
            contextId in r.store.settings &&
            Get(r.store.settings[contextId], ImageGenerationEnabled) == Some(Bool(Truthy(Get(current, ImageGenerationEnabled)))) &&
            Get(r.store.settings[contextId], WebSearchEnabled) == Some(Bool(Truthy(Get(current, WebSearchEnabled))))
  {
    YesNoAnswer(Get(current, ImageGenerationEnabled));
    YesNoAnswer(Get(current, WebSearchEnabled));
    ToggleSubmitStores(st, contextId, isDm, YesNo(Get(current, ImageGenerationEnabled)), YesNo(Get(current, WebSearchEnabled)));
  }

  /** The form's "yes" reads back as on and its "no" as off. */
  lemma YesNoAnswer(v: Option<Value>)
    ensures YesAnswer(YesNo(v)) == Truthy(v)
  {
    assert Lower("yes") == "yes";
    assert Lower("no")[0] == 'n';
  }

  /**
   * Confirming the reset, when the stored settings belong to this kind of context or there are
   * none, leaves exactly a fresh document with the defaults and no history of the context.
   */
  lemma ConfirmClearResets(st: Store, defaults: Doc, a: Actor, channels: seq<Channel>)
    requires Valid(st) && !Refused(a)
    requires Id !in defaults && DefaultInstructions !in defaults
    requires var contextId := Intake.ContextOf(a.isDm, a.userId, a.guildId);
             contextId !in st.settings || SettingsMatch(st, contextId, a.isDm)
    ensures var contextId := Intake.ContextOf(a.isDm, a.userId, a.guildId);
            var r := HandleInteraction(st, defaults, a, channels, Button("confirmClear"), true);
            r.reply == Cleared &&
            FindById(r.store, contextId, true) == Some(Inserted(contextId)[DefaultInstructions := Str(FixedInstructions)] + defaults[IsDm := Bool(a.isDm)]) &&
            (forall k: HistoryKey :: k.contextId == contextId && k.isDm == a.isDm ==> HistoryOf(r.store, k) == [])
  {
    var contextId := Intake.ContextOf(a.isDm, a.userId, a.guildId);
    ClearAllDataRemoves(st, contextId, a.isDm);
  }
}

=== FILE: text.dfy ===
/**
 * The JavaScript string operations the bot relies on, over `string` (a sequence of
 * Unicode scalar values): `trim`, ASCII case mapping, `includes`, `startsWith`,
 * `replace` of the first occurrence, `split` on one character, `join`, `parseInt`
 * and the decimal rendering of an integer.
 */
module Text {
  import opened Wrappers

  /** The characters `String.prototype.trim` removes (ECMAScript WhiteSpace and LineTerminator). */
  predicate IsSpace(c: char) {
    || c == ' ' || c == '\t' || c == '\n' || c == '\r'
    || c == '\U{000B}' || c == '\U{000C}' || c == '\U{00A0}' || c == '\U{FEFF}'
    || c == '\U{1680}' || ('\U{2000}' <= c <= '\U{200A}')
    || c == '\U{2028}' || c == '\U{2029}' || c == '\U{202F}' || c == '\U{205F}' || c == '\U{3000}'
  }

  predicate AllSpace(s: string) {
    forall i :: 0 <= i < |s| ==> IsSpace(s[i])
  }

  /** `trimStart`: drops the leading whitespace and nothing else. */
  function TrimStart(s: string): (r: string)
    ensures |r| <= |s| && r == s[|s| - |r|..]
    ensures r == [] || !IsSpace(r[0])
  {
    if |s| > 0 && IsSpace(s[0]) then TrimStart(s[1..]) else s
  }

  /** What `trimStart` removes is whitespace, and it removes everything exactly when all of it is. */
  lemma {:induction false} TrimStartRemovesSpace(s: string)
    ensures forall j :: 0 <= j < |s| - |TrimStart(s)| ==> IsSpace(s[j])
    ensures TrimStart(s) == [] <==> AllSpace(s)
    decreases |s|
  {
    if |s| > 0 && IsSpace(s[0]) {
      var tail := s[1..];
      TrimStartRemovesSpace(tail);
      forall j | 0 < j < |s| - |TrimStart(s)| ensures IsSpace(s[j]) {
        assert s[j] == tail[j - 1];
      }
      assert AllSpace(s) <==> AllSpace(tail) by {
        if AllSpace(tail) {
          forall j | 0 < j < |s| ensures IsSpace(s[j]) {
            assert s[j] == tail[j - 1];
          }
        }
      }
    }
  }

  /** `trimEnd`: drops the trailing whitespace and nothing else. */
  function TrimEnd(s: string): (r: string)
    ensures |r| <= |s| && r == s[..|r|]
    ensures r == [] || !IsSpace(r[|r| - 1])
  {
    if |s| > 0 && IsSpace(s[|s| - 1]) then TrimEnd(s[..|s| - 1]) else s
  }

  /** What `trimEnd` removes is whitespace, and it removes everything exactly when all of it is. */
  lemma {:induction false} TrimEndRemovesSpace(s: string)
    ensures AllSpace(s[|TrimEnd(s)|..])
    ensures TrimEnd(s) == [] <==> AllSpace(s)
    decreases |s|
  {
    if |s| > 0 && IsSpace(s[|s| - 1]) {
      var init := s[..|s| - 1];
      TrimEndRemovesSpace(init);
      var k := |TrimEnd(s)|;
      forall i | 0 <= i < |s| - k
        ensures IsSpace(s[k..][i])
      {
        if k + i < |s| - 1 {
          assert s[k..][i] == init[k..][i];
        }
      }
      assert AllSpace(s) <==> AllSpace(init) by {
        if AllSpace(init) {
          forall i | 0 <= i < |s| ensures IsSpace(s[i]) {
            if i < |s| - 1 { assert s[i] == init[i]; }
          }
        }
      }
    }
  }

  /** `trim`: `trimStart` followed by `trimEnd` (see `TrimIsBothEnds`), written as one recursion. */
  function Trim(s: string): (r: string)
    ensures |r| <= |s|
    ensures r == [] || (!IsSpace(r[0]) && !IsSpace(r[|r| - 1]))
    decreases |s|
  {
    if |s| > 0 && IsSpace(s[0]) then Trim(s[1..]) else TrimEnd(s)
  }

  lemma {:induction false} TrimIsBothEnds(s: string)
    ensures Trim(s) == TrimEnd(TrimStart(s))
    decreases |s|
  {
    if |s| > 0 && IsSpace(s[0]) {
      TrimIsBothEnds(s[1..]);
    }
  }

  /** A string trims to the empty string exactly when it is all whitespace. */
  lemma TrimEmptyIffAllSpace(s: string)
    ensures Trim(s) == [] <==> AllSpace(s)
  {
    var t := TrimStart(s);
    TrimIsBothEnds(s);
    TrimStartRemovesSpace(s);
    TrimEndRemovesSpace(t);
  }

  /** Trimming a string with no whitespace at either end returns it unchanged. */
  lemma TrimOfTrimmed(s: string)
    requires s == [] || (!IsSpace(s[0]) && !IsSpace(s[|s| - 1]))
    ensures Trim(s) == s
  {
  }

  lemma TrimIdempotent(s: string)
    ensures Trim(Trim(s)) == Trim(s)
  {
    TrimOfTrimmed(Trim(s));
  }

  function LowerChar(c: char): char {
    if 'A' <= c <= 'Z' then (c as int + 32) as char else c
  }

  function UpperChar(c: char): char {
    if 'a' <= c <= 'z' then (c as int - 32) as char else c
  }

  /** `toLowerCase`, restricted to the ASCII letters. */
  function Lower(s: string): (r: string)
    ensures |r| == |s|
    ensures forall i :: 0 <= i < |s| ==> r[i] == LowerChar(s[i])
  {
    seq(|s|, i requires 0 <= i < |s| => LowerChar(s[i]))
  }

  lemma LowerCharKeepsSpace(c: char)
    ensures IsSpace(LowerChar(c)) <==> IsSpace(c)
  {
  }

  /** Lower-casing changes no whitespace, so it commutes with `trimStart`. */
  lemma {:induction false} TrimStartLower(s: string)
    ensures TrimStart(Lower(s)) == Lower(TrimStart(s))
    decreases |s|
  {
    if |s| > 0 {
      LowerCharKeepsSpace(s[0]);
      if IsSpace(s[0]) {
        assert Lower(s)[1..] == Lower(s[1..]);
        TrimStartLower(s[1..]);
      }
    }
  }

  /** Lower-casing changes no whitespace, so it commutes with `trimEnd`. */
  lemma {:induction false} TrimEndLower(s: string)
    ensures TrimEnd(Lower(s)) == Lower(TrimEnd(s))
    decreases |s|
  {
    if |s| > 0 {
      LowerCharKeepsSpace(s[|s| - 1]);
      if IsSpace(s[|s| - 1]) {
        assert Lower(s)[..|s| - 1] == Lower(s[..|s| - 1]);
        TrimEndLower(s[..|s| - 1]);
      }
    }
  }

  /** `message.toLowerCase().trim()` and `message.trim().toLowerCase()` agree. */
  lemma TrimLowerCommute(s: string)
    ensures Trim(Lower(s)) == Lower(Trim(s))
  {
    TrimIsBothEnds(s);
    TrimIsBothEnds(Lower(s));
    TrimStartLower(s);
    TrimEndLower(TrimStart(s));
  }

  /** `toUpperCase`, restricted to the ASCII letters. */
  function Upper(s: string): (r: string)
    ensures |r| == |s|
    ensures forall i :: 0 <= i < |s| ==> r[i] == UpperChar(s[i])
  {
    seq(|s|, i requires 0 <= i < |s| => UpperChar(s[i]))
  }

  predicate StartsWith(s: string, prefix: string) {
    |prefix| <= |s| && s[..|prefix|] == prefix
  }

  /** `s.includes(sub)`: `sub` occurs at some position of `s`. */
  predicate Contains(s: string, sub: string)
    decreases |s|
  {
    StartsWith(s, sub) || (|s| > 0 && Contains(s[1..], sub))
  }

  /** An occurrence at a known position is found by `Contains`. */
  lemma {:induction false} ContainsAt(s: string, sub: string, i: nat)
    requires i + |sub| <= |s| && s[i..i + |sub|] == sub
    ensures Contains(s, sub)
    decreases i
  {
    if i == 0 {
      assert s[..|sub|] == sub;
    } else {
      assert s[1..][i - 1..i - 1 + |sub|] == s[i..i + |sub|];
      ContainsAt(s[1..], sub, i - 1);
    }
  }

  /** Whatever is spliced between two strings occurs in the result. */
  lemma ContainsMiddle(a: string, sub: string, b: string)
    ensures Contains(a + sub + b, sub)
  {
    var s := a + sub + b;
    assert s[|a|..|a| + |sub|] == sub;
    ContainsAt(s, sub, |a|);
  }

  /** `sub` occurs in `s` starting at position `j`. */
  predicate OccursAt(s: string, sub: string, j: nat) {
    j + |sub| <= |s| && s[j..j + |sub|] == sub
  }

  /** The position of the first occurrence of `sub` in `s`, as `indexOf` reports it. */
  function IndexOf(s: string, sub: string): (r: Option<nat>)
    ensures r.Some? ==> OccursAt(s, sub, r.value)
    ensures r.Some? ==> forall j: nat :: j < r.value ==> !OccursAt(s, sub, j)
    ensures r.Some? <==> Contains(s, sub)
    decreases |s|
  {
    if StartsWith(s, sub) then Some(0)
    else if |s| == 0 then None
    else match IndexOf(s[1..], sub)
      case None => None
      case Some(i) =>
        assert forall j: nat :: 1 <= j ==> (OccursAt(s, sub, j) <==> OccursAt(s[1..], sub, j - 1));
        Some(i + 1)
  }

  /** A word with no whitespace in it, not even at its ends. */
  predicate NoSpace(w: string) {
    forall k :: 0 <= k < |w| ==> !IsSpace(w[k])
  }

  /** `trimStart` removes only whitespace, so an occurrence of such a word moves left by what was removed. */
  lemma {:induction false} TrimStartKeepsWord(s: string, w: string, i: nat)
    requires OccursAt(s, w, i) && |w| > 0 && NoSpace(w)
    ensures var t := TrimStart(s); |s| - |t| <= i && OccursAt(t, w, i - (|s| - |t|))
    decreases |s|
  {
    if |s| > 0 && IsSpace(s[0]) {
      assert s[i] == s[i..i + |w|][0];
      assert i > 0;
      assert s[1..][i - 1..i - 1 + |w|] == s[i..i + |w|];
      TrimStartKeepsWord(s[1..], w, i - 1);
    }
  }

  /** `trimEnd` removes only whitespace, so an occurrence of such a word stays where it was. */
  lemma TrimEndKeepsWord(s: string, w: string, i: nat)
    requires OccursAt(s, w, i) && |w| > 0 && NoSpace(w)
    ensures OccursAt(TrimEnd(s), w, i)
  {
    var u := TrimEnd(s);
    var last := i + |w| - 1;
    assert !IsSpace(s[last]) by { assert s[last] == s[i..i + |w|][|w| - 1]; }
    TrimEndRemovesSpace(s);
    forall j | |u| <= j < |s| ensures IsSpace(s[j]) {
      assert s[|u|..][j - |u|] == s[j];
    }
    assert u[i..i + |w|] == s[i..i + |w|];
  }

  /** An occurrence of a word without whitespace survives trimming. */
  lemma TrimKeepsWord(s: string, w: string)
    requires Contains(s, w) && |w| > 0 && NoSpace(w)
    ensures Contains(Trim(s), w)
  {
    var i := IndexOf(s, w).value;
    TrimIsBothEnds(s);
    TrimStartKeepsWord(s, w, i);
    var t := TrimStart(s);
    var j := i - (|s| - |t|);
    TrimEndKeepsWord(t, w, j);
    ContainsAt(Trim(s), w, j);
  }

  /** An occurrence of a word that upper-casing leaves alone survives upper-casing. */
  lemma UpperKeepsWord(s: string, w: string)
    requires Contains(s, w)
    requires forall k :: 0 <= k < |w| ==> UpperChar(w[k]) == w[k]
    ensures Contains(Upper(s), w)
  {
    var i := IndexOf(s, w).value;
    var u := Upper(s);
    assert u[i..i + |w|] == w by {
      forall k | 0 <= k < |w| ensures u[i..i + |w|][k] == w[k] {
        assert s[i..i + |w|][k] == w[k];
      }
    }
    ContainsAt(u, w, i);
  }

  /** Upper-casing a string upper-cases every occurrence in it, in place. */
  lemma UpperOfOccurrence(s: string, w: string, i: nat)
    requires OccursAt(s, w, i)
    ensures OccursAt(Upper(s), Upper(w), i)
  {
    assert Upper(s)[i..i + |w|] == Upper(w) by {
      forall k | 0 <= k < |w| ensures Upper(s)[i..i + |w|][k] == Upper(w)[k] {
        assert s[i..i + |w|][k] == w[k];
      }
    }
  }

  /** An occurrence stays an occurrence when text is appended. */
  lemma ContainsExtend(a: string, sub: string, b: string)
    requires Contains(a, sub)
    ensures Contains(a + b, sub)
  {
    var i := IndexOf(a, sub).value;
    assert (a + b)[i..i + |sub|] == a[i..i + |sub|];
    ContainsAt(a + b, sub, i);
  }

  /** A string cannot contain anything longer than itself. */
  lemma {:induction false} ContainsNoLonger(s: string, sub: string)
    requires Contains(s, sub)
    ensures |sub| <= |s|
    decreases |s|
  {
    if !StartsWith(s, sub) {
      ContainsNoLonger(s[1..], sub);
    }
  }

  /** A string in which a character never appears does not contain it. */
  lemma {:induction false} NotContainsChar(s: string, c: char)
    requires forall k :: 0 <= k < |s| ==> s[k] != c
    ensures !Contains(s, [c])
    decreases |s|
  {
    if |s| > 0 {
      assert s[..1] != [c] by { assert s[..1][0] == s[0]; }
      NotContainsChar(s[1..], c);
    }
  }

  /** `s.replace(pattern, replacement)` with a string pattern: only the first occurrence is replaced. */
  function ReplaceFirst(s: string, pattern: string, replacement: string): (r: string)
  {
    match IndexOf(s, pattern)
    case None => s
    case Some(i) => s[..i] + replacement + s[i + |pattern|..]
  }

  /** `s.split(c)` for a one-character separator. */
  function Split(s: string, c: char): (r: seq<string>)
    ensures |r| >= 1
  {
    if |s| == 0 then [""]
    else
      var rest := Split(s[1..], c);
      if s[0] == c then [""] + rest
      else [[s[0]] + rest[0]] + rest[1..]
  }

  /** No field of a split holds the separator. */
  lemma {:induction false} SplitFieldsFree(s: string, c: char)
    ensures forall i :: 0 <= i < |Split(s, c)| ==> c !in Split(s, c)[i]
    decreases |s|
  {
    if |s| > 0 {
      SplitFieldsFree(s[1..], c);
      var rest := Split(s[1..], c);
      if s[0] != c {
        assert forall k :: 0 <= k < |rest[0]| ==> ([s[0]] + rest[0])[k + 1] == rest[0][k];
      }
    }
  }

  /** `parts.join(sep)`. */
  function Join(parts: seq<string>, sep: string): string
  {
    if |parts| == 0 then ""
    else if |parts| == 1 then parts[0]
    else parts[0] + sep + Join(parts[1..], sep)
  }

  /** Splitting and joining again with the same separator gives back the original string. */
  lemma {:induction false} SplitJoin(s: string, c: char)
    ensures Join(Split(s, c), [c]) == s
    decreases |s|
  {
    if |s| > 0 {
      SplitJoin(s[1..], c);
      var rest := Split(s[1..], c);
      if s[0] == c {
        assert s == [c] + s[1..];
      } else {
        if |rest| == 1 {
          assert Join(rest, [c]) == rest[0];
        } else {
          assert Join(rest, [c]) == rest[0] + [c] + Join(rest[1..], [c]);
        }
        assert s == [s[0]] + s[1..];
      }
    }
  }

  /** A string without the separator splits into itself alone. */
  lemma {:induction false} SplitNoSeparator(s: string, c: char)
    requires c !in s
    ensures Split(s, c) == [s]
  {
    if |s| > 0 {
      SplitNoSeparator(s[1..], c);
      assert [s[0]] + s[1..] == s;
    }
  }

  /** A piece free of the separator, followed by the separator, becomes one field of the split. */
  lemma {:induction false} SplitFirstField(a: string, c: char, b: string)
    requires c !in a
    ensures Split(a + [c] + b, c) == [a] + Split(b, c)
    decreases |a|
  {
    if |a| == 0 {
      assert a + [c] + b == [c] + b;
      assert ([c] + b)[1..] == b;
    } else {
      assert (a + [c] + b)[1..] == a[1..] + [c] + b;
      SplitFirstField(a[1..], c, b);
      assert [a[0]] + a[1..] == a;
    }
  }

  predicate IsDigit(c: char) {
    '0' <= c <= '9'
  }

  predicate IsHexDigit(c: char) {
    IsDigit(c) || 'a' <= c <= 'f' || 'A' <= c <= 'F'
  }

  function HexValue(c: char): nat
    requires IsHexDigit(c)
  {
    if IsDigit(c) then c as int - '0' as int
    else if 'a' <= c <= 'f' then c as int - 'a' as int + 10
    else c as int - 'A' as int + 10
  }

  /** The longest prefix of `s` whose characters satisfy `digit`. */
  function DigitPrefix(s: string, hex: bool): (r: string)
    ensures |r| <= |s| && r == s[..|r|]
    ensures forall i :: 0 <= i < |r| ==> (if hex then IsHexDigit(r[i]) else IsDigit(r[i]))
    ensures |r| < |s| ==> !(if hex then IsHexDigit(s[|r|]) else IsDigit(s[|r|]))
  {
    if |s| > 0 && (if hex then IsHexDigit(s[0]) else IsDigit(s[0]))
    then [s[0]] + DigitPrefix(s[1..], hex)
    else ""
  }

  /** The value of a digit string in the given radix (10 or 16). */
  function DigitsValue(ds: string, hex: bool): nat
    requires forall i :: 0 <= i < |ds| ==> IsHexDigit(ds[i])
  {
    if |ds| == 0 then 0
    else DigitsValue(ds[..|ds| - 1], hex) * (if hex then 16 else 10) + HexValue(ds[|ds| - 1])
  }

  /** The unsigned part of `parseInt`: a `0x`/`0X` prefix selects hexadecimal, then the longest digit run is read. */
  function ParseUnsigned(u: string): Option<nat>
  {
    var hex := |u| >= 2 && u[0] == '0' && (u[1] == 'x' || u[1] == 'X');
    var ds := DigitPrefix(if hex then u[2..] else u, hex);
    if |ds| == 0 then None else Some(DigitsValue(ds, hex))
  }

  /**
   * `parseInt(s)` with no radix: leading whitespace is skipped, an optional sign is read
   * and the unsigned part converted; `None` is `NaN` (no digit at all).
   */
  function ParseInt(s: string): (r: Option<int>)
  {
    var t := TrimStart(s);
    var negative := |t| > 0 && t[0] == '-';
    var unsigned := if |t| > 0 && (t[0] == '-' || t[0] == '+') then t[1..] else t;
    match ParseUnsigned(unsigned)
    case None => None
    case Some(v) =>
      var value: int := if negative then 0 - (v as int) else v as int;
      Some(value)
  }

  function DigitChar(d: nat): (c: char)
    requires d < 10
    ensures IsDigit(c)
  {
    ('0' as int + d) as char
  }

  /** The decimal rendering of a natural number, as `String(n)` produces it. */
  function NatToString(n: nat): (r: string)
    ensures |r| >= 1
    ensures forall i :: 0 <= i < |r| ==> IsDigit(r[i])
    ensures r[0] == '0' ==> n == 0
  {
    if n < 10 then [DigitChar(n)] else NatToString(n / 10) + [DigitChar(n % 10)]
  }

  /** The decimal rendering of an integer, with a leading `-` when negative. */
  function IntToString(n: int): (r: string)
    ensures forall i :: 0 <= i < |r| ==> IsDigit(r[i]) || r[i] == '-'
  {
    if n < 0 then "-" + NatToString(-n) else NatToString(n)
  }

  lemma {:induction false} NatToStringValue(n: nat)
    ensures DigitsValue(NatToString(n), false) == n
  {
    if n >= 10 {
      NatToStringValue(n / 10);
      var s := NatToString(n);
      assert s[..|s| - 1] == NatToString(n / 10);
    }
  }

  lemma DigitPrefixOfDigits(s: string)
    requires forall i :: 0 <= i < |s| ==> IsDigit(s[i])
    ensures DigitPrefix(s, false) == s
  {
  }

  /** A plain decimal digit string not starting with `0x` parses to its value. */
  lemma ParseUnsignedOfNatToString(m: nat)
    ensures ParseUnsigned(NatToString(m)) == Some(m)
  {
    var digits := NatToString(m);
    DigitPrefixOfDigits(digits);
    NatToStringValue(m);
    if m == 0 {
      assert digits == "0";
    }
  }

  /** The largest integer a JavaScript number holds exactly, 2^53. */
  const MaxSafeInteger: int := 0x20_0000_0000_0000

  /**
   * `parseInt` reads back every integer that `String` renders, within the range a JavaScript
   * number holds exactly; beyond it `parseInt` rounds to the nearest double.
   */
  lemma ParseIntOfIntToString(n: int)
    requires -MaxSafeInteger <= n <= MaxSafeInteger
    ensures ParseInt(IntToString(n)) == Some(n)
  {
    var m: nat := if n < 0 then -n else n;
    ParseUnsignedOfNatToString(m);
    var s := IntToString(n);
    assert !IsSpace(s[0]);
    assert TrimStart(s) == s;
    if n < 0 {
      assert s[1..] == NatToString(m);
    } else {
      assert s == NatToString(m);
    }
  }

  /** One UTF-16 code unit: what JavaScript's `length`, indexing and `substring` count. */
  type CodeUnit = x: int | 0 <= x < 0x1_0000

  /** How many code units a string occupies in UTF-16: two for a character above U+FFFF, one otherwise. */
  function Utf16Length(s: string): nat {
    if |s| == 0 then 0
    else Utf16Length(s[..|s| - 1]) + (if s[|s| - 1] as int > 0xFFFF then 2 else 1)
  }

  /** The UTF-16 encoding of one character: itself, or a high surrogate followed by a low one. */
  function Utf16Char(c: char): (r: seq<CodeUnit>)
    ensures |r| == if c as int > 0xFFFF then 2 else 1
  {
    if c as int <= 0xFFFF then [c as int]
    else
      var v := c as int - 0x1_0000;
      [0xD800 + v / 0x400, 0xDC00 + v % 0x400]
  }

  /** The UTF-16 encoding of a string: the code units a JavaScript string holds for it. */
  function Utf16(s: string): (r: seq<CodeUnit>)
    ensures |r| == Utf16Length(s)
  {
    if |s| == 0 then [] else Utf16(s[..|s| - 1]) + Utf16Char(s[|s| - 1])
  }

  /** A string counts between one and two code units per character. */
  lemma {:induction false} Utf16LengthBounds(s: string)
    ensures |s| <= Utf16Length(s) <= 2 * |s|
    ensures Utf16Length(s) == 0 <==> s == ""
  {
    if |s| > 0 {
      Utf16LengthBounds(s[..|s| - 1]);
    }
  }

  /** A string of characters up to U+FFFF counts one code unit per character. */
  lemma {:induction false} Utf16LengthBmp(s: string)
    requires forall i :: 0 <= i < |s| ==> s[i] as int <= 0xFFFF
    ensures Utf16Length(s) == |s|
  {
    if |s| > 0 {
      Utf16LengthBmp(s[..|s| - 1]);
    }
  }

  /** A string of characters above U+FFFF counts two code units per character. */
  lemma {:induction false} WideCharsCountTwice(s: string)
    requires forall i :: 0 <= i < |s| ==> s[i] as int > 0xFFFF
    ensures Utf16Length(s) == 2 * |s|
  {
    if |s| > 0 {
      WideCharsCountTwice(s[..|s| - 1]);
    }
  }

  /** Code units add up over concatenation. */
  lemma {:induction false} Utf16Append(a: string, b: string)
    ensures Utf16(a + b) == Utf16(a) + Utf16(b)
    ensures Utf16Length(a + b) == Utf16Length(a) + Utf16Length(b)
    decreases |b|
  {
    if |b| == 0 {
      assert a + b == a;
    } else {
      var b' := b[..|b| - 1];
      assert (a + b)[..|a + b| - 1] == a + b';
      assert (a + b)[|a + b| - 1] == b[|b| - 1];
      Utf16Append(a, b');
    }
  }
}

=== FILE: wrappers.dfy ===
/** The optional value used wherever the JavaScript code has `null`/`undefined`. */
module Wrappers {

  datatype Option<+T> = None | Some(value: T) {

    /** Returns the value, or `default` when there is none. */
    function GetOr(default: T): T {
      match this
      case Some(v) => v
      case None => default
    }
  }
}
